=== FILE: README.md ===
# fcm-rust in Dafny

A model of the pure core of `fcm`, a Rust client for Firebase Cloud Messaging
(HTTP v1 API), with proofs about it. The model has three parts.

- **The wire encoding of a message.**
  - JSON is an abstract tree (`Json.Json`) whose objects are ordered `(key, value)` lists. Lookup is last-occurrence-wins, as in `serde_json::Map`.
  - Each struct is a list of serde "slots" (`Serde.Slot`):
    - a field with `skip_serializing_if = "Option::is_none"` is dropped when `None`;
    - a field without that attribute is always written, and an `Option` in it as `null`.
  - `SkipNone` writes the slots in declaration order.
  - The message envelope flattens its `Target` into one top-level key.
  - The three closed Android enums are written as their upper-cased variant names.
  - Every encoder has a decoder, and a round-trip lemma connects the two.
  - Lemmas also cover presence, absence and key counts field by field.
- **The `Retry-After` parser and the error-name table.**
  - `RetryAfters.FromStr` tries an `i64` first, modelled exactly: sign, ASCII digits and 64-bit range.
  - It then falls back to an RFC 2822 date-time (section 3.3 of RFC 2822).
  - A number that `Duration::seconds` cannot hold makes the source panic. The model keeps that reading as `RetryAfters.FromStrAsWritten` and reads headers with the total, corrected `RetryAfters.FromStr` (see "## Findings").
  - The date-time parser is a parameter, so every property holds for any parser.
  - `Rfc2822.Parse` is a concrete subset parser with a format/parse round trip. It is used for the library's own example date.
  - `Responses` holds the `ErrorReason` name table and the deserialization of `Response` and `MessageResult`.
- **The decisions in the send pipeline**, as pure functions.
  - The builder setters and the choice of credential source.
  - The URL template.
  - The three-way `Retry-After` header outcome, the lenient body decoding and the status pass-through.
  - The "access token missing" predicates.
  - Both OAuth back ends:
    - yup_oauth2 (`OauthYup`): step order and error mapping.
    - gauth (`OauthGauth`): reading the project id from key JSON, and stripping `Bearer ` by splitting at every whitespace character.

Everything the source hands to a library becomes a function parameter or an input value: reading files, parsing JSON, the environment, building HTTP clients and authenticators, issuing tokens, the HTTP exchange itself, and chrono's date parser. The model states what the source does with each outcome.

The library's files come from more than one revision of it, and each is modelled as written.
- The older `src/android/mod.rs`, `src/apns/mod.rs` and `src/web/mod.rs` have their own encoders. Lemmas relate each to the current one (`LegacyAndroidConfigAgrees`, `LegacyApnsConfigAgrees`, ...).
- `src/client/mod.rs` and `src/client/internal_client.rs` are two clients over one shared answer-capture model.

Where a type is used by one file but declared in a file that is not part of this model, the model takes the plainest reading and says so in the module's comments.
- `AndroidConfig::finalize`, `Notification::finalize`, `WebpushConfig::finalize` and `ApnsConfig::finalize` are not part of this model.
- The Android configuration's finalize is taken to finalize its notification and copy the rest. The others are taken as the identity.

Three places where revisions disagree:
- `src/client/mod.rs:28` declares `RetryAfterHttpHeaderInvalid.error` as `chrono::ParseError`. The `parse::<RetryAfter>()` it wraps (src/client/response.rs:178-189) yields `RetryAfterParseError`, and the model carries that type.
- The message tests (src/message/tests.rs:21-74) expect `"target": "token"`. `output_target` (src/message/mod.rs:25-36) writes the variant's own key, `"token": "<the token>"`. The model follows `output_target`.
- `FcmClientInternal::send` (src/client/internal_client.rs:54) takes a `Message` and passes it to `MessageWrapper::new` (internal_client.rs:66). That constructor takes a `MessageInternal` (src/message/mod.rs:113). `InternalClient.RequestBody` inserts `Message::finalize` (src/message/mod.rs:92-102) between the two, the only conversion the library declares from one to the other.

## Model

| member | source | states |
|---|---|---|
| Targets.OutputTarget | src/message/mod.rs:25-36 | `output_target` writes exactly one entry; its key is one of `token`, `topic`, `condition` and its value is the carried string unchanged |
| Targets.OutputTargetRoundTrip | src/message/mod.rs:25-36 | the written entry reads back as the same target |
| Targets.OutputTargetInjective | src/message/mod.rs:30-34 | two targets give the same entry exactly when they are the same target |
| Targets.TargetEquality | src/message/target.rs:3-9 | the derived equality: two targets are equal iff they have the same variant and the same string |
| Targets.TagIsOutputKey | src/message/target.rs:4 | the lowercase serde tag of each variant is the key `output_target` writes |
| Targets.ReadTargetAmong | src/message/mod.rs:65-67 | a flattened target entry is found at top level among any other keys that are not target keys |
| Notifications.EncodeNotification | src/notification/mod.rs:6-20 | the notification is an object with one distinct key per set field, each key a field name |
| Notifications.NotificationFieldsPresent | src/notification/mod.rs:10-19 | `title`, `body`, `image` are each present exactly when set, holding the string verbatim |
| Notifications.NotificationRoundTrip | src/notification/mod.rs:6-20 | the encoded notification reads back unchanged |
| Notifications.DefaultNotificationEncoding | src/notification/mod.rs:6-20 | the default notification (all `None`) is written as `{}` |
| Notifications.FullNotificationEncoding | src/notification/tests.rs:5-22 | with all three set the object is exactly `title`, `body`, `image` in that order |
| Messages.FcmOptionsEncoding | src/message/fcm_options.rs:3-8 | `analytics_label` is always written, even when empty |
| Messages.FcmOptionsRoundTrip | src/message/fcm_options.rs:3-8 | the options read back unchanged |
| Messages.MessageFieldsPresent | src/message/mod.rs:38-68 | each of `data`, `notification`, `android`, `webpush`, `apns`, `fcm_options` is present exactly when set, with its own encoding; the target's string sits under its variant's key |
| Messages.MessageShape | src/message/mod.rs:38-68 | the message has one entry per set field plus the target entry last, with no key twice (the target is flattened, never nested) |
| Messages.MessageKeys | src/message/mod.rs:41-63 | the non-flattened part has distinct keys, all of them field names |
| Messages.MessageFieldsAreNotTargetKeys | src/message/mod.rs:38-68 | no field name collides with a target key, so flattening cannot shadow a field |
| Messages.MessageKeyCount | src/message/mod.rs:41-63 | the non-flattened part has as many keys as set fields, and is `{}` when none is set |
| Messages.MessageRoundTrip | src/message/mod.rs:38-68 | the wire form reads back as the same message, target included |
| Messages.TargetOnlyMessage | src/message/mod.rs:25-67 | a message with only a target is an object with exactly the target's one key |
| Messages.DataOnlyMessage | src/message/mod.rs:41-43 | custom data is written verbatim under `data`, before the target |
| Messages.DefaultNotificationMessage | src/message/mod.rs:45-47 | a default notification is written as `"notification": {}` |
| Messages.FinalizeMessageKeeps | src/message/mod.rs:90-102 | `finalize` keeps `data` and `target`, keeps each optional block set exactly when it was, finalizes the Android block and passes the others through unchanged |
| Messages.FinalizedMessageRoundTrip | src/message/mod.rs:90-102 | a finalized message is sent without loss, and its target survives |
| Messages.EncodeWrapper | src/message/mod.rs:104-116 | the request body is an object whose single key is `message` |
| Messages.WrapperRoundTrip | src/message/mod.rs:104-116 | the body reads back as the wrapped message |
| AndroidEnums.MessagePriorityTokens | src/android/mod.rs:190-197 | `Normal`/`High` are written `"NORMAL"`/`"HIGH"` |
| AndroidEnums.MessagePriorityTokenRoundTrip | src/android/mod.rs:190-197 | a string reads as a priority exactly when it is that priority's token, and only the two tokens read |
| AndroidEnums.MessagePriorityRoundTrip | src/android/mod.rs:190-197 | the written priority reads back |
| AndroidEnums.MessagePriorityTokenInjective | src/android/mod.rs:190-197 | distinct priorities have distinct tokens |
| AndroidEnums.NotificationPriorityTokens | src/android/mod.rs:199-210 | the six tokens are the plain upper-cased names, e.g. `"PRIORITYMIN"`, `"PRIORITYUNSPECIFIED"` |
| AndroidEnums.NotificationPriorityTokenRoundTrip | src/android/mod.rs:199-210 | a string reads as a priority iff it is that priority's token; exactly the six tokens read |
| AndroidEnums.NotificationPriorityRoundTrip | src/android/mod.rs:199-210 | the written notification priority reads back |
| AndroidEnums.NotificationPriorityTokenInjective | src/android/mod.rs:199-210 | distinct notification priorities have distinct tokens |
| AndroidEnums.VisibilityTokens | src/android/visibility.rs:3-12 | `"VISIBILITYUNSPECIFIED"`, `"PRIVATE"`, `"PUBLIC"`, `"SECRET"` |
| AndroidEnums.VisibilityTokenRoundTrip | src/android/visibility.rs:7-12 | exactly the four tokens read as a visibility, each as its own value |
| AndroidEnums.VisibilityRoundTrip | src/android/visibility.rs:3-12 | the written visibility reads back |
| AndroidEnums.VisibilityTokenInjective | src/android/visibility.rs:5-12 | the encoding is injective over the four values |
| AndroidNotifications.LightSettingsAlwaysWritten | src/android/mod.rs:58-71 | `color`, `light_on_duration`, `light_off_duration` are always written, in order; finalizing does not change the wire form |
| AndroidNotifications.LightSettingsRoundTrip | src/android/light_settings.rs:5-18 | light settings read back unchanged |
| AndroidNotifications.FinalizeAndroidNotification | src/android/android_notification.rs:230 | `light_settings`: `None` stays `None`, `Some(x)` becomes `Some(x.finalize())` |
| AndroidNotifications.FinalizeKeepsOtherFields | src/android/android_notification.rs:204-234 | `finalize` copies the 24 other fields unchanged |
| AndroidNotifications.AndroidNotificationFieldsWritten | src/android/android_notification.rs:11-117 | each of the 25 fields is present under its own name exactly when set, holding its encoding (enums as closed tokens) |
| AndroidNotifications.AndroidNotificationKeys | src/android/android_notification.rs:11-117 | no key twice and no key outside the 25 field names |
| AndroidNotifications.AndroidNotificationKeyCount | src/android/android_notification.rs:11-117 | one key per set field, so an all-`None` notification is `{}` |
| AndroidNotifications.AndroidNotificationRoundTrip | src/android/android_notification.rs:11-117 | the wire form reads back unchanged |
| AndroidNotifications.LegacyAndroidNotificationAgrees | src/android/mod.rs:73-181 | the older revision, serialized directly, writes what the current one writes after `finalize` |
| AndroidConfigs.AndroidFcmOptionsEncoding | src/android/mod.rs:183-188 | `analytics_label` is always written, even when empty |
| AndroidConfigs.AndroidFcmOptionsRoundTrip | src/android/android_fcm_options.rs:5-8 | the options read back unchanged |
| AndroidConfigs.AndroidConfigFieldsWritten | src/android/android_config.rs:15-45 | each field is present exactly when set: `data` verbatim, `notification` nested, `priority` as a closed token |
| AndroidConfigs.AndroidConfigKeys | src/android/android_config.rs:10-46 | no key twice and no key outside the eight field names |
| AndroidConfigs.AndroidConfigKeyCount | src/android/android_config.rs:15-45 | one key per set field |
| AndroidConfigs.DefaultAndroidConfigEncoding | src/android/android_config.rs:10-46 | the default configuration is written as `{}` |
| AndroidConfigs.AndroidConfigRoundTrip | src/android/android_config.rs:10-46 | the wire form reads back unchanged |
| AndroidConfigs.LegacyAndroidConfigAgrees | src/android/mod.rs:4-40 | the older configuration writes what the current one writes after finalizing |
| Apns.ApnsFcmOptionsEncoding | src/apns/apns_fcm_options.rs:3-11 | both keys are always written; `Some(s)` as `s`, `None` as `null` |
| Apns.DefaultApnsFcmOptionsEncoding | src/apns/apns_fcm_options.rs:3-11 | the default is `{"analytics_label": null, "image": null}` |
| Apns.ApnsFcmOptionsRoundTrip | src/apns/apns_fcm_options.rs:5-11 | the options, `null`s included, read back unchanged |
| Apns.LegacyApnsFcmOptionsAgree | src/apns/mod.rs:20-28 | the older options always write both strings, as the current ones do when both are set |
| Apns.ApnsConfigFieldsWritten | src/apns/apns_config.rs:9-19 | `headers`, `payload` verbatim and `fcm_options` nested, each present exactly when set |
| Apns.ApnsConfigKeys | src/apns/apns_config.rs:6-20 | no key twice and no key outside the three field names |
| Apns.ApnsConfigKeyCount | src/apns/apns_config.rs:9-19 | one key per set field |
| Apns.DefaultApnsConfigEncoding | src/apns/apns_config.rs:6-20 | the default configuration is written as `{}` |
| Apns.ApnsConfigRoundTrip | src/apns/apns_config.rs:6-20 | the wire form reads back unchanged |
| Apns.LegacyApnsConfigAgrees | src/apns/mod.rs:4-18 | the older configuration writes what the current one holding the same values writes, and `{}` when nothing is set |
| Webpush.WebpushFcmOptionsEncoding | src/web/webpush_fcm_options.rs:3-11 | `link` and `analytics_label` are always written, in order |
| Webpush.WebpushFcmOptionsRoundTrip | src/web/webpush_fcm_options.rs:3-11 | the options read back unchanged |
| Webpush.WebpushConfigFieldsWritten | src/web/webpush_config.rs:9-24 | `headers`, `data`, `notification` verbatim and `fcm_options` nested, each present exactly when set |
| Webpush.WebpushConfigKeys | src/web/webpush_config.rs:6-25 | no key twice and no key outside the four field names |
| Webpush.WebpushConfigKeyCount | src/web/mod.rs:6-23 | one key per set field, so an all-`None` configuration is `{}` (the older declaration is field-for-field the same) |
| Webpush.DefaultWebpushConfigEncoding | src/web/webpush_config.rs:6-25 | the default configuration is written as `{}` |
| Webpush.WebpushConfigRoundTrip | src/web/webpush_config.rs:6-25 | the wire form reads back unchanged |
| Responses.ParseErrorReason | src/client/response.rs:9-94 | a name that decodes is the decoded variant's own name |
| Responses.ErrorReasonRoundTrip | src/client/response.rs:197-214 | each of the 14 variants decodes from its own name |
| Responses.ErrorReasonNames | src/client/response.rs:9-94 | a string decodes iff it is one of the variant names |
| Responses.ErrorReasonNameInjective | src/client/response.rs:9-94 | distinct variants have distinct names |
| Responses.ErrorReasonForms | src/client/response.rs:9-94 | an error reason is read exactly from its name as a string or from the one-entry object `{name: null}`, as serde reads a unit variant |
| Responses.MessageResultRoundTrip | src/client/response.rs:107-112 | a message result, every field optional, reads back |
| Responses.ReadResultItems | src/client/response.rs:104 | the results array decodes item by item, and fails iff some item fails |
| Responses.ResultsRoundTrip | src/client/response.rs:104 | a written results array reads back |
| Responses.ResponseRoundTrip | src/client/response.rs:96-105 | a response, every field optional, reads back |
| Responses.EmptyResponse | src/client/response.rs:96-105 | `{}` is a response with nothing set |
| Responses.ErrorNameInBothPlaces | src/client/response.rs:216-230 | the same name at top-level `error` and in `results[0].error` decodes to the same variant in both places |
| RetryAfters.I64Text | src/client/response.rs:182 | the `i64` reading: a result is in the 64-bit range, and the text starts with a sign or a digit |
| RetryAfters.ParseI64 | src/client/response.rs:182 | the digit-by-digit scan with overflow detection computes the `i64` reading |
| RetryAfters.FromStrAsWritten | src/client/response.rs:178-189 | panics (`None`) exactly when the text is an `i64` outside `Duration::seconds`' range of ±`i64::MAX / 1000`; everywhere else it agrees with `RetryAfters.FromStr` |
| RetryAfters.FromStr | src/client/response.rs:178-189 | corrected and total: `Delay(n)` exactly when the text is an `i64` n that `Duration` can hold; otherwise `DateTime` of exactly what the date parser returns, or `DateParse` |
| RetryAfters.OversizedDelayPanics | src/client/response.rs:182-184 | `"9223372036854776"` is a valid `i64`, `i64::MAX / 1000 + 1`, and the as-written reading panics on it |
| RetryAfters.OversizedDelayRefused | src/client/response.rs:182-186 | every `i64` beyond `Duration`'s range: the as-written reading panics, the corrected one never yields a `Delay` and gives `DateParse` unless the date parser accepts the text |
| RetryAfters.IntParseNeverReturned | src/client/response.rs:182-187 | `IntParse` is never returned, because `or_else` discards it |
| RetryAfters.IntegerFirst | src/client/response.rs:182-186 | an integer text within `Duration`'s range is a `Delay` whatever the date parser would say |
| RetryAfters.DelayRoundTrip | src/client/response.rs:181-185 | every in-range number, negatives included, written in decimal, parses to that `Delay` |
| RetryAfters.SecondsExample | src/client/response.rs:233-236 | `"420"` is `Delay(420)` |
| RetryAfters.PaddedSecondsRefused | src/client/response.rs:182-187 | `" 420"` is not an integer and fails with `DateParse` |
| RetryAfters.DateRoundTrip | src/client/response.rs:186 | a formatted date-time is not an integer and parses back to the same instant and offset |
| RetryAfters.DateExample | src/client/response.rs:238-247 | `"Sun, 06 Nov 1994 08:49:37 GMT"` is that date-time at offset 0 |
| Rfc2822.FormatRoundTrip | src/client/response.rs:186 | the subset parser inverts the formatter on every valid date-time |
| Rfc2822.ZoneRoundTrip | src/client/response.rs:186 | a whole-minute offset formats and parses back |
| Rfc2822.WrongWeekdayRefused | src/client/response.rs:186 | a day name that does not match the date is refused |
| Client.AccessTokenMissingDelegates | src/client/mod.rs:31-40 | false for every non-`Oauth` error; for `Oauth` it is the back end's predicate |
| Client.YupAccessTokenMissing | src/client/mod.rs:31-40 | with yup_oauth2: true exactly for a missing token and the back end's two token errors |
| Client.SetServiceAccountKeyJsonPath | src/client/mod.rs:59-62 | sets the key path and changes nothing else |
| Client.SetFcmRequestTimeout | src/client/mod.rs:69-72 | sets the timeout and changes nothing else |
| Client.SetTokenCacheJsonPath | src/client/mod.rs:75-78 | sets the cache path and changes nothing else |
| Client.SetServiceAccountKeyJsonString | src/client/mod.rs:85-88 | sets the key JSON and changes nothing else |
| Client.SetDryRun | src/client/mod.rs:90-93 | sets `dry_run` and changes nothing else |
| Client.SettersCommute | src/client/mod.rs:59-93 | setters of different fields commute; the last `dry_run` wins |
| Client.ChooseCredentials | src/client/mod.rs:121-135 | a key JSON string always wins; an error only arises with neither string nor path set |
| Client.KeyStringOverridesPath | src/client/mod.rs:80-88 | the key string overrides the path, whichever was set first |
| Client.PathBeforeEnvironment | src/client/mod.rs:126-130 | with only a path set, the environment is not consulted |
| Client.EnvironmentLast | src/client/mod.rs:126-130 | otherwise `GOOGLE_APPLICATION_CREDENTIALS` is used, and its lookup failure is `Dotenvy` |
| Client.CreateOauthClient | src/client/mod.rs:121-135 | the back end is built from the chosen source with the cache path; its failure becomes `Oauth` |
| Client.HttpClientFor | src/client/mod.rs:113-119 | the timeout is applied exactly when one is configured |
| Client.NewFromBuilder | src/client/mod.rs:112-142 | HTTP client errors come first as `Reqwest`; then the back end's `Oauth` or `Dotenvy` error is returned as is; `dry_run` is true only when set to true |
| Client.DryRunDefault | src/client/mod.rs:140 | `dry_run` is false unless set; a fresh builder has no timeout |
| Client.DryRunAsSet | src/client/mod.rs:140 | `dry_run` is the value it was set to |
| Client.SendUrl | src/client/mod.rs:152-155 | the URL is the fixed prefix, the project id verbatim, then `/messages:send` |
| Client.SendUrlInjective | src/client/mod.rs:152-155 | different projects give different URLs |
| Client.RetryAfterHeader | src/client/mod.rs:165-180 | absent is `None`; not visible ASCII is `IsNotString`; else parsed by the corrected `from_str`, or `Invalid` with the parse error and the exact header text; defined for every header |
| Client.OversizedHeaderInvalid | src/client/mod.rs:170-176 | a header holding an `i64` beyond `Duration`'s range panics as written; under the corrected reading it is never a `Delay`, and is `RetryAfterHttpHeaderInvalid(DateParse, text)` unless the date parser accepts it |
| Client.DelayHeaderReadsBack | src/client/mod.rs:165-180 | a header holding a decimal number is captured as that `Delay` |
| Client.NonAsciiHeaderRefused | src/client/mod.rs:166-169 | a header with a non-ASCII byte is `RetryAfterHttpHeaderIsNotString` |
| Client.LenientBody | src/client/mod.rs:184-186 | a body that is not a JSON object becomes the empty map; an object keeps exactly its keys |
| Client.LenientBodyLookup | src/client/mod.rs:184-186 | each key of an object body maps to its value |
| Client.Capture | src/client/mod.rs:165-188 | header errors first, then body read errors; on success the status is passed through unchanged |
| Client.NonObjectBodyIsEmpty | src/client/mod.rs:181-188 | a non-object body gives an empty map, never an error |
| Client.SendRequest | src/client/mod.rs:144-189 | a token failure is `Oauth` and no request is built; otherwise the request goes to the project's URL with the token as bearer |
| Client.Send | src/client/mod.rs:144-189 | a token failure is `Oauth` with no request; a token gives a request to the project's URL with that bearer and the given body, then the transport error as `Reqwest` or the captured answer (status, body map and `Retry-After`) |
| Client.SendsToKeyProject | src/client/mod.rs:152-155 | with yup_oauth2, the request goes to the send URL of the service-account key's project id |
| InternalClient.NewFromBuilder | src/client/internal_client.rs:13-50 | `Reqwest` first; once the HTTP client builds, success exactly when the back end is built from the chosen source, its error returned as is; the timeout only when configured |
| InternalClient.CredentialPrecedence | src/client/internal_client.rs:24-44 | the JSON string, else the path, else the environment variable, each with the cache path |
| InternalClient.RequestBody | src/client/internal_client.rs:66 | the body decodes back to the finalized message |
| InternalClient.Send | src/client/internal_client.rs:54-97 | `Oauth` before any request; a token gives a request to the project's URL whose body decodes to the finalized message, then the transport error as `Reqwest` or the captured answer (status, body map and `Retry-After`) |
| InternalClient.NonObjectAnswer | src/client/internal_client.rs:85-96 | a non-object body with no header is captured as the status with an empty map |
| OauthYup.AccessTokenMissingCases | src/client/oauth_yup_oauth2.rs:24-37 | true exactly for `AccessTokenIsMissing`, `Oauth(MissingAccessToken)`, `Oauth(AuthError(_))` |
| OauthYup.CreateWithStringKey | src/client/oauth_yup_oauth2.rs:54-79 | steps in order: an unparsable key is `ServiceAccountKeyReadingFailed`, a hyper-client failure `Oauth`, an authenticator failure `AuthenticatorCreatingFailed`; after those, success iff the key has a project id, which is kept with the cache path |
| OauthYup.MissingProjectIdComesLast | src/client/oauth_yup_oauth2.rs:68-77 | a missing project id is reported only after the HTTP client and authenticator succeeded |
| OauthYup.KeyFileIsKeyString | src/client/oauth_yup_oauth2.rs:45-52 | an unreadable file is `ServiceAccountKeyReadingFailed`; otherwise the file's contents go to the string constructor |
| OauthYup.GetAccessToken | src/client/oauth_yup_oauth2.rs:81-88 | the single Firebase messaging scope is requested; no token string is `AccessTokenIsMissing`; a token is returned unchanged |
| OauthYup.MissingTokenIsRecognised | src/client/oauth_yup_oauth2.rs:83-87 | a missing token is an error the predicate recognises |
| OauthYup.ProjectIdFromKey | src/client/oauth_yup_oauth2.rs:90-92 | `get_project_id` returns the key's project id verbatim |
| OauthGauth.ProjectIdOf | src/client/oauth_gauth.rs:67-72 | the id is the top-level `project_id` when it is a JSON string; otherwise `ProjectIdIsMissing` |
| OauthGauth.ProjectIdOfKeyFile | src/client/oauth_gauth.rs:69-70 | in an object with distinct keys, a string `project_id` is the id and any other value is `ProjectIdIsMissing` |
| OauthGauth.ReadServiceKeyFileJson | src/client/oauth_gauth.rs:58-65 | unreadable is `ServiceAccountKeyReadingFailed`; malformed is `ServiceAccountKeyDeserializationFailed` |
| OauthGauth.ReadProjectIdSteps | src/client/oauth_gauth.rs:58-72 | the errors come in the order read, parse, project id |
| OauthGauth.CreateWithKeyFile | src/client/oauth_gauth.rs:29-39 | the project id errors take precedence over `ServiceAccountKeyPathIsNotUtf8` |
| OauthGauth.TokenCacheIgnored | src/client/oauth_gauth.rs:29-32 | the token cache path makes no difference |
| OauthGauth.ProjectIdAsRead | src/client/oauth_gauth.rs:53-55 | `get_project_id` returns the id read at construction |
| OauthGauth.Split | src/client/oauth_gauth.rs:48 | splitting gives one more piece than there are whitespace characters, and no piece holds whitespace |
| OauthGauth.SplitInterleave | src/client/oauth_gauth.rs:48 | the pieces with the separators put back between them are the input |
| OauthGauth.SecondPiece | src/client/oauth_gauth.rs:48 | a word, one whitespace character, then the rest: the word is the first piece |
| OauthGauth.GetAccessToken | src/client/oauth_gauth.rs:41-51 | the issuer's failure is `Oauth`; an issued answer gives `Ok` with piece `[1]` of its whitespace split, which holds no whitespace |
| OauthGauth.BearerTokenStripped | src/client/oauth_gauth.rs:48 | `"Bearer abc"` gives `"abc"` |
| OauthGauth.DoubleSpaceGivesEmptyToken | src/client/oauth_gauth.rs:48 | `"Bearer  abc"` gives `""`: the split is per character, not per run |

## Left out

- The network and the runtime: building and executing requests (reqwest), async file reads, and the dotenvy lookup. They are inputs: the transport outcome, the header bytes, the status, the body bytes, the environment as a function. The dotenvy `.env` file lookup is folded into that function.
- Token exchange and caching in yup_oauth2 and gauth. The outcome of asking for a token is a function parameter; the cache file is only passed on.
- `Color`'s four `f32` channels (src/android/color.rs, src/android/mod.rs:42-56): a colour is an opaque JSON value inside `LightSettings`.
- Fractional JSON numbers: JSON numbers are integers only, so a fractional number inside a verbatim value (`data`, `headers`, `payload`, src/message/mod.rs:43) or in a response body (src/client/mod.rs:184) is not represented; floating point is outside the model.
- `FcmResponse` and any classification of status codes: the type is not part of this model. The captured triple (status, body map, retry-after) is kept.
- The `{"target": "token"}` shape of src/message/tests.rs:21-74: those tests use an older builder API and contradict `output_target`.
- The foreign error wrappers `SendError`, `ClientBuildError`, `DotEnvClientBuildError` (src/client/response.rs:114-158).
- Rfc2822.Parse: a subset of RFC 2822 (section 3.3): fixed-width day, month, year, time, and a zone of `GMT` or `+hhmm`/`-hhmm`, no obsolete zone names, comments or folding whitespace, and years 0 to 9999. `RetryAfters.FromStr` takes the date parser as a parameter, so its properties hold for chrono's full parser too.
- OauthGauth.GetAccessToken: requires the issued string to hold at least one whitespace character, since indexing `[1]` panics otherwise.
- Client.Send: the request body is a parameter, because the two-argument `MessageWrapper::new(message, dry_run)` of src/client/mod.rs:161 is not part of this model.
- Client.NewFromBuilder: the generic `FcmClientBuilder<T>` of src/client/internal_client.rs:14 is modelled by the same five-field builder.
- `Notification::finalize`, `WebpushConfig::finalize`, `ApnsConfig::finalize`, `FcmOptions::finalize`: not part of this model; they are taken as the identity.
- AndroidConfigs.FinalizeAndroidConfig: `AndroidConfig::finalize` is not part of this model; it is taken to finalize the notification and copy the rest.
- `LightSettings::finalize`: not part of this model; it is taken to copy the fields.
- serde's sequence form and any deserialization of the outgoing message types: the decoders exist only as partners for the round-trip lemmas.
- `dry_run` in the wire envelope: `MessageWrapper` at src/message/mod.rs:107-110 holds only `message`, while src/client/mod.rs:161 calls a two-argument `MessageWrapper::new(message, dry_run)` that no file of the library declares.

## Findings

| source | as written | input that shows it | evidently intended | confidence | as-written member | corrected member |
|---|---|---|---|---|---|---|
| src/client/response.rs:184 | `.map(Duration::seconds)` on any `i64` read from the `Retry-After` header (src/client/mod.rs:170-176); `Duration::seconds` panics beyond ±`i64::MAX / 1000` seconds, so one header from the server aborts `send` | `Retry-After: 9223372036854776` | a number `Duration` cannot hold is refused (as `Duration::try_seconds` reports it) and the header becomes `RetryAfterHttpHeaderInvalid` | high; not executed | RetryAfters.OversizedDelayPanics | RetryAfters.OversizedDelayRefused |

=== FILE: android_config.dfy ===
/** Android-specific options of a message: the builder-side `AndroidConfig`
    (src/android/android_config.rs), the wire-side record that
    `Message::finalize` turns it into, and the older revision's `AndroidConfig`
    (src/android/mod.rs), which was serialized as it stood. */
module AndroidConfigs {
  import opened Wrappers
  import opened Json
  import opened Serde
  import opened AndroidEnums
  import opened AndroidNotifications

  /** Options for features of the FCM SDK for Android; the label is a plain
      `String`, so it is always written. */
  datatype AndroidFcmOptions = AndroidFcmOptions(analytics_label: string)

  function EncodeAndroidFcmOptions(o: AndroidFcmOptions): Json {
    JObject(SkipNone([Always("analytics_label", Str(o.analytics_label))]))
  }

  /** The single key is always written, holding the label verbatim. */
  lemma AndroidFcmOptionsEncoding(o: AndroidFcmOptions)
    ensures EncodeAndroidFcmOptions(o) == JObject([("analytics_label", JString(o.analytics_label))])
  {
    var slots := [Always("analytics_label", Str(o.analytics_label))];
    SkipNoneStep(slots, 0);
    assert slots[0..] == slots;
    assert slots[1..] == [];
  }

  function ReadAndroidFcmOptions(j: Json): Option<AndroidFcmOptions> {
    if !j.JObject? then None
    else
      var analyticsLabel :- ReadRequired(Get(j.fields, "analytics_label"), ReadString);
      Some(AndroidFcmOptions(analyticsLabel))
  }

  lemma AndroidFcmOptionsRoundTrip(o: AndroidFcmOptions)
    ensures ReadAndroidFcmOptions(EncodeAndroidFcmOptions(o)) == Some(o)
  {
    AndroidFcmOptionsEncoding(o);
  }

  /** The eight optional fields, generic in the notification they carry: the
      builder holds an `AndroidNotification`, the wire record its finalized form. */
  datatype AndroidConfigOf<N> = AndroidConfigOf(
    collapse_key: Option<string>,
    priority: Option<AndroidMessagePriority>,
    ttl: Option<string>,
    restricted_package_name: Option<string>,
    data: Option<Json>,
    notification: Option<N>,
    fcm_options: Option<AndroidFcmOptions>,
    direct_boot_ok: Option<bool>)

  type AndroidConfig = AndroidConfigOf<AndroidNotification>
  type AndroidConfigInternal = AndroidConfigOf<AndroidNotificationInternal>

  /** `#[derive(Default)]`: nothing set. */
  const DefaultAndroidConfig: AndroidConfig := AndroidConfigOf(None, None, None, None, None, None, None, None)

  const AndroidConfigFields: seq<string> := [
    "collapse_key", "priority", "ttl", "restricted_package_name",
    "data", "notification", "fcm_options", "direct_boot_ok"]

  /** The struct as the serializer sees it: every field is skippable; `data`
      is any JSON value and is written as it is. */
  function AndroidConfigSlots<N>(n: AndroidConfigOf<N>, notification: N -> Json): seq<Slot> {
    [ Skippable("collapse_key", n.collapse_key, Str),
      Skippable("priority", n.priority, EncodeMessagePriority),
      Skippable("ttl", n.ttl, Str),
      Skippable("restricted_package_name", n.restricted_package_name, Str),
      Skippable("data", n.data, Verbatim),
      Skippable("notification", n.notification, notification),
      Skippable("fcm_options", n.fcm_options, EncodeAndroidFcmOptions),
      Skippable("direct_boot_ok", n.direct_boot_ok, Bool) ]
  }

  lemma AndroidConfigFieldsDistinct()
    ensures Distinct(AndroidConfigFields)
  {
  }

  lemma AndroidConfigSlotNames<N>(n: AndroidConfigOf<N>, notification: N -> Json)
    ensures Names(AndroidConfigSlots(n, notification)) == AndroidConfigFields
  {
  }

  /** The number of fields that are set. */
  function SetFields<N>(n: AndroidConfigOf<N>): nat {
    Present(n.collapse_key)
    + Present(n.priority)
    + Present(n.ttl)
    + Present(n.restricted_package_name)
    + Present(n.data)
    + Present(n.notification)
    + Present(n.fcm_options)
    + Present(n.direct_boot_ok)
  }

  /** The conversion `Message::finalize` applies (src/message/mod.rs:96).
      src/message/mod.rs:13 imports `AndroidConfigInternal` from
      src/android/android_config.rs, which declares neither it nor
      `AndroidConfig::finalize`; the model takes the wire-side record to carry
      the same fields with the notification finalized, as
      `AndroidNotification::finalize` does for its light settings. */
  function FinalizeAndroidConfig(n: AndroidConfig): (r: AndroidConfigInternal)
    ensures r.notification.None? <==> n.notification.None?
    ensures n.notification.Some? ==> r.notification.value == FinalizeAndroidNotification(n.notification.value)
  {
    AndroidConfigOf(
      collapse_key := n.collapse_key,
      priority := n.priority,
      ttl := n.ttl,
      restricted_package_name := n.restricted_package_name,
      data := n.data,
      notification := if n.notification.Some? then Some(FinalizeAndroidNotification(n.notification.value)) else None,
      fcm_options := n.fcm_options,
      direct_boot_ok := n.direct_boot_ok)
  }

  /** The wire form. */
  function EncodeAndroidConfig(n: AndroidConfigInternal): (j: Json)
    ensures j.JObject?
  {
    JObject(SkipNone(AndroidConfigSlots(n, EncodeAndroidNotification)))
  }

  /** The older revision's wire form: the struct serialized as it stood. */
  function EncodeLegacyAndroidConfig(n: AndroidConfig): (j: Json)
    ensures j.JObject?
  {
    JObject(SkipNone(AndroidConfigSlots(n, EncodeLegacyAndroidNotification)))
  }

  /** Reads the wire form back. */
  function DecodeAndroidConfig(j: Json): Option<AndroidConfigInternal> {
    if !j.JObject? then None
    else
      var collapse_key :- ReadOptional(Get(j.fields, "collapse_key"), ReadString);
      var priority :- ReadOptional(Get(j.fields, "priority"), ReadMessagePriority);
      var ttl :- ReadOptional(Get(j.fields, "ttl"), ReadString);
      var restricted_package_name :- ReadOptional(Get(j.fields, "restricted_package_name"), ReadString);
      var data :- ReadOptional(Get(j.fields, "data"), ReadAny);
      var notification :- ReadOptional(Get(j.fields, "notification"), DecodeAndroidNotification);
      var fcm_options :- ReadOptional(Get(j.fields, "fcm_options"), ReadAndroidFcmOptions);
      var direct_boot_ok :- ReadOptional(Get(j.fields, "direct_boot_ok"), ReadBool);
      Some(AndroidConfigOf(collapse_key, priority, ttl, restricted_package_name, data, notification, fcm_options, direct_boot_ok))
  }

  // ---- one lemma per field: where it lands and whether it counts ----

  /** Position `i` of the slot list is found under its own name. */
  lemma ConfigSlotAt(n: AndroidConfigInternal, i: nat)
    requires i < 8
    ensures Get(EncodeAndroidConfig(n).fields, AndroidConfigSlots(n, EncodeAndroidNotification)[i].name) == AndroidConfigSlots(n, EncodeAndroidNotification)[i].value
  {
    AndroidConfigFieldsDistinct();
    AndroidConfigSlotNames(n, EncodeAndroidNotification);
    LookupSlot(AndroidConfigSlots(n, EncodeAndroidNotification), i);
  }

  lemma ConfigCollapseKey(n: AndroidConfigInternal)
    ensures Get(EncodeAndroidConfig(n).fields, "collapse_key") == Lift(n.collapse_key, Str)
  {
    var s := AndroidConfigSlots(n, EncodeAndroidNotification);
    assert s[0] == Skippable("collapse_key", n.collapse_key, Str);
    ConfigSlotAt(n, 0);
  }

  lemma CountConfigCollapseKey(n: AndroidConfigInternal)
    ensures Written(AndroidConfigSlots(n, EncodeAndroidNotification)) == Present(n.collapse_key) + Written(AndroidConfigSlots(n, EncodeAndroidNotification)[1..])
  {
    var s := AndroidConfigSlots(n, EncodeAndroidNotification);
    assert s[0] == Skippable("collapse_key", n.collapse_key, Str);
    SkipNoneStep(s, 0);
    assert s[0..] == s;
  }

  lemma ConfigPriority(n: AndroidConfigInternal)
    ensures Get(EncodeAndroidConfig(n).fields, "priority") == Lift(n.priority, EncodeMessagePriority)
  {
    var s := AndroidConfigSlots(n, EncodeAndroidNotification);
    assert s[1] == Skippable("priority", n.priority, EncodeMessagePriority);
    ConfigSlotAt(n, 1);
  }

  lemma CountConfigPriority(n: AndroidConfigInternal)
    ensures Written(AndroidConfigSlots(n, EncodeAndroidNotification)[1..]) == Present(n.priority) + Written(AndroidConfigSlots(n, EncodeAndroidNotification)[2..])
  {
    var s := AndroidConfigSlots(n, EncodeAndroidNotification);
    assert s[1] == Skippable("priority", n.priority, EncodeMessagePriority);
    SkipNoneStep(s, 1);
  }

  lemma ConfigTtl(n: AndroidConfigInternal)
    ensures Get(EncodeAndroidConfig(n).fields, "ttl") == Lift(n.ttl, Str)
  {
    var s := AndroidConfigSlots(n, EncodeAndroidNotification);
    assert s[2] == Skippable("ttl", n.ttl, Str);
    ConfigSlotAt(n, 2);
  }

  lemma CountConfigTtl(n: AndroidConfigInternal)
    ensures Written(AndroidConfigSlots(n, EncodeAndroidNotification)[2..]) == Present(n.ttl) + Written(AndroidConfigSlots(n, EncodeAndroidNotification)[3..])
  {
    var s := AndroidConfigSlots(n, EncodeAndroidNotification);
    assert s[2] == Skippable("ttl", n.ttl, Str);
    SkipNoneStep(s, 2);
  }

  lemma ConfigRestrictedPackageName(n: AndroidConfigInternal)
    ensures Get(EncodeAndroidConfig(n).fields, "restricted_package_name") == Lift(n.restricted_package_name, Str)
  {
    var s := AndroidConfigSlots(n, EncodeAndroidNotification);
    assert s[3] == Skippable("restricted_package_name", n.restricted_package_name, Str);
    ConfigSlotAt(n, 3);
  }

  lemma CountConfigRestrictedPackageName(n: AndroidConfigInternal)
    ensures Written(AndroidConfigSlots(n, EncodeAndroidNotification)[3..]) == Present(n.restricted_package_name) + Written(AndroidConfigSlots(n, EncodeAndroidNotification)[4..])
  {
    var s := AndroidConfigSlots(n, EncodeAndroidNotification);
    assert s[3] == Skippable("restricted_package_name", n.restricted_package_name, Str);
    SkipNoneStep(s, 3);
  }

  lemma ConfigData(n: AndroidConfigInternal)
    ensures Get(EncodeAndroidConfig(n).fields, "data") == Lift(n.data, Verbatim)
  {
    var s := AndroidConfigSlots(n, EncodeAndroidNotification);
    assert s[4] == Skippable("data", n.data, Verbatim);
    ConfigSlotAt(n, 4);
  }

  lemma CountConfigData(n: AndroidConfigInternal)
    ensures Written(AndroidConfigSlots(n, EncodeAndroidNotification)[4..]) == Present(n.data) + Written(AndroidConfigSlots(n, EncodeAndroidNotification)[5..])
  {
    var s := AndroidConfigSlots(n, EncodeAndroidNotification);
    assert s[4] == Skippable("data", n.data, Verbatim);
    SkipNoneStep(s, 4);
  }

  lemma ConfigNotification(n: AndroidConfigInternal)
    ensures Get(EncodeAndroidConfig(n).fields, "notification") == Lift(n.notification, EncodeAndroidNotification)
  {
    var s := AndroidConfigSlots(n, EncodeAndroidNotification);
    assert s[5] == Skippable("notification", n.notification, EncodeAndroidNotification);
    ConfigSlotAt(n, 5);
  }

  lemma CountConfigNotification(n: AndroidConfigInternal)
    ensures Written(AndroidConfigSlots(n, EncodeAndroidNotification)[5..]) == Present(n.notification) + Written(AndroidConfigSlots(n, EncodeAndroidNotification)[6..])
  {
    var s := AndroidConfigSlots(n, EncodeAndroidNotification);
    assert s[5] == Skippable("notification", n.notification, EncodeAndroidNotification);
    SkipNoneStep(s, 5);
  }

  lemma ConfigFcmOptions(n: AndroidConfigInternal)
    ensures Get(EncodeAndroidConfig(n).fields, "fcm_options") == Lift(n.fcm_options, EncodeAndroidFcmOptions)
  {
    var s := AndroidConfigSlots(n, EncodeAndroidNotification);
    assert s[6] == Skippable("fcm_options", n.fcm_options, EncodeAndroidFcmOptions);
    ConfigSlotAt(n, 6);
  }

  lemma CountConfigFcmOptions(n: AndroidConfigInternal)
    ensures Written(AndroidConfigSlots(n, EncodeAndroidNotification)[6..]) == Present(n.fcm_options) + Written(AndroidConfigSlots(n, EncodeAndroidNotification)[7..])
  {
    var s := AndroidConfigSlots(n, EncodeAndroidNotification);
    assert s[6] == Skippable("fcm_options", n.fcm_options, EncodeAndroidFcmOptions);
    SkipNoneStep(s, 6);
  }

  lemma ConfigDirectBootOk(n: AndroidConfigInternal)
    ensures Get(EncodeAndroidConfig(n).fields, "direct_boot_ok") == Lift(n.direct_boot_ok, Bool)
  {
    var s := AndroidConfigSlots(n, EncodeAndroidNotification);
    assert s[7] == Skippable("direct_boot_ok", n.direct_boot_ok, Bool);
    ConfigSlotAt(n, 7);
  }

  lemma CountConfigDirectBootOk(n: AndroidConfigInternal)
    ensures Written(AndroidConfigSlots(n, EncodeAndroidNotification)[7..]) == Present(n.direct_boot_ok)
  {
    var s := AndroidConfigSlots(n, EncodeAndroidNotification);
    assert s[7] == Skippable("direct_boot_ok", n.direct_boot_ok, Bool);
    SkipNoneStep(s, 7);
    assert s[8..] == [];
  }

  /** Each field is written under its own name exactly when it is set: strings
      verbatim, the priority as its upper-case token, `data` as the JSON value
      it holds, the notification as its finalized object. */
  lemma AndroidConfigFieldsWritten(n: AndroidConfigInternal)
    ensures Get(EncodeAndroidConfig(n).fields, "collapse_key") == Lift(n.collapse_key, Str)
    ensures Get(EncodeAndroidConfig(n).fields, "priority") == Lift(n.priority, EncodeMessagePriority)
    ensures Get(EncodeAndroidConfig(n).fields, "ttl") == Lift(n.ttl, Str)
    ensures Get(EncodeAndroidConfig(n).fields, "restricted_package_name") == Lift(n.restricted_package_name, Str)
    ensures Get(EncodeAndroidConfig(n).fields, "data") == Lift(n.data, Verbatim)
    ensures Get(EncodeAndroidConfig(n).fields, "notification") == Lift(n.notification, EncodeAndroidNotification)
    ensures Get(EncodeAndroidConfig(n).fields, "fcm_options") == Lift(n.fcm_options, EncodeAndroidFcmOptions)
    ensures Get(EncodeAndroidConfig(n).fields, "direct_boot_ok") == Lift(n.direct_boot_ok, Bool)
  {
    ConfigCollapseKey(n);
    ConfigPriority(n);
    ConfigTtl(n);
    ConfigRestrictedPackageName(n);
    ConfigData(n);
    ConfigNotification(n);
    ConfigFcmOptions(n);
    ConfigDirectBootOk(n);
  }

  /** The object has no key twice and no key outside the eight field names. */
  lemma AndroidConfigKeys(n: AndroidConfigInternal)
    ensures Distinct(Keys(EncodeAndroidConfig(n).fields))
    ensures forall k :: k in Keys(EncodeAndroidConfig(n).fields) ==> k in AndroidConfigFields
  {
    AndroidConfigFieldsDistinct();
    AndroidConfigSlotNames(n, EncodeAndroidNotification);
    SkipNoneDistinct(AndroidConfigSlots(n, EncodeAndroidNotification));
  }

  /** The serializer writes one entry per set field. */
  lemma AndroidConfigWritten(n: AndroidConfigInternal)
    ensures Written(AndroidConfigSlots(n, EncodeAndroidNotification)) == SetFields(n)
  {
    CountConfigCollapseKey(n);
    CountConfigPriority(n);
    CountConfigTtl(n);
    CountConfigRestrictedPackageName(n);
    CountConfigData(n);
    CountConfigNotification(n);
    CountConfigFcmOptions(n);
    CountConfigDirectBootOk(n);
  }

  /** One key per set field, so a configuration with nothing set is `{}`. */
  lemma AndroidConfigKeyCount(n: AndroidConfigInternal)
    ensures |EncodeAndroidConfig(n).fields| == SetFields(n)
    ensures SetFields(n) == 0 ==> EncodeAndroidConfig(n) == JObject([])
  {
    AndroidConfigWritten(n);
  }

  /** The default configuration, finalized, is written as `{}`. */
  lemma DefaultAndroidConfigEncoding()
    ensures EncodeAndroidConfig(FinalizeAndroidConfig(DefaultAndroidConfig)) == JObject([])
  {
    AndroidConfigKeyCount(FinalizeAndroidConfig(DefaultAndroidConfig));
  }

  /** Each field's reader inverts its encoder. */
  lemma AndroidConfigReadsBack(n: AndroidConfigInternal)
    ensures ReadOptional(Lift(n.collapse_key, Str), ReadString) == Some(n.collapse_key)
    ensures ReadOptional(Lift(n.priority, EncodeMessagePriority), ReadMessagePriority) == Some(n.priority)
    ensures ReadOptional(Lift(n.ttl, Str), ReadString) == Some(n.ttl)
    ensures ReadOptional(Lift(n.restricted_package_name, Str), ReadString) == Some(n.restricted_package_name)
    ensures ReadOptional(Lift(n.data, Verbatim), ReadAny) == Some(n.data)
    ensures ReadOptional(Lift(n.notification, EncodeAndroidNotification), DecodeAndroidNotification) == Some(n.notification)
    ensures ReadOptional(Lift(n.fcm_options, EncodeAndroidFcmOptions), ReadAndroidFcmOptions) == Some(n.fcm_options)
    ensures ReadOptional(Lift(n.direct_boot_ok, Bool), ReadBool) == Some(n.direct_boot_ok)
  {
    assert forall x :: ReadString(Str(x)) == Some(x);
    assert forall x :: ReadBool(Bool(x)) == Some(x);
    assert forall x :: ReadAny(Verbatim(x)) == Some(x);
    forall x ensures ReadMessagePriority(EncodeMessagePriority(x)) == Some(x) {
      MessagePriorityRoundTrip(x);
    }
    forall x ensures DecodeAndroidNotification(EncodeAndroidNotification(x)) == Some(x) {
      AndroidNotificationRoundTrip(x);
    }
    forall x ensures ReadAndroidFcmOptions(EncodeAndroidFcmOptions(x)) == Some(x) {
      AndroidFcmOptionsRoundTrip(x);
    }
    ReadLift(n.collapse_key, Str, ReadString);
    ReadLift(n.priority, EncodeMessagePriority, ReadMessagePriority);
    ReadLift(n.ttl, Str, ReadString);
    ReadLift(n.restricted_package_name, Str, ReadString);
    ReadLift(n.data, Verbatim, ReadAny);
    ReadLift(n.notification, EncodeAndroidNotification, DecodeAndroidNotification);
    ReadLift(n.fcm_options, EncodeAndroidFcmOptions, ReadAndroidFcmOptions);
    ReadLift(n.direct_boot_ok, Bool, ReadBool);
  }

  /** Any object holding each field's encoding under its name decodes to the record. */
  lemma AndroidConfigDecodeFrom(j: Json, n: AndroidConfigInternal)
    requires j.JObject?
    requires Get(j.fields, "collapse_key") == Lift(n.collapse_key, Str)
    requires Get(j.fields, "priority") == Lift(n.priority, EncodeMessagePriority)
    requires Get(j.fields, "ttl") == Lift(n.ttl, Str)
    requires Get(j.fields, "restricted_package_name") == Lift(n.restricted_package_name, Str)
    requires Get(j.fields, "data") == Lift(n.data, Verbatim)
    requires Get(j.fields, "notification") == Lift(n.notification, EncodeAndroidNotification)
    requires Get(j.fields, "fcm_options") == Lift(n.fcm_options, EncodeAndroidFcmOptions)
    requires Get(j.fields, "direct_boot_ok") == Lift(n.direct_boot_ok, Bool)
    ensures DecodeAndroidConfig(j) == Some(n)
  {
    AndroidConfigReadsBack(n);
  }

  /** Round trip: the wire form reads back as the same configuration. */
  lemma AndroidConfigRoundTrip(n: AndroidConfigInternal)
    ensures DecodeAndroidConfig(EncodeAndroidConfig(n)) == Some(n)
  {
    AndroidConfigFieldsWritten(n);
    AndroidConfigDecodeFrom(EncodeAndroidConfig(n), n);
  }

  /** The older revision serialized the configuration, notification included,
      as it stood; finalizing first and writing the wire record gives the same JSON. */
  lemma LegacyAndroidConfigAgrees(n: AndroidConfig)
    ensures EncodeLegacyAndroidConfig(n) == EncodeAndroidConfig(FinalizeAndroidConfig(n))
  {
    if n.notification.Some? {
      LegacyAndroidNotificationAgrees(n.notification.value);
    }
    assert Lift(n.notification, EncodeLegacyAndroidNotification)
        == Lift(FinalizeAndroidConfig(n).notification, EncodeAndroidNotification);
    assert AndroidConfigSlots(n, EncodeLegacyAndroidNotification)
        == AndroidConfigSlots(FinalizeAndroidConfig(n), EncodeAndroidNotification);
  }
}

=== FILE: android_enums.dfy ===
/** The three closed Android enums. Each derives `Serialize` with
    `#[serde(rename_all = "UPPERCASE")]`, so a value is written as its Rust
    variant name upper-cased, with no separator inserted: `PriorityMin` is
    `"PRIORITYMIN"`. Being closed datatypes, they admit no free-form string. */
module AndroidEnums {
  import opened Wrappers
  import opened Json
  import opened Serde

  /** Message priority of an Android message (src/android/mod.rs). */
  datatype AndroidMessagePriority = Normal | High

  /** The Rust variant name. */
  function MessagePriorityVariant(v: AndroidMessagePriority): string {
    match v
    case Normal => "Normal"
    case High => "High"
  }

  /** The token serde writes. */
  function MessagePriorityToken(v: AndroidMessagePriority): string {
    RenameAll(Uppercase, MessagePriorityVariant(v))
  }

  function EncodeMessagePriority(v: AndroidMessagePriority): Json {
    JString(MessagePriorityToken(v))
  }

  lemma MessagePriorityTokenOfNormal()
    ensures MessagePriorityToken(Normal) == "NORMAL"
  {
    var normal := MessagePriorityToken(Normal);
    assert normal[0] == 'N' && normal[1] == 'O' && normal[2] == 'R' && normal[3] == 'M' && normal[4] == 'A' && normal[5] == 'L';
  }

  lemma MessagePriorityTokenOfHigh()
    ensures MessagePriorityToken(High) == "HIGH"
  {
    var high := MessagePriorityToken(High);
    assert high[0] == 'H' && high[1] == 'I' && high[2] == 'G' && high[3] == 'H';
  }

  /** The tokens spelled out. */
  lemma MessagePriorityTokens()
    ensures MessagePriorityToken(Normal) == "NORMAL"
    ensures MessagePriorityToken(High) == "HIGH"
  {
    MessagePriorityTokenOfNormal();
    MessagePriorityTokenOfHigh();
  }

  /** Reads a token back; only the 2 tokens above are accepted. */
  function ParseMessagePriority(s: string): Option<AndroidMessagePriority> {
    if s == "NORMAL" then Some(Normal)
    else if s == "HIGH" then Some(High)
    else None
  }

  function ReadMessagePriority(j: Json): Option<AndroidMessagePriority> {
    if j.JString? then ParseMessagePriority(j.s) else None
  }

  /** A string reads back as a value exactly when it is that value's token,
      and the accepted strings are exactly the 2 tokens. */
  lemma MessagePriorityTokenRoundTrip(v: AndroidMessagePriority, s: string)
    ensures ParseMessagePriority(s) == Some(v) <==> s == MessagePriorityToken(v)
    ensures ParseMessagePriority(s).Some? <==> s in {"NORMAL", "HIGH"}
  {
    MessagePriorityTokens();
  }

  /** Every value reads back from what it is written as. */
  lemma MessagePriorityRoundTrip(v: AndroidMessagePriority)
    ensures ReadMessagePriority(EncodeMessagePriority(v)) == Some(v)
  {
    MessagePriorityTokenRoundTrip(v, MessagePriorityToken(v));
  }

  /** Distinct values are written as distinct tokens. */
  lemma MessagePriorityTokenInjective(a: AndroidMessagePriority, b: AndroidMessagePriority)
    ensures MessagePriorityToken(a) == MessagePriorityToken(b) <==> a == b
  {
    MessagePriorityTokenRoundTrip(a, MessagePriorityToken(b));
    MessagePriorityTokenRoundTrip(b, MessagePriorityToken(b));
  }

  /** Relative priority of an Android notification (src/android/mod.rs). */
  datatype NotificationPriority = PriorityUnspecified | PriorityMin | PriorityLow | PriorityDefault | PriorityHigh | PriorityMax

  /** The Rust variant name. */
  function NotificationPriorityVariant(v: NotificationPriority): string {
    match v
    case PriorityUnspecified => "PriorityUnspecified"
    case PriorityMin => "PriorityMin"
    case PriorityLow => "PriorityLow"
    case PriorityDefault => "PriorityDefault"
    case PriorityHigh => "PriorityHigh"
    case PriorityMax => "PriorityMax"
  }

  /** The token serde writes. */
  function NotificationPriorityToken(v: NotificationPriority): string {
    RenameAll(Uppercase, NotificationPriorityVariant(v))
  }

  function EncodeNotificationPriority(v: NotificationPriority): Json {
    JString(NotificationPriorityToken(v))
  }

  lemma NotificationPriorityTokenOfPriorityUnspecified()
    ensures NotificationPriorityToken(PriorityUnspecified) == "PRIORITYUNSPECIFIED"
  {
    var priorityUnspecified := NotificationPriorityToken(PriorityUnspecified);
    assert priorityUnspecified[0] == 'P' && priorityUnspecified[1] == 'R' && priorityUnspecified[2] == 'I' && priorityUnspecified[3] == 'O' && priorityUnspecified[4] == 'R' && priorityUnspecified[5] == 'I';
    assert priorityUnspecified[6] == 'T' && priorityUnspecified[7] == 'Y' && priorityUnspecified[8] == 'U' && priorityUnspecified[9] == 'N' && priorityUnspecified[10] == 'S' && priorityUnspecified[11] == 'P';
    assert priorityUnspecified[12] == 'E' && priorityUnspecified[13] == 'C' && priorityUnspecified[14] == 'I' && priorityUnspecified[15] == 'F' && priorityUnspecified[16] == 'I' && priorityUnspecified[17] == 'E';
    assert priorityUnspecified[18] == 'D';
  }

  lemma NotificationPriorityTokenOfPriorityMin()
    ensures NotificationPriorityToken(PriorityMin) == "PRIORITYMIN"
  {
    var priorityMin := NotificationPriorityToken(PriorityMin);
    assert priorityMin[0] == 'P' && priorityMin[1] == 'R' && priorityMin[2] == 'I' && priorityMin[3] == 'O' && priorityMin[4] == 'R' && priorityMin[5] == 'I';
    assert priorityMin[6] == 'T' && priorityMin[7] == 'Y' && priorityMin[8] == 'M' && priorityMin[9] == 'I' && priorityMin[10] == 'N';
  }

  lemma NotificationPriorityTokenOfPriorityLow()
    ensures NotificationPriorityToken(PriorityLow) == "PRIORITYLOW"
  {
    var priorityLow := NotificationPriorityToken(PriorityLow);
    assert priorityLow[0] == 'P' && priorityLow[1] == 'R' && priorityLow[2] == 'I' && priorityLow[3] == 'O' && priorityLow[4] == 'R' && priorityLow[5] == 'I';
    assert priorityLow[6] == 'T' && priorityLow[7] == 'Y' && priorityLow[8] == 'L' && priorityLow[9] == 'O' && priorityLow[10] == 'W';
  }

  lemma NotificationPriorityTokenOfPriorityDefault()
    ensures NotificationPriorityToken(PriorityDefault) == "PRIORITYDEFAULT"
  {
    var priorityDefault := NotificationPriorityToken(PriorityDefault);
    assert priorityDefault[0] == 'P' && priorityDefault[1] == 'R' && priorityDefault[2] == 'I' && priorityDefault[3] == 'O' && priorityDefault[4] == 'R' && priorityDefault[5] == 'I';
    assert priorityDefault[6] == 'T' && priorityDefault[7] == 'Y' && priorityDefault[8] == 'D' && priorityDefault[9] == 'E' && priorityDefault[10] == 'F' && priorityDefault[11] == 'A';
    assert priorityDefault[12] == 'U' && priorityDefault[13] == 'L' && priorityDefault[14] == 'T';
  }

  lemma NotificationPriorityTokenOfPriorityHigh()
    ensures NotificationPriorityToken(PriorityHigh) == "PRIORITYHIGH"
  {
    var priorityHigh := NotificationPriorityToken(PriorityHigh);
    assert priorityHigh[0] == 'P' && priorityHigh[1] == 'R' && priorityHigh[2] == 'I' && priorityHigh[3] == 'O' && priorityHigh[4] == 'R' && priorityHigh[5] == 'I';
    assert priorityHigh[6] == 'T' && priorityHigh[7] == 'Y' && priorityHigh[8] == 'H' && priorityHigh[9] == 'I' && priorityHigh[10] == 'G' && priorityHigh[11] == 'H';
  }

  lemma NotificationPriorityTokenOfPriorityMax()
    ensures NotificationPriorityToken(PriorityMax) == "PRIORITYMAX"
  {
    var priorityMax := NotificationPriorityToken(PriorityMax);
    assert priorityMax[0] == 'P' && priorityMax[1] == 'R' && priorityMax[2] == 'I' && priorityMax[3] == 'O' && priorityMax[4] == 'R' && priorityMax[5] == 'I';
    assert priorityMax[6] == 'T' && priorityMax[7] == 'Y' && priorityMax[8] == 'M' && priorityMax[9] == 'A' && priorityMax[10] == 'X';
  }

  /** The tokens spelled out. */
  lemma NotificationPriorityTokens()
    ensures NotificationPriorityToken(PriorityUnspecified) == "PRIORITYUNSPECIFIED"
    ensures NotificationPriorityToken(PriorityMin) == "PRIORITYMIN"
    ensures NotificationPriorityToken(PriorityLow) == "PRIORITYLOW"
    ensures NotificationPriorityToken(PriorityDefault) == "PRIORITYDEFAULT"
    ensures NotificationPriorityToken(PriorityHigh) == "PRIORITYHIGH"
    ensures NotificationPriorityToken(PriorityMax) == "PRIORITYMAX"
  {
    NotificationPriorityTokenOfPriorityUnspecified();
    NotificationPriorityTokenOfPriorityMin();
    NotificationPriorityTokenOfPriorityLow();
    NotificationPriorityTokenOfPriorityDefault();
    NotificationPriorityTokenOfPriorityHigh();
    NotificationPriorityTokenOfPriorityMax();
  }

  /** Reads a token back; only the 6 tokens above are accepted. */
  function ParseNotificationPriority(s: string): Option<NotificationPriority> {
    if s == "PRIORITYUNSPECIFIED" then Some(PriorityUnspecified)
    else if s == "PRIORITYMIN" then Some(PriorityMin)
    else if s == "PRIORITYLOW" then Some(PriorityLow)
    else if s == "PRIORITYDEFAULT" then Some(PriorityDefault)
    else if s == "PRIORITYHIGH" then Some(PriorityHigh)
    else if s == "PRIORITYMAX" then Some(PriorityMax)
    else None
  }

  function ReadNotificationPriority(j: Json): Option<NotificationPriority> {
    if j.JString? then ParseNotificationPriority(j.s) else None
  }

  /** A string reads back as a value exactly when it is that value's token,
      and the accepted strings are exactly the 6 tokens. */
  lemma NotificationPriorityTokenRoundTrip(v: NotificationPriority, s: string)
    ensures ParseNotificationPriority(s) == Some(v) <==> s == NotificationPriorityToken(v)
    ensures ParseNotificationPriority(s).Some? <==> s in {"PRIORITYUNSPECIFIED", "PRIORITYMIN", "PRIORITYLOW", "PRIORITYDEFAULT", "PRIORITYHIGH", "PRIORITYMAX"}
  {
    NotificationPriorityTokens();
  }

  /** Every value reads back from what it is written as. */
  lemma NotificationPriorityRoundTrip(v: NotificationPriority)
    ensures ReadNotificationPriority(EncodeNotificationPriority(v)) == Some(v)
  {
    NotificationPriorityTokenRoundTrip(v, NotificationPriorityToken(v));
  }

  /** Distinct values are written as distinct tokens. */
  lemma NotificationPriorityTokenInjective(a: NotificationPriority, b: NotificationPriority)
    ensures NotificationPriorityToken(a) == NotificationPriorityToken(b) <==> a == b
  {
    NotificationPriorityTokenRoundTrip(a, NotificationPriorityToken(b));
    NotificationPriorityTokenRoundTrip(b, NotificationPriorityToken(b));
  }

  /** Lock-screen visibility of an Android notification (src/android/visibility.rs, and the same enum in src/android/mod.rs). */
  datatype Visibility = VisibilityUnspecified | Private | Public | Secret

  /** The Rust variant name. */
  function VisibilityVariant(v: Visibility): string {
    match v
    case VisibilityUnspecified => "VisibilityUnspecified"
    case Private => "Private"
    case Public => "Public"
    case Secret => "Secret"
  }

  /** The token serde writes. */
  function VisibilityToken(v: Visibility): string {
    RenameAll(Uppercase, VisibilityVariant(v))
  }

  function EncodeVisibility(v: Visibility): Json {
    JString(VisibilityToken(v))
  }

  lemma VisibilityTokenOfVisibilityUnspecified()
    ensures VisibilityToken(VisibilityUnspecified) == "VISIBILITYUNSPECIFIED"
  {
    var visibilityUnspecified := VisibilityToken(VisibilityUnspecified);
    assert visibilityUnspecified[0] == 'V' && visibilityUnspecified[1] == 'I' && visibilityUnspecified[2] == 'S' && visibilityUnspecified[3] == 'I' && visibilityUnspecified[4] == 'B' && visibilityUnspecified[5] == 'I';
    assert visibilityUnspecified[6] == 'L' && visibilityUnspecified[7] == 'I' && visibilityUnspecified[8] == 'T' && visibilityUnspecified[9] == 'Y' && visibilityUnspecified[10] == 'U' && visibilityUnspecified[11] == 'N';
    assert visibilityUnspecified[12] == 'S' && visibilityUnspecified[13] == 'P' && visibilityUnspecified[14] == 'E' && visibilityUnspecified[15] == 'C' && visibilityUnspecified[16] == 'I' && visibilityUnspecified[17] == 'F';
    assert visibilityUnspecified[18] == 'I' && visibilityUnspecified[19] == 'E' && visibilityUnspecified[20] == 'D';
  }

  lemma VisibilityTokenOfPrivate()
    ensures VisibilityToken(Private) == "PRIVATE"
  {
    var private := VisibilityToken(Private);
    assert private[0] == 'P' && private[1] == 'R' && private[2] == 'I' && private[3] == 'V' && private[4] == 'A' && private[5] == 'T';
    assert private[6] == 'E';
  }

  lemma VisibilityTokenOfPublic()
    ensures VisibilityToken(Public) == "PUBLIC"
  {
    var public := VisibilityToken(Public);
    assert public[0] == 'P' && public[1] == 'U' && public[2] == 'B' && public[3] == 'L' && public[4] == 'I' && public[5] == 'C';
  }

  lemma VisibilityTokenOfSecret()
    ensures VisibilityToken(Secret) == "SECRET"
  {
    var secret := VisibilityToken(Secret);
    assert secret[0] == 'S' && secret[1] == 'E' && secret[2] == 'C' && secret[3] == 'R' && secret[4] == 'E' && secret[5] == 'T';
  }

  /** The tokens spelled out. */
  lemma VisibilityTokens()
    ensures VisibilityToken(VisibilityUnspecified) == "VISIBILITYUNSPECIFIED"
    ensures VisibilityToken(Private) == "PRIVATE"
    ensures VisibilityToken(Public) == "PUBLIC"
    ensures VisibilityToken(Secret) == "SECRET"
  {
    VisibilityTokenOfVisibilityUnspecified();
    VisibilityTokenOfPrivate();
    VisibilityTokenOfPublic();
    VisibilityTokenOfSecret();
  }

  /** Reads a token back; only the 4 tokens above are accepted. */
  function ParseVisibility(s: string): Option<Visibility> {
    if s == "VISIBILITYUNSPECIFIED" then Some(VisibilityUnspecified)
    else if s == "PRIVATE" then Some(Private)
    else if s == "PUBLIC" then Some(Public)
    else if s == "SECRET" then Some(Secret)
    else None
  }

  function ReadVisibility(j: Json): Option<Visibility> {
    if j.JString? then ParseVisibility(j.s) else None
  }

  /** A string reads back as a value exactly when it is that value's token,
      and the accepted strings are exactly the 4 tokens. */
  lemma VisibilityTokenRoundTrip(v: Visibility, s: string)
    ensures ParseVisibility(s) == Some(v) <==> s == VisibilityToken(v)
    ensures ParseVisibility(s).Some? <==> s in {"VISIBILITYUNSPECIFIED", "PRIVATE", "PUBLIC", "SECRET"}
  {
    VisibilityTokens();
  }

  /** Every value reads back from what it is written as. */
  lemma VisibilityRoundTrip(v: Visibility)
    ensures ReadVisibility(EncodeVisibility(v)) == Some(v)
  {
    VisibilityTokenRoundTrip(v, VisibilityToken(v));
  }

  /** Distinct values are written as distinct tokens. */
  lemma VisibilityTokenInjective(a: Visibility, b: Visibility)
    ensures VisibilityToken(a) == VisibilityToken(b) <==> a == b
  {
    VisibilityTokenRoundTrip(a, VisibilityToken(b));
    VisibilityTokenRoundTrip(b, VisibilityToken(b));
  }
}

=== FILE: android_notification.dfy ===
/** The Android notification block: the builder-side `AndroidNotification` and
    the wire-side `AndroidNotificationInternal` it is finalized into
    (src/android/android_notification.rs), the older revision that serialized
    the builder struct directly (src/android/mod.rs), and the always-present
    `LightSettings` leaf (src/android/light_settings.rs). */
module AndroidNotifications {
  import opened Wrappers
  import opened Json
  import opened Serde
  import opened AndroidEnums

  /** A `google.type.Color`. Its four `f32` channels are not modelled: a colour
      is carried as the JSON value it serializes to. */
  datatype Color = Color(wire: Json)

  function EncodeColor(c: Color): Json {
    c.wire
  }

  function ReadColor(j: Json): Option<Color> {
    Some(Color(j))
  }

  /** LED settings: all three fields are plain (non-`Option`) values, so all
      three are always written. */
  datatype LightSettings = LightSettings(color: Color, light_on_duration: string, light_off_duration: string)

  /** The wire-side record `LightSettings::finalize` produces.
      src/android/android_notification.rs:4 imports `LightSettingsInternal`
      from src/android/light_settings.rs, which declares neither it nor
      `LightSettings::finalize`; the model takes the conversion to copy the
      three fields. */
  datatype LightSettingsInternal = LightSettingsInternal(color: Color, light_on_duration: string, light_off_duration: string)

  function FinalizeLightSettings(l: LightSettings): LightSettingsInternal {
    LightSettingsInternal(l.color, l.light_on_duration, l.light_off_duration)
  }

  const LightSettingsFields: seq<string> := ["color", "light_on_duration", "light_off_duration"]

  function LightSlots(color: Color, on: string, off: string): (slots: seq<Slot>)
    ensures Names(slots) == LightSettingsFields
  {
    [ Always("color", EncodeColor(color)),
      Always("light_on_duration", Str(on)),
      Always("light_off_duration", Str(off)) ]
  }

  function EncodeLightSettings(l: LightSettings): Json {
    JObject(SkipNone(LightSlots(l.color, l.light_on_duration, l.light_off_duration)))
  }

  function EncodeLightSettingsInternal(l: LightSettingsInternal): Json {
    JObject(SkipNone(LightSlots(l.color, l.light_on_duration, l.light_off_duration)))
  }

  function ReadLightSettingsInternal(j: Json): Option<LightSettingsInternal> {
    if !j.JObject? then None
    else
      var color :- ReadRequired(Get(j.fields, "color"), ReadColor);
      var on :- ReadRequired(Get(j.fields, "light_on_duration"), ReadString);
      var off :- ReadRequired(Get(j.fields, "light_off_duration"), ReadString);
      Some(LightSettingsInternal(color, on, off))
  }

  /** All three keys are always written, in declaration order, with the
      durations verbatim; finalizing does not change what is written. */
  lemma LightSettingsAlwaysWritten(l: LightSettings)
    ensures EncodeLightSettings(l) == JObject([
      ("color", l.color.wire),
      ("light_on_duration", JString(l.light_on_duration)),
      ("light_off_duration", JString(l.light_off_duration))])
    ensures EncodeLightSettingsInternal(FinalizeLightSettings(l)) == EncodeLightSettings(l)
  {
    var slots := LightSlots(l.color, l.light_on_duration, l.light_off_duration);
    SkipNoneStep(slots, 0);
    SkipNoneStep(slots, 1);
    SkipNoneStep(slots, 2);
    assert slots[0..] == slots;
  }

  lemma LightSettingsRoundTrip(l: LightSettingsInternal)
    ensures ReadLightSettingsInternal(EncodeLightSettingsInternal(l)) == Some(l)
  {
    var slots := LightSlots(l.color, l.light_on_duration, l.light_off_duration);
    LookupSlot(slots, 0);
    LookupSlot(slots, 1);
    LookupSlot(slots, 2);
  }

  /** The 25 optional fields, generic in the type of the light settings: the
      builder struct holds `LightSettings`, the wire struct the finalized form. */
  datatype AndroidNotificationOf<L> = AndroidNotificationOf(
    title: Option<string>,
    body: Option<string>,
    icon: Option<string>,
    color: Option<string>,
    sound: Option<string>,
    tag: Option<string>,
    click_action: Option<string>,
    body_loc_key: Option<string>,
    body_loc_args: Option<seq<string>>,
    title_loc_key: Option<string>,
    title_loc_args: Option<seq<string>>,
    channel_id: Option<string>,
    ticker: Option<string>,
    sticky: Option<bool>,
    event_time: Option<string>,
    local_only: Option<bool>,
    notification_priority: Option<NotificationPriority>,
    default_sound: Option<bool>,
    default_vibrate_timings: Option<bool>,
    default_light_settings: Option<bool>,
    vibrate_timings: Option<seq<string>>,
    visibility: Option<Visibility>,
    notification_count: Option<i32>,
    light_settings: Option<L>,
    image: Option<string>)

  type AndroidNotification = AndroidNotificationOf<LightSettings>
  type AndroidNotificationInternal = AndroidNotificationOf<LightSettingsInternal>

  const AndroidNotificationFields: seq<string> := [
    "title", "body", "icon", "color", "sound",
    "tag", "click_action", "body_loc_key", "body_loc_args", "title_loc_key",
    "title_loc_args", "channel_id", "ticker", "sticky", "event_time",
    "local_only", "notification_priority", "default_sound", "default_vibrate_timings", "default_light_settings",
    "vibrate_timings", "visibility", "notification_count", "light_settings", "image"]

  /** The struct as the serializer sees it: every field is skippable. */
  function AndroidNotificationSlots<L>(n: AndroidNotificationOf<L>, light: L -> Json): seq<Slot> {
    [ Skippable("title", n.title, Str),
      Skippable("body", n.body, Str),
      Skippable("icon", n.icon, Str),
      Skippable("color", n.color, Str),
      Skippable("sound", n.sound, Str),
      Skippable("tag", n.tag, Str),
      Skippable("click_action", n.click_action, Str),
      Skippable("body_loc_key", n.body_loc_key, Str),
      Skippable("body_loc_args", n.body_loc_args, Strings),
      Skippable("title_loc_key", n.title_loc_key, Str),
      Skippable("title_loc_args", n.title_loc_args, Strings),
      Skippable("channel_id", n.channel_id, Str),
      Skippable("ticker", n.ticker, Str),
      Skippable("sticky", n.sticky, Bool),
      Skippable("event_time", n.event_time, Str),
      Skippable("local_only", n.local_only, Bool),
      Skippable("notification_priority", n.notification_priority, EncodeNotificationPriority),
      Skippable("default_sound", n.default_sound, Bool),
      Skippable("default_vibrate_timings", n.default_vibrate_timings, Bool),
      Skippable("default_light_settings", n.default_light_settings, Bool),
      Skippable("vibrate_timings", n.vibrate_timings, Strings),
      Skippable("visibility", n.visibility, EncodeVisibility),
      Skippable("notification_count", n.notification_count, I32),
      Skippable("light_settings", n.light_settings, light),
      Skippable("image", n.image, Str) ]
  }

  lemma AndroidNotificationFieldsDistinct()
    ensures Distinct(AndroidNotificationFields)
  {
  }

  lemma AndroidNotificationSlotNames<L>(n: AndroidNotificationOf<L>, light: L -> Json)
    ensures Names(AndroidNotificationSlots(n, light)) == AndroidNotificationFields
  {
  }

  /** The number of fields that are set. */
  function SetFields<L>(n: AndroidNotificationOf<L>): nat {
    Present(n.title)
    + Present(n.body)
    + Present(n.icon)
    + Present(n.color)
    + Present(n.sound)
    + Present(n.tag)
    + Present(n.click_action)
    + Present(n.body_loc_key)
    + Present(n.body_loc_args)
    + Present(n.title_loc_key)
    + Present(n.title_loc_args)
    + Present(n.channel_id)
    + Present(n.ticker)
    + Present(n.sticky)
    + Present(n.event_time)
    + Present(n.local_only)
    + Present(n.notification_priority)
    + Present(n.default_sound)
    + Present(n.default_vibrate_timings)
    + Present(n.default_light_settings)
    + Present(n.vibrate_timings)
    + Present(n.visibility)
    + Present(n.notification_count)
    + Present(n.light_settings)
    + Present(n.image)
  }

  /** `AndroidNotification::finalize`: every field moves across unchanged except
      `light_settings`, which is finalized when present. */
  function FinalizeAndroidNotification(n: AndroidNotification): (r: AndroidNotificationInternal)
    ensures r.light_settings.None? <==> n.light_settings.None?
    ensures n.light_settings.Some? ==> r.light_settings.value == FinalizeLightSettings(n.light_settings.value)
  {
    AndroidNotificationOf(
      title := n.title,
      body := n.body,
      icon := n.icon,
      color := n.color,
      sound := n.sound,
      tag := n.tag,
      click_action := n.click_action,
      body_loc_key := n.body_loc_key,
      body_loc_args := n.body_loc_args,
      title_loc_key := n.title_loc_key,
      title_loc_args := n.title_loc_args,
      channel_id := n.channel_id,
      ticker := n.ticker,
      sticky := n.sticky,
      event_time := n.event_time,
      local_only := n.local_only,
      notification_priority := n.notification_priority,
      default_sound := n.default_sound,
      default_vibrate_timings := n.default_vibrate_timings,
      default_light_settings := n.default_light_settings,
      vibrate_timings := n.vibrate_timings,
      visibility := n.visibility,
      notification_count := n.notification_count,
      light_settings := if n.light_settings.Some? then Some(FinalizeLightSettings(n.light_settings.value)) else None,
      image := n.image)
  }

  /** The wire form of `AndroidNotificationInternal`. */
  function EncodeAndroidNotification(n: AndroidNotificationInternal): (j: Json)
    ensures j.JObject?
  {
    JObject(SkipNone(AndroidNotificationSlots(n, EncodeLightSettingsInternal)))
  }

  /** The older revision's wire form: the builder struct serialized directly. */
  function EncodeLegacyAndroidNotification(n: AndroidNotification): (j: Json)
    ensures j.JObject?
  {
    JObject(SkipNone(AndroidNotificationSlots(n, EncodeLightSettings)))
  }

  /** Reads the wire form back. */
  function DecodeAndroidNotification(j: Json): Option<AndroidNotificationInternal> {
    if !j.JObject? then None
    else
      var title :- ReadOptional(Get(j.fields, "title"), ReadString);
      var body :- ReadOptional(Get(j.fields, "body"), ReadString);
      var icon :- ReadOptional(Get(j.fields, "icon"), ReadString);
      var color :- ReadOptional(Get(j.fields, "color"), ReadString);
      var sound :- ReadOptional(Get(j.fields, "sound"), ReadString);
      var tag :- ReadOptional(Get(j.fields, "tag"), ReadString);
      var click_action :- ReadOptional(Get(j.fields, "click_action"), ReadString);
      var body_loc_key :- ReadOptional(Get(j.fields, "body_loc_key"), ReadString);
      var body_loc_args :- ReadOptional(Get(j.fields, "body_loc_args"), ReadStrings);
      var title_loc_key :- ReadOptional(Get(j.fields, "title_loc_key"), ReadString);
      var title_loc_args :- ReadOptional(Get(j.fields, "title_loc_args"), ReadStrings);
      var channel_id :- ReadOptional(Get(j.fields, "channel_id"), ReadString);
      var ticker :- ReadOptional(Get(j.fields, "ticker"), ReadString);
      var sticky :- ReadOptional(Get(j.fields, "sticky"), ReadBool);
      var event_time :- ReadOptional(Get(j.fields, "event_time"), ReadString);
      var local_only :- ReadOptional(Get(j.fields, "local_only"), ReadBool);
      var notification_priority :- ReadOptional(Get(j.fields, "notification_priority"), ReadNotificationPriority);
      var default_sound :- ReadOptional(Get(j.fields, "default_sound"), ReadBool);
      var default_vibrate_timings :- ReadOptional(Get(j.fields, "default_vibrate_timings"), ReadBool);
      var default_light_settings :- ReadOptional(Get(j.fields, "default_light_settings"), ReadBool);
      var vibrate_timings :- ReadOptional(Get(j.fields, "vibrate_timings"), ReadStrings);
      var visibility :- ReadOptional(Get(j.fields, "visibility"), ReadVisibility);
      var notification_count :- ReadOptional(Get(j.fields, "notification_count"), ReadI32);
      var light_settings :- ReadOptional(Get(j.fields, "light_settings"), ReadLightSettingsInternal);
      var image :- ReadOptional(Get(j.fields, "image"), ReadString);
      Some(AndroidNotificationOf(
        title,
        body,
        icon,
        color,
        sound,
        tag,
        click_action,
        body_loc_key,
        body_loc_args,
        title_loc_key,
        title_loc_args,
        channel_id,
        ticker,
        sticky,
        event_time,
        local_only,
        notification_priority,
        default_sound,
        default_vibrate_timings,
        default_light_settings,
        vibrate_timings,
        visibility,
        notification_count,
        light_settings,
        image))
  }

  // ---- one lemma per field: where it lands and whether it counts ----

  /** Position `i` of the slot list is found under its own name. */
  lemma WireSlotAt(n: AndroidNotificationInternal, i: nat)
    requires i < 25
    ensures Get(EncodeAndroidNotification(n).fields, AndroidNotificationSlots(n, EncodeLightSettingsInternal)[i].name) == AndroidNotificationSlots(n, EncodeLightSettingsInternal)[i].value
  {
    AndroidNotificationFieldsDistinct();
    AndroidNotificationSlotNames(n, EncodeLightSettingsInternal);
    LookupSlot(AndroidNotificationSlots(n, EncodeLightSettingsInternal), i);
  }

  lemma WireTitle(n: AndroidNotificationInternal)
    ensures Get(EncodeAndroidNotification(n).fields, "title") == Lift(n.title, Str)
  {
    var s := AndroidNotificationSlots(n, EncodeLightSettingsInternal);
    assert s[0] == Skippable("title", n.title, Str);
    WireSlotAt(n, 0);
  }

  lemma CountTitle(n: AndroidNotificationInternal)
    ensures Written(AndroidNotificationSlots(n, EncodeLightSettingsInternal)) == Present(n.title) + Written(AndroidNotificationSlots(n, EncodeLightSettingsInternal)[1..])
  {
    var s := AndroidNotificationSlots(n, EncodeLightSettingsInternal);
    assert s[0] == Skippable("title", n.title, Str);
    SkipNoneStep(s, 0);
    assert s[0..] == s;
  }

  lemma WireBody(n: AndroidNotificationInternal)
    ensures Get(EncodeAndroidNotification(n).fields, "body") == Lift(n.body, Str)
  {
    var s := AndroidNotificationSlots(n, EncodeLightSettingsInternal);
    assert s[1] == Skippable("body", n.body, Str);
    WireSlotAt(n, 1);
  }

  lemma CountBody(n: AndroidNotificationInternal)
    ensures Written(AndroidNotificationSlots(n, EncodeLightSettingsInternal)[1..]) == Present(n.body) + Written(AndroidNotificationSlots(n, EncodeLightSettingsInternal)[2..])
  {
    var s := AndroidNotificationSlots(n, EncodeLightSettingsInternal);
    assert s[1] == Skippable("body", n.body, Str);
    SkipNoneStep(s, 1);
  }

  lemma WireIcon(n: AndroidNotificationInternal)
    ensures Get(EncodeAndroidNotification(n).fields, "icon") == Lift(n.icon, Str)
  {
    var s := AndroidNotificationSlots(n, EncodeLightSettingsInternal);
    assert s[2] == Skippable("icon", n.icon, Str);
    WireSlotAt(n, 2);
  }

  lemma CountIcon(n: AndroidNotificationInternal)
    ensures Written(AndroidNotificationSlots(n, EncodeLightSettingsInternal)[2..]) == Present(n.icon) + Written(AndroidNotificationSlots(n, EncodeLightSettingsInternal)[3..])
  {
    var s := AndroidNotificationSlots(n, EncodeLightSettingsInternal);
    assert s[2] == Skippable("icon", n.icon, Str);
    SkipNoneStep(s, 2);
  }

  lemma WireColor(n: AndroidNotificationInternal)
    ensures Get(EncodeAndroidNotification(n).fields, "color") == Lift(n.color, Str)
  {
    var s := AndroidNotificationSlots(n, EncodeLightSettingsInternal);
    assert s[3] == Skippable("color", n.color, Str);
    WireSlotAt(n, 3);
  }

  lemma CountColor(n: AndroidNotificationInternal)
    ensures Written(AndroidNotificationSlots(n, EncodeLightSettingsInternal)[3..]) == Present(n.color) + Written(AndroidNotificationSlots(n, EncodeLightSettingsInternal)[4..])
  {
    var s := AndroidNotificationSlots(n, EncodeLightSettingsInternal);
    assert s[3] == Skippable("color", n.color, Str);
    SkipNoneStep(s, 3);
  }

  lemma WireSound(n: AndroidNotificationInternal)
    ensures Get(EncodeAndroidNotification(n).fields, "sound") == Lift(n.sound, Str)
  {
    var s := AndroidNotificationSlots(n, EncodeLightSettingsInternal);
    assert s[4] == Skippable("sound", n.sound, Str);
    WireSlotAt(n, 4);
  }

  lemma CountSound(n: AndroidNotificationInternal)
    ensures Written(AndroidNotificationSlots(n, EncodeLightSettingsInternal)[4..]) == Present(n.sound) + Written(AndroidNotificationSlots(n, EncodeLightSettingsInternal)[5..])
  {
    var s := AndroidNotificationSlots(n, EncodeLightSettingsInternal);
    assert s[4] == Skippable("sound", n.sound, Str);
    SkipNoneStep(s, 4);
  }

  lemma WireTag(n: AndroidNotificationInternal)
    ensures Get(EncodeAndroidNotification(n).fields, "tag") == Lift(n.tag, Str)
  {
    var s := AndroidNotificationSlots(n, EncodeLightSettingsInternal);
    assert s[5] == Skippable("tag", n.tag, Str);
    WireSlotAt(n, 5);
  }

  lemma CountTag(n: AndroidNotificationInternal)
    ensures Written(AndroidNotificationSlots(n, EncodeLightSettingsInternal)[5..]) == Present(n.tag) + Written(AndroidNotificationSlots(n, EncodeLightSettingsInternal)[6..])
  {
    var s := AndroidNotificationSlots(n, EncodeLightSettingsInternal);
    assert s[5] == Skippable("tag", n.tag, Str);
    SkipNoneStep(s, 5);
  }

  lemma WireClickAction(n: AndroidNotificationInternal)
    ensures Get(EncodeAndroidNotification(n).fields, "click_action") == Lift(n.click_action, Str)
  {
    var s := AndroidNotificationSlots(n, EncodeLightSettingsInternal);
    assert s[6] == Skippable("click_action", n.click_action, Str);
    WireSlotAt(n, 6);
  }

  lemma CountClickAction(n: AndroidNotificationInternal)
    ensures Written(AndroidNotificationSlots(n, EncodeLightSettingsInternal)[6..]) == Present(n.click_action) + Written(AndroidNotificationSlots(n, EncodeLightSettingsInternal)[7..])
  {
    var s := AndroidNotificationSlots(n, EncodeLightSettingsInternal);
    assert s[6] == Skippable("click_action", n.click_action, Str);
    SkipNoneStep(s, 6);
  }

  lemma WireBodyLocKey(n: AndroidNotificationInternal)
    ensures Get(EncodeAndroidNotification(n).fields, "body_loc_key") == Lift(n.body_loc_key, Str)
  {
    var s := AndroidNotificationSlots(n, EncodeLightSettingsInternal);
    assert s[7] == Skippable("body_loc_key", n.body_loc_key, Str);
    WireSlotAt(n, 7);
  }

  lemma CountBodyLocKey(n: AndroidNotificationInternal)
    ensures Written(AndroidNotificationSlots(n, EncodeLightSettingsInternal)[7..]) == Present(n.body_loc_key) + Written(AndroidNotificationSlots(n, EncodeLightSettingsInternal)[8..])
  {
    var s := AndroidNotificationSlots(n, EncodeLightSettingsInternal);
    assert s[7] == Skippable("body_loc_key", n.body_loc_key, Str);
    SkipNoneStep(s, 7);
  }

  lemma WireBodyLocArgs(n: AndroidNotificationInternal)
    ensures Get(EncodeAndroidNotification(n).fields, "body_loc_args") == Lift(n.body_loc_args, Strings)
  {
    var s := AndroidNotificationSlots(n, EncodeLightSettingsInternal);
    assert s[8] == Skippable("body_loc_args", n.body_loc_args, Strings);
    WireSlotAt(n, 8);
  }

  lemma CountBodyLocArgs(n: AndroidNotificationInternal)
    ensures Written(AndroidNotificationSlots(n, EncodeLightSettingsInternal)[8..]) == Present(n.body_loc_args) + Written(AndroidNotificationSlots(n, EncodeLightSettingsInternal)[9..])
  {
    var s := AndroidNotificationSlots(n, EncodeLightSettingsInternal);
    assert s[8] == Skippable("body_loc_args", n.body_loc_args, Strings);
    SkipNoneStep(s, 8);
  }

  lemma WireTitleLocKey(n: AndroidNotificationInternal)
    ensures Get(EncodeAndroidNotification(n).fields, "title_loc_key") == Lift(n.title_loc_key, Str)
  {
    var s := AndroidNotificationSlots(n, EncodeLightSettingsInternal);
    assert s[9] == Skippable("title_loc_key", n.title_loc_key, Str);
    WireSlotAt(n, 9);
  }

  lemma CountTitleLocKey(n: AndroidNotificationInternal)
    ensures Written(AndroidNotificationSlots(n, EncodeLightSettingsInternal)[9..]) == Present(n.title_loc_key) + Written(AndroidNotificationSlots(n, EncodeLightSettingsInternal)[10..])
  {
    var s := AndroidNotificationSlots(n, EncodeLightSettingsInternal);
    assert s[9] == Skippable("title_loc_key", n.title_loc_key, Str);
    SkipNoneStep(s, 9);
  }

  lemma WireTitleLocArgs(n: AndroidNotificationInternal)
    ensures Get(EncodeAndroidNotification(n).fields, "title_loc_args") == Lift(n.title_loc_args, Strings)
  {
    var s := AndroidNotificationSlots(n, EncodeLightSettingsInternal);
    assert s[10] == Skippable("title_loc_args", n.title_loc_args, Strings);
    WireSlotAt(n, 10);
  }

  lemma CountTitleLocArgs(n: AndroidNotificationInternal)
    ensures Written(AndroidNotificationSlots(n, EncodeLightSettingsInternal)[10..]) == Present(n.title_loc_args) + Written(AndroidNotificationSlots(n, EncodeLightSettingsInternal)[11..])
  {
    var s := AndroidNotificationSlots(n, EncodeLightSettingsInternal);
    assert s[10] == Skippable("title_loc_args", n.title_loc_args, Strings);
    SkipNoneStep(s, 10);
  }

  lemma WireChannelId(n: AndroidNotificationInternal)
    ensures Get(EncodeAndroidNotification(n).fields, "channel_id") == Lift(n.channel_id, Str)
  {
    var s := AndroidNotificationSlots(n, EncodeLightSettingsInternal);
    assert s[11] == Skippable("channel_id", n.channel_id, Str);
    WireSlotAt(n, 11);
  }

  lemma CountChannelId(n: AndroidNotificationInternal)
    ensures Written(AndroidNotificationSlots(n, EncodeLightSettingsInternal)[11..]) == Present(n.channel_id) + Written(AndroidNotificationSlots(n, EncodeLightSettingsInternal)[12..])
  {
    var s := AndroidNotificationSlots(n, EncodeLightSettingsInternal);
    assert s[11] == Skippable("channel_id", n.channel_id, Str);
    SkipNoneStep(s, 11);
  }

  lemma WireTicker(n: AndroidNotificationInternal)
    ensures Get(EncodeAndroidNotification(n).fields, "ticker") == Lift(n.ticker, Str)
  {
    var s := AndroidNotificationSlots(n, EncodeLightSettingsInternal);
    assert s[12] == Skippable("ticker", n.ticker, Str);
    WireSlotAt(n, 12);
  }

  lemma CountTicker(n: AndroidNotificationInternal)
    ensures Written(AndroidNotificationSlots(n, EncodeLightSettingsInternal)[12..]) == Present(n.ticker) + Written(AndroidNotificationSlots(n, EncodeLightSettingsInternal)[13..])
  {
    var s := AndroidNotificationSlots(n, EncodeLightSettingsInternal);
    assert s[12] == Skippable("ticker", n.ticker, Str);
    SkipNoneStep(s, 12);
  }

  lemma WireSticky(n: AndroidNotificationInternal)
    ensures Get(EncodeAndroidNotification(n).fields, "sticky") == Lift(n.sticky, Bool)
  {
    var s := AndroidNotificationSlots(n, EncodeLightSettingsInternal);
    assert s[13] == Skippable("sticky", n.sticky, Bool);
    WireSlotAt(n, 13);
  }

  lemma CountSticky(n: AndroidNotificationInternal)
    ensures Written(AndroidNotificationSlots(n, EncodeLightSettingsInternal)[13..]) == Present(n.sticky) + Written(AndroidNotificationSlots(n, EncodeLightSettingsInternal)[14..])
  {
    var s := AndroidNotificationSlots(n, EncodeLightSettingsInternal);
    assert s[13] == Skippable("sticky", n.sticky, Bool);
    SkipNoneStep(s, 13);
  }

  lemma WireEventTime(n: AndroidNotificationInternal)
    ensures Get(EncodeAndroidNotification(n).fields, "event_time") == Lift(n.event_time, Str)
  {
    var s := AndroidNotificationSlots(n, EncodeLightSettingsInternal);
    assert s[14] == Skippable("event_time", n.event_time, Str);
    WireSlotAt(n, 14);
  }

  lemma CountEventTime(n: AndroidNotificationInternal)
    ensures Written(AndroidNotificationSlots(n, EncodeLightSettingsInternal)[14..]) == Present(n.event_time) + Written(AndroidNotificationSlots(n, EncodeLightSettingsInternal)[15..])
  {
    var s := AndroidNotificationSlots(n, EncodeLightSettingsInternal);
    assert s[14] == Skippable("event_time", n.event_time, Str);
    SkipNoneStep(s, 14);
  }

  lemma WireLocalOnly(n: AndroidNotificationInternal)
    ensures Get(EncodeAndroidNotification(n).fields, "local_only") == Lift(n.local_only, Bool)
  {
    var s := AndroidNotificationSlots(n, EncodeLightSettingsInternal);
    assert s[15] == Skippable("local_only", n.local_only, Bool);
    WireSlotAt(n, 15);
  }

  lemma CountLocalOnly(n: AndroidNotificationInternal)
    ensures Written(AndroidNotificationSlots(n, EncodeLightSettingsInternal)[15..]) == Present(n.local_only) + Written(AndroidNotificationSlots(n, EncodeLightSettingsInternal)[16..])
  {
    var s := AndroidNotificationSlots(n, EncodeLightSettingsInternal);
    assert s[15] == Skippable("local_only", n.local_only, Bool);
    SkipNoneStep(s, 15);
  }

  lemma WireNotificationPriority(n: AndroidNotificationInternal)
    ensures Get(EncodeAndroidNotification(n).fields, "notification_priority") == Lift(n.notification_priority, EncodeNotificationPriority)
  {
    var s := AndroidNotificationSlots(n, EncodeLightSettingsInternal);
    assert s[16] == Skippable("notification_priority", n.notification_priority, EncodeNotificationPriority);
    WireSlotAt(n, 16);
  }

  lemma CountNotificationPriority(n: AndroidNotificationInternal)
    ensures Written(AndroidNotificationSlots(n, EncodeLightSettingsInternal)[16..]) == Present(n.notification_priority) + Written(AndroidNotificationSlots(n, EncodeLightSettingsInternal)[17..])
  {
    var s := AndroidNotificationSlots(n, EncodeLightSettingsInternal);
    assert s[16] == Skippable("notification_priority", n.notification_priority, EncodeNotificationPriority);
    SkipNoneStep(s, 16);
  }

  lemma WireDefaultSound(n: AndroidNotificationInternal)
    ensures Get(EncodeAndroidNotification(n).fields, "default_sound") == Lift(n.default_sound, Bool)
  {
    var s := AndroidNotificationSlots(n, EncodeLightSettingsInternal);
    assert s[17] == Skippable("default_sound", n.default_sound, Bool);
    WireSlotAt(n, 17);
  }

  lemma CountDefaultSound(n: AndroidNotificationInternal)
    ensures Written(AndroidNotificationSlots(n, EncodeLightSettingsInternal)[17..]) == Present(n.default_sound) + Written(AndroidNotificationSlots(n, EncodeLightSettingsInternal)[18..])
  {
    var s := AndroidNotificationSlots(n, EncodeLightSettingsInternal);
    assert s[17] == Skippable("default_sound", n.default_sound, Bool);
    SkipNoneStep(s, 17);
  }

  lemma WireDefaultVibrateTimings(n: AndroidNotificationInternal)
    ensures Get(EncodeAndroidNotification(n).fields, "default_vibrate_timings") == Lift(n.default_vibrate_timings, Bool)
  {
    var s := AndroidNotificationSlots(n, EncodeLightSettingsInternal);
    assert s[18] == Skippable("default_vibrate_timings", n.default_vibrate_timings, Bool);
    WireSlotAt(n, 18);
  }

  lemma CountDefaultVibrateTimings(n: AndroidNotificationInternal)
    ensures Written(AndroidNotificationSlots(n, EncodeLightSettingsInternal)[18..]) == Present(n.default_vibrate_timings) + Written(AndroidNotificationSlots(n, EncodeLightSettingsInternal)[19..])
  {
    var s := AndroidNotificationSlots(n, EncodeLightSettingsInternal);
    assert s[18] == Skippable("default_vibrate_timings", n.default_vibrate_timings, Bool);
    SkipNoneStep(s, 18);
  }

  lemma WireDefaultLightSettings(n: AndroidNotificationInternal)
    ensures Get(EncodeAndroidNotification(n).fields, "default_light_settings") == Lift(n.default_light_settings, Bool)
  {
    var s := AndroidNotificationSlots(n, EncodeLightSettingsInternal);
    assert s[19] == Skippable("default_light_settings", n.default_light_settings, Bool);
    WireSlotAt(n, 19);
  }

  lemma CountDefaultLightSettings(n: AndroidNotificationInternal)
    ensures Written(AndroidNotificationSlots(n, EncodeLightSettingsInternal)[19..]) == Present(n.default_light_settings) + Written(AndroidNotificationSlots(n, EncodeLightSettingsInternal)[20..])
  {
    var s := AndroidNotificationSlots(n, EncodeLightSettingsInternal);
    assert s[19] == Skippable("default_light_settings", n.default_light_settings, Bool);
    SkipNoneStep(s, 19);
  }

  lemma WireVibrateTimings(n: AndroidNotificationInternal)
    ensures Get(EncodeAndroidNotification(n).fields, "vibrate_timings") == Lift(n.vibrate_timings, Strings)
  {
    var s := AndroidNotificationSlots(n, EncodeLightSettingsInternal);
    assert s[20] == Skippable("vibrate_timings", n.vibrate_timings, Strings);
    WireSlotAt(n, 20);
  }

  lemma CountVibrateTimings(n: AndroidNotificationInternal)
    ensures Written(AndroidNotificationSlots(n, EncodeLightSettingsInternal)[20..]) == Present(n.vibrate_timings) + Written(AndroidNotificationSlots(n, EncodeLightSettingsInternal)[21..])
  {
    var s := AndroidNotificationSlots(n, EncodeLightSettingsInternal);
    assert s[20] == Skippable("vibrate_timings", n.vibrate_timings, Strings);
    SkipNoneStep(s, 20);
  }

  lemma WireVisibility(n: AndroidNotificationInternal)
    ensures Get(EncodeAndroidNotification(n).fields, "visibility") == Lift(n.visibility, EncodeVisibility)
  {
    var s := AndroidNotificationSlots(n, EncodeLightSettingsInternal);
    assert s[21] == Skippable("visibility", n.visibility, EncodeVisibility);
    WireSlotAt(n, 21);
  }

  lemma CountVisibility(n: AndroidNotificationInternal)
    ensures Written(AndroidNotificationSlots(n, EncodeLightSettingsInternal)[21..]) == Present(n.visibility) + Written(AndroidNotificationSlots(n, EncodeLightSettingsInternal)[22..])
  {
    var s := AndroidNotificationSlots(n, EncodeLightSettingsInternal);
    assert s[21] == Skippable("visibility", n.visibility, EncodeVisibility);
    SkipNoneStep(s, 21);
  }

  lemma WireNotificationCount(n: AndroidNotificationInternal)
    ensures Get(EncodeAndroidNotification(n).fields, "notification_count") == Lift(n.notification_count, I32)
  {
    var s := AndroidNotificationSlots(n, EncodeLightSettingsInternal);
    assert s[22] == Skippable("notification_count", n.notification_count, I32);
    WireSlotAt(n, 22);
  }

  lemma CountNotificationCount(n: AndroidNotificationInternal)
    ensures Written(AndroidNotificationSlots(n, EncodeLightSettingsInternal)[22..]) == Present(n.notification_count) + Written(AndroidNotificationSlots(n, EncodeLightSettingsInternal)[23..])
  {
    var s := AndroidNotificationSlots(n, EncodeLightSettingsInternal);
    assert s[22] == Skippable("notification_count", n.notification_count, I32);
    SkipNoneStep(s, 22);
  }

  lemma WireLightSettings(n: AndroidNotificationInternal)
    ensures Get(EncodeAndroidNotification(n).fields, "light_settings") == Lift(n.light_settings, EncodeLightSettingsInternal)
  {
    var s := AndroidNotificationSlots(n, EncodeLightSettingsInternal);
    assert s[23] == Skippable("light_settings", n.light_settings, EncodeLightSettingsInternal);
    WireSlotAt(n, 23);
  }

  lemma CountLightSettings(n: AndroidNotificationInternal)
    ensures Written(AndroidNotificationSlots(n, EncodeLightSettingsInternal)[23..]) == Present(n.light_settings) + Written(AndroidNotificationSlots(n, EncodeLightSettingsInternal)[24..])
  {
    var s := AndroidNotificationSlots(n, EncodeLightSettingsInternal);
    assert s[23] == Skippable("light_settings", n.light_settings, EncodeLightSettingsInternal);
    SkipNoneStep(s, 23);
  }

  lemma WireImage(n: AndroidNotificationInternal)
    ensures Get(EncodeAndroidNotification(n).fields, "image") == Lift(n.image, Str)
  {
    var s := AndroidNotificationSlots(n, EncodeLightSettingsInternal);
    assert s[24] == Skippable("image", n.image, Str);
    WireSlotAt(n, 24);
  }

  lemma CountImage(n: AndroidNotificationInternal)
    ensures Written(AndroidNotificationSlots(n, EncodeLightSettingsInternal)[24..]) == Present(n.image)
  {
    var s := AndroidNotificationSlots(n, EncodeLightSettingsInternal);
    assert s[24] == Skippable("image", n.image, Str);
    SkipNoneStep(s, 24);
    assert s[25..] == [];
  }

  /** Each field is written under its own name exactly when it is set, holding
      its value's encoding: strings verbatim, lists as arrays of strings, the
      two enums as their upper-case tokens, the light settings as their object. */
  lemma AndroidNotificationFieldsWritten(n: AndroidNotificationInternal)
    ensures Get(EncodeAndroidNotification(n).fields, "title") == Lift(n.title, Str)
    ensures Get(EncodeAndroidNotification(n).fields, "body") == Lift(n.body, Str)
    ensures Get(EncodeAndroidNotification(n).fields, "icon") == Lift(n.icon, Str)
    ensures Get(EncodeAndroidNotification(n).fields, "color") == Lift(n.color, Str)
    ensures Get(EncodeAndroidNotification(n).fields, "sound") == Lift(n.sound, Str)
    ensures Get(EncodeAndroidNotification(n).fields, "tag") == Lift(n.tag, Str)
    ensures Get(EncodeAndroidNotification(n).fields, "click_action") == Lift(n.click_action, Str)
    ensures Get(EncodeAndroidNotification(n).fields, "body_loc_key") == Lift(n.body_loc_key, Str)
    ensures Get(EncodeAndroidNotification(n).fields, "body_loc_args") == Lift(n.body_loc_args, Strings)
    ensures Get(EncodeAndroidNotification(n).fields, "title_loc_key") == Lift(n.title_loc_key, Str)
    ensures Get(EncodeAndroidNotification(n).fields, "title_loc_args") == Lift(n.title_loc_args, Strings)
    ensures Get(EncodeAndroidNotification(n).fields, "channel_id") == Lift(n.channel_id, Str)
    ensures Get(EncodeAndroidNotification(n).fields, "ticker") == Lift(n.ticker, Str)
    ensures Get(EncodeAndroidNotification(n).fields, "sticky") == Lift(n.sticky, Bool)
    ensures Get(EncodeAndroidNotification(n).fields, "event_time") == Lift(n.event_time, Str)
    ensures Get(EncodeAndroidNotification(n).fields, "local_only") == Lift(n.local_only, Bool)
    ensures Get(EncodeAndroidNotification(n).fields, "notification_priority") == Lift(n.notification_priority, EncodeNotificationPriority)
    ensures Get(EncodeAndroidNotification(n).fields, "default_sound") == Lift(n.default_sound, Bool)
    ensures Get(EncodeAndroidNotification(n).fields, "default_vibrate_timings") == Lift(n.default_vibrate_timings, Bool)
    ensures Get(EncodeAndroidNotification(n).fields, "default_light_settings") == Lift(n.default_light_settings, Bool)
    ensures Get(EncodeAndroidNotification(n).fields, "vibrate_timings") == Lift(n.vibrate_timings, Strings)
    ensures Get(EncodeAndroidNotification(n).fields, "visibility") == Lift(n.visibility, EncodeVisibility)
    ensures Get(EncodeAndroidNotification(n).fields, "notification_count") == Lift(n.notification_count, I32)
    ensures Get(EncodeAndroidNotification(n).fields, "light_settings") == Lift(n.light_settings, EncodeLightSettingsInternal)
    ensures Get(EncodeAndroidNotification(n).fields, "image") == Lift(n.image, Str)
  {
    WireTitle(n);
    WireBody(n);
    WireIcon(n);
    WireColor(n);
    WireSound(n);
    WireTag(n);
    WireClickAction(n);
    WireBodyLocKey(n);
    WireBodyLocArgs(n);
    WireTitleLocKey(n);
    WireTitleLocArgs(n);
    WireChannelId(n);
    WireTicker(n);
    WireSticky(n);
    WireEventTime(n);
    WireLocalOnly(n);
    WireNotificationPriority(n);
    WireDefaultSound(n);
    WireDefaultVibrateTimings(n);
    WireDefaultLightSettings(n);
    WireVibrateTimings(n);
    WireVisibility(n);
    WireNotificationCount(n);
    WireLightSettings(n);
    WireImage(n);
  }

  /** The object has no key twice and no key outside the 25 field names. */
  lemma AndroidNotificationKeys(n: AndroidNotificationInternal)
    ensures Distinct(Keys(EncodeAndroidNotification(n).fields))
    ensures forall k :: k in Keys(EncodeAndroidNotification(n).fields) ==> k in AndroidNotificationFields
  {
    var slots := AndroidNotificationSlots(n, EncodeLightSettingsInternal);
    AndroidNotificationFieldsDistinct();
    AndroidNotificationSlotNames(n, EncodeLightSettingsInternal);
    SkipNoneDistinct(slots);
  }

  /** The serializer writes one entry per set field. */
  lemma AndroidNotificationWritten(n: AndroidNotificationInternal)
    ensures Written(AndroidNotificationSlots(n, EncodeLightSettingsInternal)) == SetFields(n)
  {
    CountTitle(n);
    CountBody(n);
    CountIcon(n);
    CountColor(n);
    CountSound(n);
    CountTag(n);
    CountClickAction(n);
    CountBodyLocKey(n);
    CountBodyLocArgs(n);
    CountTitleLocKey(n);
    CountTitleLocArgs(n);
    CountChannelId(n);
    CountTicker(n);
    CountSticky(n);
    CountEventTime(n);
    CountLocalOnly(n);
    CountNotificationPriority(n);
    CountDefaultSound(n);
    CountDefaultVibrateTimings(n);
    CountDefaultLightSettings(n);
    CountVibrateTimings(n);
    CountVisibility(n);
    CountNotificationCount(n);
    CountLightSettings(n);
    CountImage(n);
  }

  /** One key per set field, so a notification with nothing set is `{}`. */
  lemma AndroidNotificationKeyCount(n: AndroidNotificationInternal)
    ensures |EncodeAndroidNotification(n).fields| == SetFields(n)
    ensures SetFields(n) == 0 ==> EncodeAndroidNotification(n) == JObject([])
  {
    AndroidNotificationWritten(n);
  }

  /** Each field's reader inverts its encoder. */
  lemma AndroidNotificationReadsBack(n: AndroidNotificationInternal)
    ensures ReadOptional(Lift(n.title, Str), ReadString) == Some(n.title)
    ensures ReadOptional(Lift(n.body, Str), ReadString) == Some(n.body)
    ensures ReadOptional(Lift(n.icon, Str), ReadString) == Some(n.icon)
    ensures ReadOptional(Lift(n.color, Str), ReadString) == Some(n.color)
    ensures ReadOptional(Lift(n.sound, Str), ReadString) == Some(n.sound)
    ensures ReadOptional(Lift(n.tag, Str), ReadString) == Some(n.tag)
    ensures ReadOptional(Lift(n.click_action, Str), ReadString) == Some(n.click_action)
    ensures ReadOptional(Lift(n.body_loc_key, Str), ReadString) == Some(n.body_loc_key)
    ensures ReadOptional(Lift(n.body_loc_args, Strings), ReadStrings) == Some(n.body_loc_args)
    ensures ReadOptional(Lift(n.title_loc_key, Str), ReadString) == Some(n.title_loc_key)
    ensures ReadOptional(Lift(n.title_loc_args, Strings), ReadStrings) == Some(n.title_loc_args)
    ensures ReadOptional(Lift(n.channel_id, Str), ReadString) == Some(n.channel_id)
    ensures ReadOptional(Lift(n.ticker, Str), ReadString) == Some(n.ticker)
    ensures ReadOptional(Lift(n.sticky, Bool), ReadBool) == Some(n.sticky)
    ensures ReadOptional(Lift(n.event_time, Str), ReadString) == Some(n.event_time)
    ensures ReadOptional(Lift(n.local_only, Bool), ReadBool) == Some(n.local_only)
    ensures ReadOptional(Lift(n.notification_priority, EncodeNotificationPriority), ReadNotificationPriority) == Some(n.notification_priority)
    ensures ReadOptional(Lift(n.default_sound, Bool), ReadBool) == Some(n.default_sound)
    ensures ReadOptional(Lift(n.default_vibrate_timings, Bool), ReadBool) == Some(n.default_vibrate_timings)
    ensures ReadOptional(Lift(n.default_light_settings, Bool), ReadBool) == Some(n.default_light_settings)
    ensures ReadOptional(Lift(n.vibrate_timings, Strings), ReadStrings) == Some(n.vibrate_timings)
    ensures ReadOptional(Lift(n.visibility, EncodeVisibility), ReadVisibility) == Some(n.visibility)
    ensures ReadOptional(Lift(n.notification_count, I32), ReadI32) == Some(n.notification_count)
    ensures ReadOptional(Lift(n.light_settings, EncodeLightSettingsInternal), ReadLightSettingsInternal) == Some(n.light_settings)
    ensures ReadOptional(Lift(n.image, Str), ReadString) == Some(n.image)
  {
    assert forall x :: ReadString(Str(x)) == Some(x);
    assert forall x :: ReadBool(Bool(x)) == Some(x);
    assert forall x: i32 :: ReadI32(I32(x)) == Some(x);
    forall x ensures ReadStrings(Strings(x)) == Some(x) {
      StringsRoundTrip(x);
    }
    forall x ensures ReadNotificationPriority(EncodeNotificationPriority(x)) == Some(x) {
      NotificationPriorityRoundTrip(x);
    }
    forall x ensures ReadVisibility(EncodeVisibility(x)) == Some(x) {
      VisibilityRoundTrip(x);
    }
    forall x ensures ReadLightSettingsInternal(EncodeLightSettingsInternal(x)) == Some(x) {
      LightSettingsRoundTrip(x);
    }
    ReadLift(n.title, Str, ReadString);
    ReadLift(n.body, Str, ReadString);
    ReadLift(n.icon, Str, ReadString);
    ReadLift(n.color, Str, ReadString);
    ReadLift(n.sound, Str, ReadString);
    ReadLift(n.tag, Str, ReadString);
    ReadLift(n.click_action, Str, ReadString);
    ReadLift(n.body_loc_key, Str, ReadString);
    ReadLift(n.body_loc_args, Strings, ReadStrings);
    ReadLift(n.title_loc_key, Str, ReadString);
    ReadLift(n.title_loc_args, Strings, ReadStrings);
    ReadLift(n.channel_id, Str, ReadString);
    ReadLift(n.ticker, Str, ReadString);
    ReadLift(n.sticky, Bool, ReadBool);
    ReadLift(n.event_time, Str, ReadString);
    ReadLift(n.local_only, Bool, ReadBool);
    ReadLift(n.notification_priority, EncodeNotificationPriority, ReadNotificationPriority);
    ReadLift(n.default_sound, Bool, ReadBool);
    ReadLift(n.default_vibrate_timings, Bool, ReadBool);
    ReadLift(n.default_light_settings, Bool, ReadBool);
    ReadLift(n.vibrate_timings, Strings, ReadStrings);
    ReadLift(n.visibility, EncodeVisibility, ReadVisibility);
    ReadLift(n.notification_count, I32, ReadI32);
    ReadLift(n.light_settings, EncodeLightSettingsInternal, ReadLightSettingsInternal);
    ReadLift(n.image, Str, ReadString);
  }

  /** Any object holding each field's encoding under its name decodes to the record. */
  lemma AndroidNotificationDecodeFrom(j: Json, n: AndroidNotificationInternal)
    requires j.JObject?
    requires Get(j.fields, "title") == Lift(n.title, Str)
    requires Get(j.fields, "body") == Lift(n.body, Str)
    requires Get(j.fields, "icon") == Lift(n.icon, Str)
    requires Get(j.fields, "color") == Lift(n.color, Str)
    requires Get(j.fields, "sound") == Lift(n.sound, Str)
    requires Get(j.fields, "tag") == Lift(n.tag, Str)
    requires Get(j.fields, "click_action") == Lift(n.click_action, Str)
    requires Get(j.fields, "body_loc_key") == Lift(n.body_loc_key, Str)
    requires Get(j.fields, "body_loc_args") == Lift(n.body_loc_args, Strings)
    requires Get(j.fields, "title_loc_key") == Lift(n.title_loc_key, Str)
    requires Get(j.fields, "title_loc_args") == Lift(n.title_loc_args, Strings)
    requires Get(j.fields, "channel_id") == Lift(n.channel_id, Str)
    requires Get(j.fields, "ticker") == Lift(n.ticker, Str)
    requires Get(j.fields, "sticky") == Lift(n.sticky, Bool)
    requires Get(j.fields, "event_time") == Lift(n.event_time, Str)
    requires Get(j.fields, "local_only") == Lift(n.local_only, Bool)
    requires Get(j.fields, "notification_priority") == Lift(n.notification_priority, EncodeNotificationPriority)
    requires Get(j.fields, "default_sound") == Lift(n.default_sound, Bool)
    requires Get(j.fields, "default_vibrate_timings") == Lift(n.default_vibrate_timings, Bool)
    requires Get(j.fields, "default_light_settings") == Lift(n.default_light_settings, Bool)
    requires Get(j.fields, "vibrate_timings") == Lift(n.vibrate_timings, Strings)
    requires Get(j.fields, "visibility") == Lift(n.visibility, EncodeVisibility)
    requires Get(j.fields, "notification_count") == Lift(n.notification_count, I32)
    requires Get(j.fields, "light_settings") == Lift(n.light_settings, EncodeLightSettingsInternal)
    requires Get(j.fields, "image") == Lift(n.image, Str)
    ensures DecodeAndroidNotification(j) == Some(n)
  {
    AndroidNotificationReadsBack(n);
  }

  /** Round trip: the wire form reads back as the same notification. */
  lemma AndroidNotificationRoundTrip(n: AndroidNotificationInternal)
    ensures DecodeAndroidNotification(EncodeAndroidNotification(n)) == Some(n)
  {
    AndroidNotificationFieldsWritten(n);
    AndroidNotificationDecodeFrom(EncodeAndroidNotification(n), n);
  }

  /** `finalize` leaves the 24 fields other than `light_settings` as they were. */
  lemma FinalizeKeepsOtherFields(n: AndroidNotification, r: AndroidNotificationInternal)
    requires r == FinalizeAndroidNotification(n)
    ensures r.title == n.title
    ensures r.body == n.body
    ensures r.icon == n.icon
    ensures r.color == n.color
    ensures r.sound == n.sound
    ensures r.tag == n.tag
    ensures r.click_action == n.click_action
    ensures r.body_loc_key == n.body_loc_key
    ensures r.body_loc_args == n.body_loc_args
    ensures r.title_loc_key == n.title_loc_key
    ensures r.title_loc_args == n.title_loc_args
    ensures r.channel_id == n.channel_id
    ensures r.ticker == n.ticker
    ensures r.sticky == n.sticky
    ensures r.event_time == n.event_time
    ensures r.local_only == n.local_only
    ensures r.notification_priority == n.notification_priority
    ensures r.default_sound == n.default_sound
    ensures r.default_vibrate_timings == n.default_vibrate_timings
    ensures r.default_light_settings == n.default_light_settings
    ensures r.vibrate_timings == n.vibrate_timings
    ensures r.visibility == n.visibility
    ensures r.notification_count == n.notification_count
    ensures r.image == n.image
  {
  }

  /** The older revision wrote the builder struct directly; finalizing first
      and writing the wire struct gives the same JSON. */
  lemma LegacyAndroidNotificationAgrees(n: AndroidNotification)
    ensures EncodeLegacyAndroidNotification(n) == EncodeAndroidNotification(FinalizeAndroidNotification(n))
  {
    var light := Lift(n.light_settings, EncodeLightSettings);
    var finalized := Lift(FinalizeAndroidNotification(n).light_settings, EncodeLightSettingsInternal);
    if n.light_settings.Some? {
      LightSettingsAlwaysWritten(n.light_settings.value);
    }
    assert light == finalized;
    assert AndroidNotificationSlots(n, EncodeLightSettings)
        == AndroidNotificationSlots(FinalizeAndroidNotification(n), EncodeLightSettingsInternal);
  }
}

=== FILE: apns.dfy ===
/** Apple Push Notification service options: `ApnsConfig` and its
    `ApnsFcmOptions` (src/apns/apns_config.rs, src/apns/apns_fcm_options.rs),
    and the older revision of both (src/apns/mod.rs). The wire-side
    `ApnsConfigInternal` that `Message::finalize` produces is imported at
    src/message/mod.rs:15 but declared outside src/apns/apns_config.rs, and
    is not part of this model; the conversion is taken to be the identity. */
module Apns {
  import opened Wrappers
  import opened Json
  import opened Serde

  /** Options for features of the FCM SDK for iOS. Neither field carries a
      skip attribute, so both keys are always written, an unset one as `null`. */
  datatype ApnsFcmOptions = ApnsFcmOptions(analytics_label: Option<string>, image: Option<string>)

  /** `#[derive(Default)]`. */
  const DefaultApnsFcmOptions: ApnsFcmOptions := ApnsFcmOptions(None, None)

  function ApnsFcmOptionsSlots(o: ApnsFcmOptions): seq<Slot> {
    [ Always("analytics_label", NullIfNone(o.analytics_label, Str)),
      Always("image", NullIfNone(o.image, Str)) ]
  }

  function EncodeApnsFcmOptions(o: ApnsFcmOptions): Json {
    JObject(SkipNone(ApnsFcmOptionsSlots(o)))
  }

  /** Both keys, in declaration order, each holding its string or `null`. */
  lemma ApnsFcmOptionsEncoding(o: ApnsFcmOptions)
    ensures EncodeApnsFcmOptions(o) == JObject([
      ("analytics_label", if o.analytics_label.Some? then JString(o.analytics_label.value) else JNull),
      ("image", if o.image.Some? then JString(o.image.value) else JNull)])
  {
    var slots := ApnsFcmOptionsSlots(o);
    SkipNoneStep(slots, 0);
    SkipNoneStep(slots, 1);
    assert slots[0..] == slots;
    assert slots[2..] == [];
  }

  /** Reads the options back; both keys are required, `null` meaning unset. */
  function ReadApnsFcmOptions(j: Json): Option<ApnsFcmOptions> {
    if !j.JObject? then None
    else
      var analyticsLabel :- ReadRequired(Get(j.fields, "analytics_label"), ReadAny);
      var image :- ReadRequired(Get(j.fields, "image"), ReadAny);
      var analyticsLabel' :- ReadNullable(analyticsLabel, ReadString);
      var image' :- ReadNullable(image, ReadString);
      Some(ApnsFcmOptions(analyticsLabel', image'))
  }

  /** The default options are written as `{"analytics_label": null, "image": null}`. */
  lemma DefaultApnsFcmOptionsEncoding()
    ensures EncodeApnsFcmOptions(DefaultApnsFcmOptions) == JObject([("analytics_label", JNull), ("image", JNull)])
  {
    ApnsFcmOptionsEncoding(DefaultApnsFcmOptions);
  }

  lemma ApnsFcmOptionsRoundTrip(o: ApnsFcmOptions)
    ensures ReadApnsFcmOptions(EncodeApnsFcmOptions(o)) == Some(o)
  {
    ApnsFcmOptionsEncoding(o);
  }

  /** The older revision: both fields are plain `String`s, always written. */
  datatype LegacyApnsFcmOptions = LegacyApnsFcmOptions(analytics_label: string, image: string)

  function EncodeLegacyApnsFcmOptions(o: LegacyApnsFcmOptions): Json {
    JObject(SkipNone([Always("analytics_label", Str(o.analytics_label)), Always("image", Str(o.image))]))
  }

  /** With both values present, the older options and the current ones are
      written identically; the current ones differ only in admitting `null`. */
  lemma LegacyApnsFcmOptionsAgree(analyticsLabel: string, image: string)
    ensures EncodeLegacyApnsFcmOptions(LegacyApnsFcmOptions(analyticsLabel, image))
         == EncodeApnsFcmOptions(ApnsFcmOptions(Some(analyticsLabel), Some(image)))
    ensures EncodeLegacyApnsFcmOptions(LegacyApnsFcmOptions(analyticsLabel, image))
         == JObject([("analytics_label", JString(analyticsLabel)), ("image", JString(image))])
  {
    ApnsFcmOptionsEncoding(ApnsFcmOptions(Some(analyticsLabel), Some(image)));
    assert ApnsFcmOptionsSlots(ApnsFcmOptions(Some(analyticsLabel), Some(image)))
        == [Always("analytics_label", Str(analyticsLabel)), Always("image", Str(image))];
  }

  /** The three optional fields, generic in the type of the FCM options: the
      current revision holds `ApnsFcmOptions`, the older one its own. */
  datatype ApnsConfigOf<O> = ApnsConfigOf(headers: Option<Json>, payload: Option<Json>, fcm_options: Option<O>)

  type ApnsConfig = ApnsConfigOf<ApnsFcmOptions>
  type LegacyApnsConfig = ApnsConfigOf<LegacyApnsFcmOptions>

  /** `#[derive(Default)]`: nothing set. */
  const DefaultApnsConfig: ApnsConfig := ApnsConfigOf(None, None, None)

  const ApnsConfigFields: seq<string> := ["headers", "payload", "fcm_options"]

  /** The struct as the serializer sees it: every field is skippable; the
      headers and the payload are JSON values written as they are. */
  function ApnsConfigSlots<O>(n: ApnsConfigOf<O>, fcmOptions: O -> Json): seq<Slot> {
    [ Skippable("headers", n.headers, Verbatim),
      Skippable("payload", n.payload, Verbatim),
      Skippable("fcm_options", n.fcm_options, fcmOptions) ]
  }

  lemma ApnsConfigFieldsDistinct()
    ensures Distinct(ApnsConfigFields)
  {
  }

  lemma ApnsConfigSlotNames<O>(n: ApnsConfigOf<O>, fcmOptions: O -> Json)
    ensures Names(ApnsConfigSlots(n, fcmOptions)) == ApnsConfigFields
  {
  }

  /** The number of fields that are set. */
  function SetFields<O>(n: ApnsConfigOf<O>): nat {
    Present(n.headers)
    + Present(n.payload)
    + Present(n.fcm_options)
  }

  /** The wire form. */
  function EncodeApnsConfig(n: ApnsConfig): (j: Json)
    ensures j.JObject?
  {
    JObject(SkipNone(ApnsConfigSlots(n, EncodeApnsFcmOptions)))
  }

  /** The older revision's wire form. */
  function EncodeLegacyApnsConfig(n: LegacyApnsConfig): (j: Json)
    ensures j.JObject?
  {
    JObject(SkipNone(ApnsConfigSlots(n, EncodeLegacyApnsFcmOptions)))
  }

  /** Reads the wire form back. */
  function DecodeApnsConfig(j: Json): Option<ApnsConfig> {
    if !j.JObject? then None
    else
      var headers :- ReadOptional(Get(j.fields, "headers"), ReadAny);
      var payload :- ReadOptional(Get(j.fields, "payload"), ReadAny);
      var fcm_options :- ReadOptional(Get(j.fields, "fcm_options"), ReadApnsFcmOptions);
      Some(ApnsConfigOf(headers, payload, fcm_options))
  }

  // ---- one lemma per field: where it lands and whether it counts ----

  /** Position `i` of the slot list is found under its own name. */
  lemma ApnsConfigSlotAt(n: ApnsConfig, i: nat)
    requires i < 3
    ensures Get(EncodeApnsConfig(n).fields, ApnsConfigSlots(n, EncodeApnsFcmOptions)[i].name) == ApnsConfigSlots(n, EncodeApnsFcmOptions)[i].value
  {
    ApnsConfigFieldsDistinct();
    ApnsConfigSlotNames(n, EncodeApnsFcmOptions);
    LookupSlot(ApnsConfigSlots(n, EncodeApnsFcmOptions), i);
  }

  lemma ApnsConfigHeaders(n: ApnsConfig)
    ensures Get(EncodeApnsConfig(n).fields, "headers") == Lift(n.headers, Verbatim)
  {
    var s := ApnsConfigSlots(n, EncodeApnsFcmOptions);
    assert s[0] == Skippable("headers", n.headers, Verbatim);
    ApnsConfigSlotAt(n, 0);
  }

  lemma CountApnsConfigHeaders(n: ApnsConfig)
    ensures Written(ApnsConfigSlots(n, EncodeApnsFcmOptions)) == Present(n.headers) + Written(ApnsConfigSlots(n, EncodeApnsFcmOptions)[1..])
  {
    var s := ApnsConfigSlots(n, EncodeApnsFcmOptions);
    assert s[0] == Skippable("headers", n.headers, Verbatim);
    SkipNoneStep(s, 0);
    assert s[0..] == s;
  }

  lemma ApnsConfigPayload(n: ApnsConfig)
    ensures Get(EncodeApnsConfig(n).fields, "payload") == Lift(n.payload, Verbatim)
  {
    var s := ApnsConfigSlots(n, EncodeApnsFcmOptions);
    assert s[1] == Skippable("payload", n.payload, Verbatim);
    ApnsConfigSlotAt(n, 1);
  }

  lemma CountApnsConfigPayload(n: ApnsConfig)
    ensures Written(ApnsConfigSlots(n, EncodeApnsFcmOptions)[1..]) == Present(n.payload) + Written(ApnsConfigSlots(n, EncodeApnsFcmOptions)[2..])
  {
    var s := ApnsConfigSlots(n, EncodeApnsFcmOptions);
    assert s[1] == Skippable("payload", n.payload, Verbatim);
    SkipNoneStep(s, 1);
  }

  lemma ApnsConfigFcmOptions(n: ApnsConfig)
    ensures Get(EncodeApnsConfig(n).fields, "fcm_options") == Lift(n.fcm_options, EncodeApnsFcmOptions)
  {
    var s := ApnsConfigSlots(n, EncodeApnsFcmOptions);
    assert s[2] == Skippable("fcm_options", n.fcm_options, EncodeApnsFcmOptions);
    ApnsConfigSlotAt(n, 2);
  }

  lemma CountApnsConfigFcmOptions(n: ApnsConfig)
    ensures Written(ApnsConfigSlots(n, EncodeApnsFcmOptions)[2..]) == Present(n.fcm_options)
  {
    var s := ApnsConfigSlots(n, EncodeApnsFcmOptions);
    assert s[2] == Skippable("fcm_options", n.fcm_options, EncodeApnsFcmOptions);
    SkipNoneStep(s, 2);
    assert s[3..] == [];
  }


  /** Each field is written under its own name exactly when it is set, the headers and payload as the JSON values they hold. */
  lemma ApnsConfigFieldsWritten(n: ApnsConfig)
    ensures Get(EncodeApnsConfig(n).fields, "headers") == Lift(n.headers, Verbatim)
    ensures Get(EncodeApnsConfig(n).fields, "payload") == Lift(n.payload, Verbatim)
    ensures Get(EncodeApnsConfig(n).fields, "fcm_options") == Lift(n.fcm_options, EncodeApnsFcmOptions)
  {
    ApnsConfigHeaders(n);
    ApnsConfigPayload(n);
    ApnsConfigFcmOptions(n);
  }

  /** The object has no key twice and no key outside the field names. */
  lemma ApnsConfigKeys(n: ApnsConfig)
    ensures Distinct(Keys(EncodeApnsConfig(n).fields))
    ensures forall k :: k in Keys(EncodeApnsConfig(n).fields) ==> k in ApnsConfigFields
  {
    ApnsConfigFieldsDistinct();
    ApnsConfigSlotNames(n, EncodeApnsFcmOptions);
    SkipNoneDistinct(ApnsConfigSlots(n, EncodeApnsFcmOptions));
  }

  /** The serializer writes one entry per set field. */
  lemma ApnsConfigWritten(n: ApnsConfig)
    ensures Written(ApnsConfigSlots(n, EncodeApnsFcmOptions)) == SetFields(n)
  {
    CountApnsConfigHeaders(n);
    CountApnsConfigPayload(n);
    CountApnsConfigFcmOptions(n);
  }

  /** One key per set field, so a configuration with nothing set is `{}`. */
  lemma ApnsConfigKeyCount(n: ApnsConfig)
    ensures |EncodeApnsConfig(n).fields| == SetFields(n)
    ensures SetFields(n) == 0 ==> EncodeApnsConfig(n) == JObject([])
  {
    ApnsConfigWritten(n);
  }

  /** Each field's reader inverts its encoder. */
  lemma ApnsConfigReadsBack(n: ApnsConfig)
    ensures ReadOptional(Lift(n.headers, Verbatim), ReadAny) == Some(n.headers)
    ensures ReadOptional(Lift(n.payload, Verbatim), ReadAny) == Some(n.payload)
    ensures ReadOptional(Lift(n.fcm_options, EncodeApnsFcmOptions), ReadApnsFcmOptions) == Some(n.fcm_options)
  {
    assert forall x :: ReadAny(Verbatim(x)) == Some(x);
    forall x ensures ReadApnsFcmOptions(EncodeApnsFcmOptions(x)) == Some(x) {
      ApnsFcmOptionsRoundTrip(x);
    }
    ReadLift(n.headers, Verbatim, ReadAny);
    ReadLift(n.payload, Verbatim, ReadAny);
    ReadLift(n.fcm_options, EncodeApnsFcmOptions, ReadApnsFcmOptions);
  }

  /** Any object holding each field's encoding under its name decodes to the record. */
  lemma ApnsConfigDecodeFrom(j: Json, n: ApnsConfig)
    requires j.JObject?
    requires Get(j.fields, "headers") == Lift(n.headers, Verbatim)
    requires Get(j.fields, "payload") == Lift(n.payload, Verbatim)
    requires Get(j.fields, "fcm_options") == Lift(n.fcm_options, EncodeApnsFcmOptions)
    ensures DecodeApnsConfig(j) == Some(n)
  {
    ApnsConfigReadsBack(n);
  }

  /** Round trip: the wire form reads back as the same configuration. */
  lemma ApnsConfigRoundTrip(n: ApnsConfig)
    ensures DecodeApnsConfig(EncodeApnsConfig(n)) == Some(n)
  {
    ApnsConfigFieldsWritten(n);
    ApnsConfigDecodeFrom(EncodeApnsConfig(n), n);
  }

  /** The default configuration is written as `{}`. */
  lemma DefaultApnsConfigEncoding()
    ensures EncodeApnsConfig(DefaultApnsConfig) == JObject([])
  {
    ApnsConfigKeyCount(DefaultApnsConfig);
  }

  /** The older configuration read as a current one: its options become
      current options with both values present. */
  function UpgradeApnsConfig(n: LegacyApnsConfig): ApnsConfig {
    var o := n.fcm_options;
    ApnsConfigOf(n.headers, n.payload,
      if o.Some? then Some(ApnsFcmOptions(Some(o.value.analytics_label), Some(o.value.image))) else None)
  }

  /** The older configuration is written exactly as the current one holding
      the same values, so it too omits every unset field, writes the headers
      and the payload as they are, and is `{}` when nothing is set. */
  lemma LegacyApnsConfigAgrees(n: LegacyApnsConfig)
    ensures EncodeLegacyApnsConfig(n) == EncodeApnsConfig(UpgradeApnsConfig(n))
    ensures n.headers.None? && n.payload.None? && n.fcm_options.None? ==> EncodeLegacyApnsConfig(n) == JObject([])
  {
    var m := UpgradeApnsConfig(n);
    if n.fcm_options.Some? {
      LegacyApnsFcmOptionsAgree(n.fcm_options.value.analytics_label, n.fcm_options.value.image);
    }
    assert ApnsConfigSlots(n, EncodeLegacyApnsFcmOptions) == ApnsConfigSlots(m, EncodeApnsFcmOptions);
    ApnsConfigKeyCount(m);
  }
}

=== FILE: client.dfy ===
/** The FCM client (src/client/mod.rs): its builder, the choice of credentials,
    the request it sends and how the answer is captured. The network, the
    environment and the OAuth back end are parameters: the model receives the
    outcome of building the HTTP client, the value of an environment variable,
    the back end's constructors and token, and the server's answer, and states
    what the client does with them. */
module Client {
  import opened Wrappers
  import opened Json
  import opened Paths
  import opened Decimal
  import RetryAfters
  import Rfc2822
  import OauthYup

  /** `reqwest::Error`, opaque. */
  datatype ReqwestError = ReqwestError(reason: string)

  /** `dotenvy::Error`, opaque. */
  datatype DotenvError = DotenvError(reason: string)

  /** `FcmClientError`, over the OAuth back end's error type `E`. The invalid
      Retry-After variant carries the header parser's error. */
  datatype FcmClientError<E> =
    | Reqwest(reqwest: ReqwestError)
    | Oauth(oauth: E)
    | Dotenvy(dotenv: DotenvError)
    | RetryAfterHttpHeaderIsNotString
    | RetryAfterHttpHeaderInvalid(error: RetryAfters.RetryAfterParseError, value: string)

  /** `is_access_token_missing_even_if_server_requests_completed`, given the
      back end's own predicate `inner`. */
  predicate IsAccessTokenMissing<E>(e: FcmClientError<E>, inner: E -> bool) {
    match e
    case Oauth(error) => inner(error)
    case _ => false
  }

  /** The client's predicate is the back end's predicate on `Oauth` errors and
      false on every other error, whatever the back end's predicate is. */
  lemma AccessTokenMissingDelegates<E>(e: FcmClientError<E>, inner: E -> bool)
    ensures e.Oauth? ==> (IsAccessTokenMissing(e, inner) <==> inner(e.oauth))
    ensures !e.Oauth? ==> !IsAccessTokenMissing(e, inner)
  {
  }

  /** With the yup_oauth2 back end: true exactly for a missing token, and for
      the back end's two token errors. */
  lemma YupAccessTokenMissing(e: FcmClientError<OauthYup.OauthError>)
    ensures IsAccessTokenMissing(e, OauthYup.IsAccessTokenMissing)
        <==> e == Oauth(OauthYup.AccessTokenIsMissing) || e == Oauth(OauthYup.Oauth(OauthYup.MissingAccessToken))
             || (e.Oauth? && e.oauth.Oauth? && e.oauth.inner.AuthError?)
  {
    if e.Oauth? {
      OauthYup.AccessTokenMissingCases(e.oauth);
    }
  }

  // ---- the builder ----

  /** `std::time::Duration`. */
  datatype Duration = Duration(secs: nat, nanos: nat)

  datatype FcmClientBuilder = FcmClientBuilder(
    service_account_key_json_string: Option<string>,
    service_account_key_json_path: Option<PathBuf>,
    token_cache_json_path: Option<PathBuf>,
    fcm_request_timeout: Option<Duration>,
    dry_run: Option<bool>)

  /** `FcmClientBuilder::new`, the `Default`: nothing set. */
  const NewBuilder: FcmClientBuilder := FcmClientBuilder(None, None, None, None, None)

  function SetServiceAccountKeyJsonPath(b: FcmClientBuilder, path: PathBuf): (r: FcmClientBuilder)
    ensures r.service_account_key_json_path == Some(path)
    ensures r.service_account_key_json_string == b.service_account_key_json_string && r.token_cache_json_path == b.token_cache_json_path
    ensures r.fcm_request_timeout == b.fcm_request_timeout && r.dry_run == b.dry_run
  {
    b.(service_account_key_json_path := Some(path))
  }

  function SetFcmRequestTimeout(b: FcmClientBuilder, timeout: Duration): (r: FcmClientBuilder)
    ensures r.fcm_request_timeout == Some(timeout)
    ensures r.service_account_key_json_string == b.service_account_key_json_string && r.service_account_key_json_path == b.service_account_key_json_path
    ensures r.token_cache_json_path == b.token_cache_json_path && r.dry_run == b.dry_run
  {
    b.(fcm_request_timeout := Some(timeout))
  }

  function SetTokenCacheJsonPath(b: FcmClientBuilder, path: PathBuf): (r: FcmClientBuilder)
    ensures r.token_cache_json_path == Some(path)
    ensures r.service_account_key_json_string == b.service_account_key_json_string && r.service_account_key_json_path == b.service_account_key_json_path
    ensures r.fcm_request_timeout == b.fcm_request_timeout && r.dry_run == b.dry_run
  {
    b.(token_cache_json_path := Some(path))
  }

  function SetServiceAccountKeyJsonString(b: FcmClientBuilder, keyJson: string): (r: FcmClientBuilder)
    ensures r.service_account_key_json_string == Some(keyJson)
    ensures r.service_account_key_json_path == b.service_account_key_json_path && r.token_cache_json_path == b.token_cache_json_path
    ensures r.fcm_request_timeout == b.fcm_request_timeout && r.dry_run == b.dry_run
  {
    b.(service_account_key_json_string := Some(keyJson))
  }

  function SetDryRun(b: FcmClientBuilder, dryRun: bool): (r: FcmClientBuilder)
    ensures r.dry_run == Some(dryRun)
    ensures r.service_account_key_json_string == b.service_account_key_json_string && r.service_account_key_json_path == b.service_account_key_json_path
    ensures r.token_cache_json_path == b.token_cache_json_path && r.fcm_request_timeout == b.fcm_request_timeout
  {
    b.(dry_run := Some(dryRun))
  }

  /** Setters of different fields commute, and of a setter called twice the
      second call wins. */
  lemma SettersCommute(b: FcmClientBuilder, keyJson: string, path: PathBuf, cache: PathBuf, timeout: Duration, dryRun: bool, dryRun2: bool)
    ensures SetServiceAccountKeyJsonString(SetServiceAccountKeyJsonPath(b, path), keyJson)
         == SetServiceAccountKeyJsonPath(SetServiceAccountKeyJsonString(b, keyJson), path)
    ensures SetTokenCacheJsonPath(SetServiceAccountKeyJsonPath(b, path), cache)
         == SetServiceAccountKeyJsonPath(SetTokenCacheJsonPath(b, cache), path)
    ensures SetFcmRequestTimeout(SetDryRun(b, dryRun), timeout) == SetDryRun(SetFcmRequestTimeout(b, timeout), dryRun)
    ensures SetDryRun(SetDryRun(b, dryRun), dryRun2) == SetDryRun(b, dryRun2)
  {
  }

  // ---- credentials ----

  /** The environment variable consulted when no key is configured. */
  const CREDENTIALS_VARIABLE: string := "GOOGLE_APPLICATION_CREDENTIALS"

  datatype CredentialSource = KeyJson(json: string) | KeyFile(path: PathBuf)

  /** Where the key comes from: the JSON string if one is set, else the path
      if one is set, else the path named by the environment variable (read
      through `env`, which also sees a `.env` file). */
  function ChooseCredentials<E>(b: FcmClientBuilder, env: string -> Result<string, DotenvError>): (r: Result<CredentialSource, FcmClientError<E>>)
    ensures b.service_account_key_json_string.Some? ==> r == Ok(KeyJson(b.service_account_key_json_string.value))
    ensures r.Ok? && r.value.KeyJson? ==> b.service_account_key_json_string == Some(r.value.json)
    ensures r.Err? ==> (b.service_account_key_json_string.None? && b.service_account_key_json_path.None?
      && r.error.Dotenvy? && env(CREDENTIALS_VARIABLE) == Err(r.error.dotenv))
  {
    if b.service_account_key_json_string.Some? then Ok(KeyJson(b.service_account_key_json_string.value))
    else if b.service_account_key_json_path.Some? then Ok(KeyFile(b.service_account_key_json_path.value))
    else
      var path :- MapErr(env(CREDENTIALS_VARIABLE), e => Dotenvy(e));
      Ok(KeyFile(Utf8Path(path)))
  }

  /** The string overrides the path, whichever was set first, and then the
      environment is not consulted. */
  lemma KeyStringOverridesPath<E>(b: FcmClientBuilder, keyJson: string, path: PathBuf, env: string -> Result<string, DotenvError>)
    ensures ChooseCredentials<E>(SetServiceAccountKeyJsonPath(SetServiceAccountKeyJsonString(b, keyJson), path), env) == Ok(KeyJson(keyJson))
    ensures ChooseCredentials<E>(SetServiceAccountKeyJsonString(SetServiceAccountKeyJsonPath(b, path), keyJson), env) == Ok(KeyJson(keyJson))
  {
  }

  /** Without a string, an explicit path is used and the environment is not
      consulted: any two environments give the same choice. */
  lemma PathBeforeEnvironment<E>(b: FcmClientBuilder, env1: string -> Result<string, DotenvError>, env2: string -> Result<string, DotenvError>)
    requires b.service_account_key_json_string.None? && b.service_account_key_json_path.Some?
    ensures ChooseCredentials<E>(b, env1) == ChooseCredentials<E>(b, env2) == Ok(KeyFile(b.service_account_key_json_path.value))
  {
  }

  /** With neither set, the key file is the one the variable names, or the
      lookup's error is `Dotenvy`. */
  lemma EnvironmentLast<E>(b: FcmClientBuilder, env: string -> Result<string, DotenvError>)
    requires b.service_account_key_json_string.None? && b.service_account_key_json_path.None?
    ensures env(CREDENTIALS_VARIABLE).Ok? ==> ChooseCredentials<E>(b, env) == Ok(KeyFile(Utf8Path(env(CREDENTIALS_VARIABLE).value)))
    ensures env(CREDENTIALS_VARIABLE).Err? ==> ChooseCredentials<E>(b, env) == Err(Dotenvy(env(CREDENTIALS_VARIABLE).error))
  {
  }

  /** The back end built from the chosen source, with the builder's token
      cache path; its error becomes `Oauth`. */
  function CreateOauthClient<O, E>(
    b: FcmClientBuilder,
    env: string -> Result<string, DotenvError>,
    createWithStringKey: (string, Option<PathBuf>) -> Result<O, E>,
    createWithKeyFile: (PathBuf, Option<PathBuf>) -> Result<O, E>): (r: Result<O, FcmClientError<E>>)
    ensures ChooseCredentials<E>(b, env).Err? ==> r == Err(ChooseCredentials<E>(b, env).error)
    ensures ChooseCredentials<E>(b, env).Ok? && ChooseCredentials<E>(b, env).value.KeyJson? ==>
      r == MapErr(createWithStringKey(ChooseCredentials<E>(b, env).value.json, b.token_cache_json_path), e => Oauth(e))
    ensures ChooseCredentials<E>(b, env).Ok? && ChooseCredentials<E>(b, env).value.KeyFile? ==>
      r == MapErr(createWithKeyFile(ChooseCredentials<E>(b, env).value.path, b.token_cache_json_path), e => Oauth(e))
  {
    var source :- ChooseCredentials<E>(b, env);
    match source
    case KeyJson(json) => MapErr(createWithStringKey(json, b.token_cache_json_path), e => Oauth(e))
    case KeyFile(path) => MapErr(createWithKeyFile(path, b.token_cache_json_path), e => Oauth(e))
  }

  // ---- construction ----

  /** The configuration of reqwest's client: a timeout only when one is
      configured. */
  datatype HttpClientConfig = HttpClientConfig(timeout: Option<Duration>)

  function HttpClientFor(b: FcmClientBuilder): (c: HttpClientConfig)
    ensures c.timeout.Some? <==> b.fcm_request_timeout.Some?
    ensures c.timeout.Some? ==> c.timeout == b.fcm_request_timeout
  {
    if b.fcm_request_timeout.Some? then HttpClientConfig(Some(b.fcm_request_timeout.value)) else HttpClientConfig(None)
  }

  datatype FcmClient<O> = FcmClient(http_client: HttpClientConfig, oauth_client: O, dry_run: bool)

  /** `new_from_builder`. The HTTP client is built first (`buildHttp` is its
      outcome), then the back end; `dry_run` defaults to false. */
  function NewFromBuilder<O, E>(
    b: FcmClientBuilder,
    buildHttp: HttpClientConfig -> Result<(), ReqwestError>,
    env: string -> Result<string, DotenvError>,
    createWithStringKey: (string, Option<PathBuf>) -> Result<O, E>,
    createWithKeyFile: (PathBuf, Option<PathBuf>) -> Result<O, E>): (r: Result<FcmClient<O>, FcmClientError<E>>)
    ensures buildHttp(HttpClientFor(b)).Err? ==> r == Err(Reqwest(buildHttp(HttpClientFor(b)).error))
    ensures buildHttp(HttpClientFor(b)).Ok? ==> (r.Ok? <==> CreateOauthClient(b, env, createWithStringKey, createWithKeyFile).Ok?)
    ensures buildHttp(HttpClientFor(b)).Ok? && CreateOauthClient(b, env, createWithStringKey, createWithKeyFile).Err? ==>
      r == Err(CreateOauthClient(b, env, createWithStringKey, createWithKeyFile).error)
    ensures r.Ok? ==> r.value.oauth_client == CreateOauthClient(b, env, createWithStringKey, createWithKeyFile).value
    ensures r.Ok? ==> r.value.http_client.timeout == b.fcm_request_timeout
    ensures r.Ok? ==> (r.value.dry_run <==> b.dry_run == Some(true))
  {
    var _ :- MapErr(buildHttp(HttpClientFor(b)), e => Reqwest(e));
    var oauthClient :- CreateOauthClient(b, env, createWithStringKey, createWithKeyFile);
    Ok(FcmClient(HttpClientFor(b), oauthClient, if b.dry_run.Some? then b.dry_run.value else false))
  }

  /** A client built from a builder whose `dry_run` was never set is not a dry
      run, and one built from a fresh builder has no timeout. */
  lemma DryRunDefault<O, E>(
    b: FcmClientBuilder,
    buildHttp: HttpClientConfig -> Result<(), ReqwestError>,
    env: string -> Result<string, DotenvError>,
    createWithStringKey: (string, Option<PathBuf>) -> Result<O, E>,
    createWithKeyFile: (PathBuf, Option<PathBuf>) -> Result<O, E>)
    requires b.dry_run.None?
    requires NewFromBuilder(b, buildHttp, env, createWithStringKey, createWithKeyFile).Ok?
    ensures !NewFromBuilder(b, buildHttp, env, createWithStringKey, createWithKeyFile).value.dry_run
    ensures b == NewBuilder ==> NewFromBuilder(b, buildHttp, env, createWithStringKey, createWithKeyFile).value.http_client.timeout.None?
  {
  }

  /** `dry_run(v)` is what the built client reports, whatever was set before. */
  lemma DryRunAsSet<O, E>(
    b: FcmClientBuilder,
    v: bool,
    buildHttp: HttpClientConfig -> Result<(), ReqwestError>,
    env: string -> Result<string, DotenvError>,
    createWithStringKey: (string, Option<PathBuf>) -> Result<O, E>,
    createWithKeyFile: (PathBuf, Option<PathBuf>) -> Result<O, E>)
    requires NewFromBuilder(SetDryRun(b, v), buildHttp, env, createWithStringKey, createWithKeyFile).Ok?
    ensures NewFromBuilder(SetDryRun(b, v), buildHttp, env, createWithStringKey, createWithKeyFile).value.dry_run == v
  {
  }

  // ---- the request ----

  const URL_PREFIX: string := "https://fcm.googleapis.com/v1/projects/"
  const URL_SUFFIX: string := "/messages:send"

  /** The endpoint of the `projects.messages.send` method for a project. */
  function SendUrl(projectId: string): (url: string)
    ensures |url| == |URL_PREFIX| + |projectId| + |URL_SUFFIX|
    ensures url[..|URL_PREFIX|] == URL_PREFIX && url[|url| - |URL_SUFFIX|..] == URL_SUFFIX
    ensures url[|URL_PREFIX|..|url| - |URL_SUFFIX|] == projectId
  {
    URL_PREFIX + projectId + URL_SUFFIX
  }

  /** Different projects are sent to different URLs. */
  lemma SendUrlInjective(p: string, q: string)
    requires SendUrl(p) == SendUrl(q)
    ensures p == q
  {
    var u := SendUrl(p);
    assert p == u[|URL_PREFIX|..|u| - |URL_SUFFIX|];
  }

  /** The request as it leaves the client: POST to `url`, with the access
      token as the bearer credential and the JSON body. */
  datatype Request = Request(url: string, bearer: string, body: Json)

  // ---- the answer ----

  /** What the client sees of the server's answer: the status code, the raw
      bytes of the `Retry-After` header if present, and the body's bytes or
      the error reading them. */
  datatype HttpResponse = HttpResponse(status: u16, retry_after: Option<seq<byte>>, body: Result<seq<byte>, ReqwestError>)

  /** `HeaderValue::to_str` succeeds when every byte is visible ASCII or a
      horizontal tab. */
  predicate VisibleAscii(bytes: seq<byte>) {
    forall i :: 0 <= i < |bytes| ==> bytes[i] == 9 || 32 <= bytes[i] < 127
  }

  /** The text of an ASCII header value. */
  function HeaderText(bytes: seq<byte>): (s: string)
    ensures |s| == |bytes|
    ensures forall i :: 0 <= i < |bytes| ==> s[i] as int == bytes[i]
  {
    seq(|bytes|, i requires 0 <= i < |bytes| => bytes[i] as char)
  }

  /** The header value whose text is `s`, for ASCII text. */
  function AsciiBytes(s: string): (bytes: seq<byte>)
    requires forall i :: 0 <= i < |s| ==> s[i] as int < 128
    ensures HeaderText(bytes) == s
  {
    seq(|s|, i requires 0 <= i < |s| => s[i] as int)
  }

  /** The `Retry-After` header's four outcomes: absent, not a string, parsed,
      or refused together with its exact text. The text is read by the total
      `RetryAfters.FromStr`, so a number `Duration` cannot hold is refused
      rather than panicking. */
  function RetryAfterHeader<E>(header: Option<seq<byte>>, rfc2822: string -> Option<Rfc2822.FixedOffsetDateTime>): (r: Result<Option<RetryAfters.RetryAfter>, FcmClientError<E>>)
    ensures header.None? ==> r == Ok(None)
    ensures header.Some? && !VisibleAscii(header.value) ==> r == Err(RetryAfterHttpHeaderIsNotString)
    ensures header.Some? && VisibleAscii(header.value) ==> (
      var parsed := RetryAfters.FromStr(HeaderText(header.value), rfc2822);
      (parsed.Ok? ==> r == Ok(Some(parsed.value))) && (parsed.Err? ==> r == Err(RetryAfterHttpHeaderInvalid(parsed.error, HeaderText(header.value)))))
    ensures r.Ok? && r.value.Some? ==> header.Some? && VisibleAscii(header.value)
  {
    if header.None? then Ok(None)
    else if !VisibleAscii(header.value) then Err(RetryAfterHttpHeaderIsNotString)
    else
      var text := HeaderText(header.value);
      match RetryAfters.FromStr(text, rfc2822)
      case Ok(v) => Ok(Some(v))
      case Err(error) => Err(RetryAfterHttpHeaderInvalid(error, text))
  }

  /** A number in decimal is a valid header value, and its bytes read back as
      its text. */
  lemma ShowIntHeader(n: int)
    ensures forall i :: 0 <= i < |RetryAfters.ShowInt(n)| ==> RetryAfters.ShowInt(n)[i] as int < 128
    ensures VisibleAscii(AsciiBytes(RetryAfters.ShowInt(n)))
  {
    var s := RetryAfters.ShowInt(n);
    ShowIntAscii(n);
    var bytes := AsciiBytes(s);
    forall i | 0 <= i < |bytes|
      ensures bytes[i] == 9 || 32 <= bytes[i] < 127
    {
      assert HeaderText(bytes)[i] as int == bytes[i];
      assert s[i] == '-' || IsDigit(s[i]);
    }
  }

  /** A header holding a delay in decimal is read as that delay. */
  lemma DelayHeaderReadsBack<E>(n: int, rfc2822: string -> Option<Rfc2822.FixedOffsetDateTime>)
    requires RetryAfters.InDurationRange(n)
    ensures forall i :: 0 <= i < |RetryAfters.ShowInt(n)| ==> RetryAfters.ShowInt(n)[i] as int < 128
    ensures RetryAfterHeader<E>(Some(AsciiBytes(RetryAfters.ShowInt(n))), rfc2822) == Ok(Some(RetryAfters.Delay(n)))
  {
    ShowIntHeader(n);
    RetryAfters.DelayRoundTrip(n, rfc2822);
  }

  /** A header holding an `i64` that `Duration` cannot hold, such as
      `9223372036854776`, makes the source panic at `parse::<RetryAfter>()`;
      read by the intended `from_str` it is never a delay, and unless the date
      parser accepts it, it is `RetryAfterHttpHeaderInvalid` with its text. */
  lemma OversizedHeaderInvalid<E>(n: int, rfc2822: string -> Option<Rfc2822.FixedOffsetDateTime>)
    requires I64_MIN <= n <= I64_MAX && !RetryAfters.InDurationRange(n)
    ensures forall i :: 0 <= i < |RetryAfters.ShowInt(n)| ==> RetryAfters.ShowInt(n)[i] as int < 128
    ensures RetryAfters.FromStrAsWritten(RetryAfters.ShowInt(n), rfc2822).None?
    ensures !(RetryAfterHeader<E>(Some(AsciiBytes(RetryAfters.ShowInt(n))), rfc2822).Ok?
              && RetryAfterHeader<E>(Some(AsciiBytes(RetryAfters.ShowInt(n))), rfc2822).value.Some?
              && RetryAfterHeader<E>(Some(AsciiBytes(RetryAfters.ShowInt(n))), rfc2822).value.value.Delay?)
    ensures rfc2822(RetryAfters.ShowInt(n)).None? ==>
      RetryAfterHeader<E>(Some(AsciiBytes(RetryAfters.ShowInt(n))), rfc2822)
        == Err(RetryAfterHttpHeaderInvalid(RetryAfters.DateParse, RetryAfters.ShowInt(n)))
  {
    ShowIntHeader(n);
    RetryAfters.OversizedDelayRefused(n, rfc2822);
  }

  /** A delay in decimal is made of digits and a leading minus sign. */
  lemma ShowIntAscii(n: int)
    ensures forall i :: 0 <= i < |RetryAfters.ShowInt(n)| ==> RetryAfters.ShowInt(n)[i] == '-' || IsDigit(RetryAfters.ShowInt(n)[i])
  {
    if n < 0 {
      var s := RetryAfters.ShowInt(n);
      assert forall i :: 1 <= i < |s| ==> s[i] == ShowNat(-n)[i - 1];
    }
  }

  /** A header with a byte outside visible ASCII is refused before it is
      parsed, whatever its other bytes. */
  lemma NonAsciiHeaderRefused<E>(before: seq<byte>, after: seq<byte>, rfc2822: string -> Option<Rfc2822.FixedOffsetDateTime>)
    ensures !VisibleAscii(before + [0x80] + after)
    ensures RetryAfterHeader<E>(Some(before + [0x80] + after), rfc2822) == Err(RetryAfterHttpHeaderIsNotString)
  {
    assert (before + [0x80] + after)[|before|] == 0x80;
  }

  /** The body read leniently as serde_json's `Map`: anything that is not a
      JSON object (`parsed` is `None` for text that is not JSON at all) is the
      empty map, and an object keeps the last value of each key. */
  function LenientBody(parsed: Option<Json>): (m: map<string, Json>)
    ensures !(parsed.Some? && parsed.value.JObject?) ==> m == map[]
    ensures parsed.Some? && parsed.value.JObject? ==> m.Keys == set k | k in Keys(parsed.value.fields)
  {
    if parsed.Some? && parsed.value.JObject? then ToMap(parsed.value.fields) else map[]
  }

  /** Every key of an object body is looked up as the object would be read. */
  lemma LenientBodyLookup(fields: seq<Field>, i: nat)
    requires Distinct(Keys(fields)) && i < |fields|
    ensures fields[i].0 in LenientBody(Some(JObject(fields)))
    ensures LenientBody(Some(JObject(fields)))[fields[i].0] == fields[i].1
  {
    GetDistinct(fields, i);
  }

  /** `FcmResponse::new`'s arguments: the status, the body map and the
      parsed `Retry-After`. */
  datatype FcmResponse = FcmResponse(status: u16, body: map<string, Json>, retry_after: Option<RetryAfters.RetryAfter>)

  /** The answer captured: the `Retry-After` header first, then the body; the
      status code is kept as it came. `parseJson` is serde_json's reading of
      the body bytes. */
  function Capture<E>(
    response: HttpResponse,
    parseJson: seq<byte> -> Option<Json>,
    rfc2822: string -> Option<Rfc2822.FixedOffsetDateTime>): (r: Result<FcmResponse, FcmClientError<E>>)
    ensures RetryAfterHeader<E>(response.retry_after, rfc2822).Err? ==> r == Err(RetryAfterHeader<E>(response.retry_after, rfc2822).error)
    ensures RetryAfterHeader<E>(response.retry_after, rfc2822).Ok? && response.body.Err? ==> r == Err(Reqwest(response.body.error))
    ensures r.Ok? <==> RetryAfterHeader<E>(response.retry_after, rfc2822).Ok? && response.body.Ok?
    ensures r.Ok? ==> (r.value.status == response.status
      && r.value.body == LenientBody(parseJson(response.body.value))
      && r.value.retry_after == RetryAfterHeader<E>(response.retry_after, rfc2822).value)
  {
    var retryAfter :- RetryAfterHeader<E>(response.retry_after, rfc2822);
    var bytes :- MapErr(response.body, e => Reqwest(e));
    Ok(FcmResponse(response.status, LenientBody(parseJson(bytes)), retryAfter))
  }

  /** A body that is not a JSON object is never an error: the answer is
      captured with an empty map and the status unchanged. */
  lemma NonObjectBodyIsEmpty<E>(
    response: HttpResponse,
    parseJson: seq<byte> -> Option<Json>,
    rfc2822: string -> Option<Rfc2822.FixedOffsetDateTime>)
    requires response.retry_after.None?
    requires response.body.Ok? && !(parseJson(response.body.value).Some? && parseJson(response.body.value).value.JObject?)
    ensures Capture<E>(response, parseJson, rfc2822) == Ok(FcmResponse(response.status, map[], None))
  {
  }

  // ---- sending ----

  /** One call of `send`: the request, if one was built, and the outcome. */
  datatype Exchange<E> = Exchange(request: Option<Request>, result: Result<FcmResponse, FcmClientError<E>>)

  /** The steps `send` takes once it has a body: fetch the token (its failure
      ends the call before a request exists), build the request to the
      project's URL, then capture the answer. `response` is what the network
      returned for the request, building it included. */
  function SendRequest<E>(
    token: Result<string, E>,
    projectId: string,
    body: Json,
    response: Result<HttpResponse, ReqwestError>,
    parseJson: seq<byte> -> Option<Json>,
    rfc2822: string -> Option<Rfc2822.FixedOffsetDateTime>): (r: Exchange<E>)
    ensures token.Err? ==> r == Exchange(None, Err(Oauth(token.error)))
    ensures token.Ok? ==> r.request == Some(Request(SendUrl(projectId), token.value, body))
    ensures token.Ok? && response.Err? ==> r.result == Err(Reqwest(response.error))
    ensures token.Ok? && response.Ok? ==> r.result == Capture(response.value, parseJson, rfc2822)
  {
    if token.Err? then Exchange(None, Err(Oauth(token.error)))
    else
      var request := Request(SendUrl(projectId), token.value, body);
      var result :=
        if response.Err? then Err(Reqwest(response.error))
        else Capture(response.value, parseJson, rfc2822);
      Exchange(Some(request), result)
  }

  /** `FcmClient::send`. `getAccessToken` and `getProjectId` are the back
      end's; `body` is the serialized wrapper of the message with the client's
      `dry_run` flag, whose two-argument constructor is not part of this
      model. */
  function Send<O, E>(
    client: FcmClient<O>,
    getAccessToken: O -> Result<string, E>,
    getProjectId: O -> string,
    body: Json,
    response: Result<HttpResponse, ReqwestError>,
    parseJson: seq<byte> -> Option<Json>,
    rfc2822: string -> Option<Rfc2822.FixedOffsetDateTime>): (r: Exchange<E>)
    ensures getAccessToken(client.oauth_client).Err? ==> r.request.None? && r.result == Err(Oauth(getAccessToken(client.oauth_client).error))
    ensures r.request.Some? ==> (r.request.value.url == SendUrl(getProjectId(client.oauth_client))
      && Ok(r.request.value.bearer) == getAccessToken(client.oauth_client) && r.request.value.body == body)
    ensures getAccessToken(client.oauth_client).Ok? ==> r.request.Some?
    ensures getAccessToken(client.oauth_client).Ok? && response.Err? ==> r.result == Err(Reqwest(response.error))
    ensures getAccessToken(client.oauth_client).Ok? && response.Ok? ==> r.result == Capture(response.value, parseJson, rfc2822)
    ensures r.result.Ok? ==> response.Ok? && r.result.value.status == response.value.status
  {
    SendRequest(getAccessToken(client.oauth_client), getProjectId(client.oauth_client), body, response, parseJson, rfc2822)
  }

  /** With the yup_oauth2 back end, the request goes to the URL of the
      project of the key the client was built from. */
  lemma SendsToKeyProject(
    client: FcmClient<OauthYup.OauthClient>,
    keyJson: string,
    tokenCache: Option<PathBuf>,
    parseKey: string -> Result<OauthYup.ServiceAccountKey, OauthYup.IoError>,
    hyperClient: Result<(), OauthYup.YupError>,
    buildAuthenticator: OauthYup.Authenticator -> Result<(), OauthYup.IoError>,
    getAccessToken: OauthYup.OauthClient -> Result<string, OauthYup.OauthError>,
    body: Json,
    response: Result<HttpResponse, ReqwestError>,
    parseJson: seq<byte> -> Option<Json>,
    rfc2822: string -> Option<Rfc2822.FixedOffsetDateTime>)
    requires OauthYup.CreateWithStringKey(keyJson, tokenCache, parseKey, hyperClient, buildAuthenticator) == Ok(client.oauth_client)
    requires getAccessToken(client.oauth_client).Ok?
    ensures Send(client, getAccessToken, OauthYup.GetProjectId, body, response, parseJson, rfc2822).request.Some?
    ensures parseKey(keyJson).Ok? && parseKey(keyJson).value.project_id.Some?
    ensures Send(client, getAccessToken, OauthYup.GetProjectId, body, response, parseJson, rfc2822).request.value.url
         == SendUrl(parseKey(keyJson).value.project_id.value)
  {
  }
}

=== FILE: decimal.dfy ===
/** Decimal digit strings: what Rust's integer parsing reads and what a
    zero-padded date field holds. */
module Decimal {

  predicate IsDigit(c: char) {
    '0' <= c <= '9'
  }

  predicate AllDigits(s: string) {
    forall i :: 0 <= i < |s| ==> IsDigit(s[i])
  }

  function DigitValue(c: char): nat
    requires IsDigit(c)
  {
    c as int - '0' as int
  }

  function DigitChar(d: nat): (c: char)
    requires d < 10
    ensures IsDigit(c) && DigitValue(c) == d
  {
    ('0' as int + d) as char
  }

  /** The value of a digit string, most significant digit first; `""` is 0. */
  function DigitsValue(s: string): nat
    requires AllDigits(s)
  {
    if |s| == 0 then 0 else DigitsValue(s[..|s| - 1]) * 10 + DigitValue(s[|s| - 1])
  }

  /** One more digit on the right. */
  lemma DigitsValueSnoc(s: string, c: char)
    requires AllDigits(s) && IsDigit(c)
    ensures AllDigits(s + [c])
    ensures DigitsValue(s + [c]) == DigitsValue(s) * 10 + DigitValue(c)
  {
    assert (s + [c])[..|s|] == s;
  }

  /** The value of a digit string's prefix grows one digit at a time. */
  lemma DigitsValueStep(s: string, k: nat)
    requires AllDigits(s) && k < |s|
    ensures AllDigits(s[..k]) && AllDigits(s[..k + 1])
    ensures DigitsValue(s[..k + 1]) == DigitsValue(s[..k]) * 10 + DigitValue(s[k])
  {
    assert s[..k + 1][..k] == s[..k];
  }

  /** A prefix of a digit string is worth no more than the whole string. */
  lemma {:induction false} DigitsValuePrefix(s: string, i: nat)
    requires AllDigits(s) && i <= |s|
    ensures DigitsValue(s[..i]) <= DigitsValue(s)
  {
    if i < |s| {
      DigitsValuePrefix(s[..|s| - 1], i);
      assert s[..|s| - 1][..i] == s[..i];
    } else {
      assert s[..i] == s;
    }
  }

  function Pow10(n: nat): (p: nat)
    ensures p >= 1
  {
    if n == 0 then 1 else 10 * Pow10(n - 1)
  }

  /** `n` written with exactly `width` digits, zero-padded on the left. */
  function Pad(n: nat, width: nat): (s: string)
    requires n < Pow10(width)
    ensures |s| == width && AllDigits(s)
    ensures DigitsValue(s) == n
  {
    if width == 0 then []
    else
      var s := Pad(n / 10, width - 1) + [DigitChar(n % 10)];
      DigitsValueSnoc(Pad(n / 10, width - 1), DigitChar(n % 10));
      s
  }

  /** `n` in decimal, without leading zeros. */
  function ShowNat(n: nat): (s: string)
    ensures |s| > 0 && AllDigits(s)
    ensures DigitsValue(s) == n
    ensures n > 0 ==> s[0] != '0'
  {
    if n < 10 then [DigitChar(n)]
    else
      var s := ShowNat(n / 10) + [DigitChar(n % 10)];
      DigitsValueSnoc(ShowNat(n / 10), DigitChar(n % 10));
      s
  }

  /** Digit strings without leading zeros are the decimal forms: equal values
      give equal strings. */
  lemma {:induction false} ShowNatUnique(s: string)
    requires |s| > 0 && AllDigits(s) && (|s| > 1 ==> s[0] != '0')
    ensures ShowNat(DigitsValue(s)) == s
  {
    var init := s[..|s| - 1];
    if |s| == 1 {
    } else {
      assert init[0] == s[0];
      ShowNatUnique(init);
      DigitsValueLeading(init);
      assert DigitsValue(s) / 10 == DigitsValue(init);
      assert DigitsValue(s) % 10 == DigitValue(s[|s| - 1]);
      assert DigitChar(DigitValue(s[|s| - 1])) == s[|s| - 1];
      assert s == init + [s[|s| - 1]];
    }
  }

  /** A digit string that starts with a non-zero digit is worth at least 1. */
  lemma {:induction false} DigitsValueLeading(s: string)
    requires |s| > 0 && AllDigits(s) && s[0] != '0'
    ensures DigitsValue(s) >= 1
  {
    if |s| > 1 {
      assert s[..|s| - 1][0] == s[0];
      DigitsValueLeading(s[..|s| - 1]);
    }
  }
}

=== FILE: internal_client.dfy ===
/** The generic revision of the client (src/client/internal_client.rs), over
    any OAuth back end: the same construction and the same capture of the
    answer as the client of src/client/mod.rs, without the `dry_run` flag, and
    with the request body built from the message itself. */
module InternalClient {
  import opened Wrappers
  import opened Json
  import opened Paths
  import Rfc2822
  import Messages
  import Client

  datatype FcmClientInternal<O> = FcmClientInternal(http_client: Client.HttpClientConfig, oauth_client: O)

  /** `new_from_builder`: build the HTTP client (with the timeout only when one
      is configured), then the back end from the JSON string, else the path,
      else the environment variable. */
  function NewFromBuilder<O, E>(
    b: Client.FcmClientBuilder,
    buildHttp: Client.HttpClientConfig -> Result<(), Client.ReqwestError>,
    env: string -> Result<string, Client.DotenvError>,
    createWithStringKey: (string, Option<PathBuf>) -> Result<O, E>,
    createWithKeyFile: (PathBuf, Option<PathBuf>) -> Result<O, E>): (r: Result<FcmClientInternal<O>, Client.FcmClientError<E>>)
    ensures buildHttp(Client.HttpClientFor(b)).Err? ==> r == Err(Client.Reqwest(buildHttp(Client.HttpClientFor(b)).error))
    ensures buildHttp(Client.HttpClientFor(b)).Ok? ==> (r.Ok? <==> Client.CreateOauthClient(b, env, createWithStringKey, createWithKeyFile).Ok?)
    ensures r.Ok? ==> r.value.http_client.timeout == b.fcm_request_timeout
    ensures r.Ok? ==> Ok(r.value.oauth_client) == Client.CreateOauthClient(b, env, createWithStringKey, createWithKeyFile)
    ensures buildHttp(Client.HttpClientFor(b)).Ok? && Client.CreateOauthClient(b, env, createWithStringKey, createWithKeyFile).Err? ==>
      r == Err(Client.CreateOauthClient(b, env, createWithStringKey, createWithKeyFile).error)
  {
    var _ :- MapErr(buildHttp(Client.HttpClientFor(b)), e => Client.Reqwest(e));
    var oauthClient :- Client.CreateOauthClient(b, env, createWithStringKey, createWithKeyFile);
    Ok(FcmClientInternal(Client.HttpClientFor(b), oauthClient))
  }

  /** Credential precedence: with a JSON string the back end is built from it
      and the path and the environment do not matter; with only a path it is
      built from the path; otherwise from the environment variable. In each
      case the builder's token cache path is handed on. */
  lemma CredentialPrecedence<O, E>(
    b: Client.FcmClientBuilder,
    buildHttp: Client.HttpClientConfig -> Result<(), Client.ReqwestError>,
    env: string -> Result<string, Client.DotenvError>,
    createWithStringKey: (string, Option<PathBuf>) -> Result<O, E>,
    createWithKeyFile: (PathBuf, Option<PathBuf>) -> Result<O, E>)
    requires buildHttp(Client.HttpClientFor(b)).Ok?
    ensures b.service_account_key_json_string.Some? ==>
      MapOk(NewFromBuilder(b, buildHttp, env, createWithStringKey, createWithKeyFile))
        == MapErr(createWithStringKey(b.service_account_key_json_string.value, b.token_cache_json_path), e => Client.Oauth(e))
    ensures b.service_account_key_json_string.None? && b.service_account_key_json_path.Some? ==>
      MapOk(NewFromBuilder(b, buildHttp, env, createWithStringKey, createWithKeyFile))
        == MapErr(createWithKeyFile(b.service_account_key_json_path.value, b.token_cache_json_path), e => Client.Oauth(e))
    ensures b.service_account_key_json_string.None? && b.service_account_key_json_path.None? && env(Client.CREDENTIALS_VARIABLE).Ok? ==>
      MapOk(NewFromBuilder(b, buildHttp, env, createWithStringKey, createWithKeyFile))
        == MapErr(createWithKeyFile(Utf8Path(env(Client.CREDENTIALS_VARIABLE).value), b.token_cache_json_path), e => Client.Oauth(e))
    ensures b.service_account_key_json_string.None? && b.service_account_key_json_path.None? && env(Client.CREDENTIALS_VARIABLE).Err? ==>
      NewFromBuilder(b, buildHttp, env, createWithStringKey, createWithKeyFile) == Err(Client.Dotenvy(env(Client.CREDENTIALS_VARIABLE).error))
  {
  }

  /** The back end a construction produced, or its error. */
  function MapOk<O, E>(r: Result<FcmClientInternal<O>, E>): Result<O, E> {
    if r.Ok? then Ok(r.value.oauth_client) else Err(r.error)
  }

  /** The request body: the finalized message under `"message"`. */
  function RequestBody(message: Messages.Message): (body: Json)
    ensures Messages.DecodeWrapper(body) == Some(Messages.FinalizeMessage(message))
  {
    Messages.WrapperRoundTrip(Messages.FinalizeMessage(message));
    Messages.EncodeWrapper(Messages.FinalizeMessage(message))
  }

  /** `send`: the token first (its failure is `Oauth` and no request is
      built), then the request to the project's URL carrying the message,
      then the answer captured as by the other client. */
  function Send<O, E>(
    client: FcmClientInternal<O>,
    getAccessToken: O -> Result<string, E>,
    getProjectId: O -> string,
    message: Messages.Message,
    response: Result<Client.HttpResponse, Client.ReqwestError>,
    parseJson: seq<byte> -> Option<Json>,
    rfc2822: string -> Option<Rfc2822.FixedOffsetDateTime>): (r: Client.Exchange<E>)
    ensures getAccessToken(client.oauth_client).Err? ==> r.request.None? && r.result == Err(Client.Oauth(getAccessToken(client.oauth_client).error))
    ensures r.request.Some? ==> (r.request.value.url == Client.SendUrl(getProjectId(client.oauth_client))
      && Ok(r.request.value.bearer) == getAccessToken(client.oauth_client))
    ensures r.request.Some? ==> Messages.DecodeWrapper(r.request.value.body) == Some(Messages.FinalizeMessage(message))
    ensures getAccessToken(client.oauth_client).Ok? ==> r.request.Some?
    ensures getAccessToken(client.oauth_client).Ok? && response.Err? ==> r.result == Err(Client.Reqwest(response.error))
    ensures getAccessToken(client.oauth_client).Ok? && response.Ok? ==> r.result == Client.Capture(response.value, parseJson, rfc2822)
    ensures r.result.Ok? ==> response.Ok? && r.result.value.status == response.value.status
  {
    Client.SendRequest(getAccessToken(client.oauth_client), getProjectId(client.oauth_client), RequestBody(message), response, parseJson, rfc2822)
  }

  /** A successful answer whose body is not a JSON object and that has no
      `Retry-After` header is captured with its status and an empty map. */
  lemma NonObjectAnswer<O, E>(
    client: FcmClientInternal<O>,
    getAccessToken: O -> Result<string, E>,
    getProjectId: O -> string,
    message: Messages.Message,
    status: u16,
    bytes: seq<byte>,
    parseJson: seq<byte> -> Option<Json>,
    rfc2822: string -> Option<Rfc2822.FixedOffsetDateTime>)
    requires getAccessToken(client.oauth_client).Ok?
    requires !(parseJson(bytes).Some? && parseJson(bytes).value.JObject?)
    ensures Send(client, getAccessToken, getProjectId, message, Ok(Client.HttpResponse(status, None, Ok(bytes))), parseJson, rfc2822).result
         == Ok(Client.FcmResponse(status, map[], None))
  {
  }
}

=== FILE: json.dfy ===
/** An abstract JSON tree, the common currency of serde_json's `Value`, of the
    serializer output and of the response bodies. Objects are ordered lists of
    `(key, value)` pairs, so the order in which serde writes struct fields is
    visible. Numbers are integers only: the typed fields of the core never
    carry a fractional number (the one float-carrying record, `Color`, is
    opaque), but verbatim values (`data`, `headers`, `payload`) and response
    bodies may, and those are not represented here. */
module Json {
  import opened Wrappers

  datatype Json =
    | JNull
    | JBool(b: bool)
    | JNumber(n: int)
    | JString(s: string)
    | JArray(items: seq<Json>)
    | JObject(fields: seq<(string, Json)>)

  type Field = (string, Json)

  /** The keys of an object, in order, repeats included. */
  function Keys(fields: seq<Field>): (ks: seq<string>)
    ensures |ks| == |fields|
    ensures forall i :: 0 <= i < |fields| ==> ks[i] == fields[i].0
  {
    seq(|fields|, i requires 0 <= i < |fields| => fields[i].0)
  }

  /** No key occurs twice. */
  predicate Distinct(ks: seq<string>) {
    forall i, j :: 0 <= i < j < |ks| ==> ks[i] != ks[j]
  }

  /** The value stored under `k`. When a key repeats, the LAST occurrence wins,
      as it does when serde_json reads an object into its `Map`. */
  function Get(fields: seq<Field>, k: string): (r: Option<Json>)
    ensures r.Some? <==> k in Keys(fields)
    ensures r.Some? ==> (k, r.value) in fields
  {
    if |fields| == 0 then None
    else
      var later := Get(fields[1..], k);
      assert Keys(fields) == [fields[0].0] + Keys(fields[1..]);
      if later.Some? then later
      else if fields[0].0 == k then Some(fields[0].1)
      else None
  }

  /** `Get` on an object whose keys are distinct finds THE entry with that key. */
  lemma {:induction false} GetDistinct(fields: seq<Field>, i: nat)
    requires Distinct(Keys(fields))
    requires i < |fields|
    ensures Get(fields, fields[i].0) == Some(fields[i].1)
  {
    assert Keys(fields[1..]) == Keys(fields)[1..];
    if i == 0 {
      assert fields[0].0 !in Keys(fields[1..]);
    } else {
      GetDistinct(fields[1..], i - 1);
    }
  }

  /** Looking a key up in two objects written one after the other: the later
      part wins whenever it holds the key. */
  lemma {:induction false} GetAppend(a: seq<Field>, b: seq<Field>, k: string)
    ensures Get(a + b, k) == if k in Keys(b) then Get(b, k) else Get(a, k)
  {
    if |a| > 0 {
      assert (a + b)[1..] == a[1..] + b;
      GetAppend(a[1..], b, k);
    } else {
      assert a + b == b;
    }
  }

  /** How many times `k` occurs as a key. */
  function Occurs(fields: seq<Field>, k: string): (n: nat)
    ensures n == 0 <==> k !in Keys(fields)
  {
    if |fields| == 0 then 0
    else
      assert Keys(fields) == [fields[0].0] + Keys(fields[1..]);
      (if fields[0].0 == k then 1 else 0) + Occurs(fields[1..], k)
  }

  /** In an object with distinct keys every key occurs at most once. */
  lemma {:induction false} DistinctOccursOnce(fields: seq<Field>, k: string)
    requires Distinct(Keys(fields))
    ensures Occurs(fields, k) <= 1
  {
    if |fields| > 0 {
      assert Keys(fields[1..]) == Keys(fields)[1..];
      DistinctOccursOnce(fields[1..], k);
      if fields[0].0 == k {
        assert k !in Keys(fields[1..]);
      }
    }
  }

  /** The object read into serde_json's `Map<String, Value>`: one entry per
      key, holding the last value written under it. */
  function ToMap(fields: seq<Field>): (m: map<string, Json>)
    ensures m.Keys == set k | k in Keys(fields)
  {
    map k | k in Keys(fields) :: Get(fields, k).value
  }

  /** An object with no entries, the `Default` of serde_json's `Map`. */
  const EmptyObject: Json := JObject([])

  /** Integer ranges of the Rust types the model reads or writes. */
  const I32_MIN: int := -0x8000_0000
  const I32_MAX: int := 0x7FFF_FFFF
  const I64_MIN: int := -0x8000_0000_0000_0000
  const I64_MAX: int := 0x7FFF_FFFF_FFFF_FFFF
  const U64_MAX: int := 0xFFFF_FFFF_FFFF_FFFF

  type i32 = n: int | I32_MIN <= n <= I32_MAX
  type i64 = n: int | I64_MIN <= n <= I64_MAX
  type u64 = n: int | 0 <= n <= U64_MAX
  type u16 = n: int | 0 <= n < 0x1_0000
  type byte = n: int | 0 <= n < 0x100
}

=== FILE: message.dfy ===
/** The message itself (src/message/mod.rs, src/message/fcm_options.rs): the
    builder-side `Message`, the wire-side `MessageInternal` that
    `Message::finalize` produces, the way the target is flattened into it,
    and the `MessageWrapper` that puts it under the `"message"` key. */
module Messages {
  import opened Wrappers
  import opened Json
  import opened Serde
  import opened Targets
  import Notifications
  import AndroidConfigs
  import Webpush
  import Apns

  /** Options for features of the FCM SDK common to all platforms; the label is
      a plain `String`, so it is always written. The wire-side
      `FcmOptionsInternal` (imported at src/message/mod.rs:22) is declared
      outside src/message/fcm_options.rs, is not part of this model, and is
      taken to be the same record. */
  datatype FcmOptions = FcmOptions(analytics_label: string)

  function EncodeFcmOptions(o: FcmOptions): Json {
    JObject(SkipNone([Always("analytics_label", Str(o.analytics_label))]))
  }

  /** The single key is always written, holding the label verbatim, even the
      empty label of `FcmOptions::default()`. */
  lemma FcmOptionsEncoding(o: FcmOptions)
    ensures EncodeFcmOptions(o) == JObject([("analytics_label", JString(o.analytics_label))])
  {
    var slots := [Always("analytics_label", Str(o.analytics_label))];
    SkipNoneStep(slots, 0);
    assert slots[0..] == slots;
    assert slots[1..] == [];
  }

  function ReadFcmOptions(j: Json): Option<FcmOptions> {
    if !j.JObject? then None
    else
      var analyticsLabel :- ReadRequired(Get(j.fields, "analytics_label"), ReadString);
      Some(FcmOptions(analyticsLabel))
  }

  lemma FcmOptionsRoundTrip(o: FcmOptions)
    ensures ReadFcmOptions(EncodeFcmOptions(o)) == Some(o)
  {
    FcmOptionsEncoding(o);
  }

  /** What the user builds. The target is mandatory; everything else is optional. */
  datatype Message = Message(
    data: Option<Json>,
    notification: Option<Notifications.Notification>,
    target: Target,
    android: Option<AndroidConfigs.AndroidConfig>,
    webpush: Option<Webpush.WebpushConfig>,
    apns: Option<Apns.ApnsConfig>,
    fcm_options: Option<FcmOptions>)

  /** What is sent: the same content with the Android configuration in its wire
      form, and the target declared last. */
  datatype MessageInternal = MessageInternal(
    data: Option<Json>,
    notification: Option<Notifications.Notification>,
    android: Option<AndroidConfigs.AndroidConfigInternal>,
    webpush: Option<Webpush.WebpushConfig>,
    apns: Option<Apns.ApnsConfig>,
    fcm_options: Option<FcmOptions>,
    target: Target)

  /** `Message::finalize`: every part moves across unchanged except the
      Android configuration, which is finalized. The notification, web push,
      APNs and FCM options have conversions that none of
      src/notification/mod.rs, src/web/webpush_config.rs,
      src/apns/apns_config.rs or src/message/fcm_options.rs declares; they are
      not part of this model and are taken to be the identity. */
  function FinalizeMessage(m: Message): MessageInternal {
    MessageInternal(
      data := m.data,
      notification := m.notification,
      android := if m.android.Some? then Some(AndroidConfigs.FinalizeAndroidConfig(m.android.value)) else None,
      webpush := m.webpush,
      apns := m.apns,
      fcm_options := m.fcm_options,
      target := m.target)
  }

  /** The non-flattened fields of `MessageInternal`, in declaration order. */
  const MessageFields: seq<string> := ["data", "notification", "android", "webpush", "apns", "fcm_options"]

  /** The non-flattened fields as the serializer sees them; all are skippable. */
  function MessageSlots(n: MessageInternal): seq<Slot> {
    [ Skippable("data", n.data, Verbatim),
      Skippable("notification", n.notification, Notifications.EncodeNotification),
      Skippable("android", n.android, AndroidConfigs.EncodeAndroidConfig),
      Skippable("webpush", n.webpush, Webpush.EncodeWebpushConfig),
      Skippable("apns", n.apns, Apns.EncodeApnsConfig),
      Skippable("fcm_options", n.fcm_options, EncodeFcmOptions) ]
  }

  lemma MessageFieldsDistinct()
    ensures Distinct(MessageFields)
  {
  }

  lemma MessageSlotNames(n: MessageInternal)
    ensures Names(MessageSlots(n)) == MessageFields
  {
  }

  /** No field name is one of the keys a target is written under. */
  lemma MessageFieldsAreNotTargetKeys()
    ensures forall k :: k in MessageFields ==> k !in TargetKeys
  {
  }

  /** The number of fields that are set. */
  function SetFields(n: MessageInternal): nat {
    Present(n.data)
    + Present(n.notification)
    + Present(n.android)
    + Present(n.webpush)
    + Present(n.apns)
    + Present(n.fcm_options)
  }

  /** The object the non-flattened fields alone make up. */
  function EncodeMessageBody(n: MessageInternal): (j: Json)
    ensures j.JObject?
  {
    JObject(SkipNone(MessageSlots(n)))
  }

  /** The wire form: the set fields in declaration order, then the target's one
      entry, which `flatten` merges into the same object after them. */
  function EncodeMessage(n: MessageInternal): (j: Json)
    ensures j.JObject?
  {
    JObject(EncodeMessageBody(n).fields + OutputTarget(n.target))
  }

  /** Reads the wire form back: the optional fields by name, and the target
      from whichever single target key is present. */
  function DecodeMessage(j: Json): Option<MessageInternal> {
    if !j.JObject? then None
    else
      var data :- ReadOptional(Get(j.fields, "data"), ReadAny);
      var notification :- ReadOptional(Get(j.fields, "notification"), Notifications.DecodeNotification);
      var android :- ReadOptional(Get(j.fields, "android"), AndroidConfigs.DecodeAndroidConfig);
      var webpush :- ReadOptional(Get(j.fields, "webpush"), Webpush.DecodeWebpushConfig);
      var apns :- ReadOptional(Get(j.fields, "apns"), Apns.DecodeApnsConfig);
      var fcm_options :- ReadOptional(Get(j.fields, "fcm_options"), ReadFcmOptions);
      var target :- ReadTarget(j.fields);
      Some(MessageInternal(data, notification, android, webpush, apns, fcm_options, target))
  }

  // ---- one lemma per field: where it lands and whether it counts ----

  /** Position `i` of the slot list is found under its own name. */
  lemma MessageSlotAt(n: MessageInternal, i: nat)
    requires i < 6
    ensures Get(EncodeMessageBody(n).fields, MessageSlots(n)[i].name) == MessageSlots(n)[i].value
  {
    MessageFieldsDistinct();
    MessageSlotNames(n);
    LookupSlot(MessageSlots(n), i);
  }

  lemma MessageData(n: MessageInternal)
    ensures Get(EncodeMessageBody(n).fields, "data") == Lift(n.data, Verbatim)
  {
    var s := MessageSlots(n);
    assert s[0] == Skippable("data", n.data, Verbatim);
    MessageSlotAt(n, 0);
  }

  lemma CountMessageData(n: MessageInternal)
    ensures Written(MessageSlots(n)) == Present(n.data) + Written(MessageSlots(n)[1..])
  {
    var s := MessageSlots(n);
    assert s[0] == Skippable("data", n.data, Verbatim);
    SkipNoneStep(s, 0);
    assert s[0..] == s;
  }

  lemma MessageNotification(n: MessageInternal)
    ensures Get(EncodeMessageBody(n).fields, "notification") == Lift(n.notification, Notifications.EncodeNotification)
  {
    var s := MessageSlots(n);
    assert s[1] == Skippable("notification", n.notification, Notifications.EncodeNotification);
    MessageSlotAt(n, 1);
  }

  lemma CountMessageNotification(n: MessageInternal)
    ensures Written(MessageSlots(n)[1..]) == Present(n.notification) + Written(MessageSlots(n)[2..])
  {
    var s := MessageSlots(n);
    assert s[1] == Skippable("notification", n.notification, Notifications.EncodeNotification);
    SkipNoneStep(s, 1);
  }

  lemma MessageAndroid(n: MessageInternal)
    ensures Get(EncodeMessageBody(n).fields, "android") == Lift(n.android, AndroidConfigs.EncodeAndroidConfig)
  {
    var s := MessageSlots(n);
    assert s[2] == Skippable("android", n.android, AndroidConfigs.EncodeAndroidConfig);
    MessageSlotAt(n, 2);
  }

  lemma CountMessageAndroid(n: MessageInternal)
    ensures Written(MessageSlots(n)[2..]) == Present(n.android) + Written(MessageSlots(n)[3..])
  {
    var s := MessageSlots(n);
    assert s[2] == Skippable("android", n.android, AndroidConfigs.EncodeAndroidConfig);
    SkipNoneStep(s, 2);
  }

  lemma MessageWebpush(n: MessageInternal)
    ensures Get(EncodeMessageBody(n).fields, "webpush") == Lift(n.webpush, Webpush.EncodeWebpushConfig)
  {
    var s := MessageSlots(n);
    assert s[3] == Skippable("webpush", n.webpush, Webpush.EncodeWebpushConfig);
    MessageSlotAt(n, 3);
  }

  lemma CountMessageWebpush(n: MessageInternal)
    ensures Written(MessageSlots(n)[3..]) == Present(n.webpush) + Written(MessageSlots(n)[4..])
  {
    var s := MessageSlots(n);
    assert s[3] == Skippable("webpush", n.webpush, Webpush.EncodeWebpushConfig);
    SkipNoneStep(s, 3);
  }

  lemma MessageApns(n: MessageInternal)
    ensures Get(EncodeMessageBody(n).fields, "apns") == Lift(n.apns, Apns.EncodeApnsConfig)
  {
    var s := MessageSlots(n);
    assert s[4] == Skippable("apns", n.apns, Apns.EncodeApnsConfig);
    MessageSlotAt(n, 4);
  }

  lemma CountMessageApns(n: MessageInternal)
    ensures Written(MessageSlots(n)[4..]) == Present(n.apns) + Written(MessageSlots(n)[5..])
  {
    var s := MessageSlots(n);
    assert s[4] == Skippable("apns", n.apns, Apns.EncodeApnsConfig);
    SkipNoneStep(s, 4);
  }

  lemma MessageFcmOptions(n: MessageInternal)
    ensures Get(EncodeMessageBody(n).fields, "fcm_options") == Lift(n.fcm_options, EncodeFcmOptions)
  {
    var s := MessageSlots(n);
    assert s[5] == Skippable("fcm_options", n.fcm_options, EncodeFcmOptions);
    MessageSlotAt(n, 5);
  }

  lemma CountMessageFcmOptions(n: MessageInternal)
    ensures Written(MessageSlots(n)[5..]) == Present(n.fcm_options)
  {
    var s := MessageSlots(n);
    assert s[5] == Skippable("fcm_options", n.fcm_options, EncodeFcmOptions);
    SkipNoneStep(s, 5);
    assert s[6..] == [];
  }


  /** Each non-flattened field is written under its own name exactly when it is set, holding its own wire form. */
  lemma MessageFieldsWritten(n: MessageInternal)
    ensures Get(EncodeMessageBody(n).fields, "data") == Lift(n.data, Verbatim)
    ensures Get(EncodeMessageBody(n).fields, "notification") == Lift(n.notification, Notifications.EncodeNotification)
    ensures Get(EncodeMessageBody(n).fields, "android") == Lift(n.android, AndroidConfigs.EncodeAndroidConfig)
    ensures Get(EncodeMessageBody(n).fields, "webpush") == Lift(n.webpush, Webpush.EncodeWebpushConfig)
    ensures Get(EncodeMessageBody(n).fields, "apns") == Lift(n.apns, Apns.EncodeApnsConfig)
    ensures Get(EncodeMessageBody(n).fields, "fcm_options") == Lift(n.fcm_options, EncodeFcmOptions)
  {
    MessageData(n);
    MessageNotification(n);
    MessageAndroid(n);
    MessageWebpush(n);
    MessageApns(n);
    MessageFcmOptions(n);
  }

  /** The object has no key twice and no key outside the field names. */
  lemma MessageKeys(n: MessageInternal)
    ensures Distinct(Keys(EncodeMessageBody(n).fields))
    ensures forall k :: k in Keys(EncodeMessageBody(n).fields) ==> k in MessageFields
  {
    MessageFieldsDistinct();
    MessageSlotNames(n);
    SkipNoneDistinct(MessageSlots(n));
  }

  /** The serializer writes one entry per set field. */
  lemma MessageWritten(n: MessageInternal)
    ensures Written(MessageSlots(n)) == SetFields(n)
  {
    CountMessageData(n);
    CountMessageNotification(n);
    CountMessageAndroid(n);
    CountMessageWebpush(n);
    CountMessageApns(n);
    CountMessageFcmOptions(n);
  }

  /** One key per set field, so a body with nothing set is `{}`. */
  lemma MessageKeyCount(n: MessageInternal)
    ensures |EncodeMessageBody(n).fields| == SetFields(n)
    ensures SetFields(n) == 0 ==> EncodeMessageBody(n) == JObject([])
  {
    MessageWritten(n);
  }

  /** Each field's reader inverts its encoder. */
  lemma MessageReadsBack(n: MessageInternal)
    ensures ReadOptional(Lift(n.data, Verbatim), ReadAny) == Some(n.data)
    ensures ReadOptional(Lift(n.notification, Notifications.EncodeNotification), Notifications.DecodeNotification) == Some(n.notification)
    ensures ReadOptional(Lift(n.android, AndroidConfigs.EncodeAndroidConfig), AndroidConfigs.DecodeAndroidConfig) == Some(n.android)
    ensures ReadOptional(Lift(n.webpush, Webpush.EncodeWebpushConfig), Webpush.DecodeWebpushConfig) == Some(n.webpush)
    ensures ReadOptional(Lift(n.apns, Apns.EncodeApnsConfig), Apns.DecodeApnsConfig) == Some(n.apns)
    ensures ReadOptional(Lift(n.fcm_options, EncodeFcmOptions), ReadFcmOptions) == Some(n.fcm_options)
  {
    assert forall x :: ReadAny(Verbatim(x)) == Some(x);
    forall x ensures Notifications.DecodeNotification(Notifications.EncodeNotification(x)) == Some(x) {
      Notifications.NotificationRoundTrip(x);
    }
    forall x ensures AndroidConfigs.DecodeAndroidConfig(AndroidConfigs.EncodeAndroidConfig(x)) == Some(x) {
      AndroidConfigs.AndroidConfigRoundTrip(x);
    }
    forall x ensures Webpush.DecodeWebpushConfig(Webpush.EncodeWebpushConfig(x)) == Some(x) {
      Webpush.WebpushConfigRoundTrip(x);
    }
    forall x ensures Apns.DecodeApnsConfig(Apns.EncodeApnsConfig(x)) == Some(x) {
      Apns.ApnsConfigRoundTrip(x);
    }
    forall x ensures ReadFcmOptions(EncodeFcmOptions(x)) == Some(x) {
      FcmOptionsRoundTrip(x);
    }
    ReadLift(n.data, Verbatim, ReadAny);
    ReadLift(n.notification, Notifications.EncodeNotification, Notifications.DecodeNotification);
    ReadLift(n.android, AndroidConfigs.EncodeAndroidConfig, AndroidConfigs.DecodeAndroidConfig);
    ReadLift(n.webpush, Webpush.EncodeWebpushConfig, Webpush.DecodeWebpushConfig);
    ReadLift(n.apns, Apns.EncodeApnsConfig, Apns.DecodeApnsConfig);
    ReadLift(n.fcm_options, EncodeFcmOptions, ReadFcmOptions);
  }


  // ---- the whole message ----

  /** The target's entry comes last, after one entry per set field, and no key
      occurs twice. */
  lemma MessageShape(n: MessageInternal)
    ensures |EncodeMessage(n).fields| == SetFields(n) + 1
    ensures EncodeMessage(n).fields[SetFields(n)] == OutputTarget(n.target)[0]
    ensures Distinct(Keys(EncodeMessage(n).fields))
  {
    MessageKeyCount(n);
    MessageKeys(n);
    MessageFieldsAreNotTargetKeys();
    var body := EncodeMessageBody(n).fields;
    var fields := EncodeMessage(n).fields;
    assert Keys(fields) == Keys(body) + [OutputTarget(n.target)[0].0];
  }

  /** A field name finds the same value in the message as in its body: the
      target's entry never shadows it. */
  lemma LookupBeforeTarget(n: MessageInternal, k: string)
    requires k in MessageFields
    ensures Get(EncodeMessage(n).fields, k) == Get(EncodeMessageBody(n).fields, k)
  {
    MessageFieldsAreNotTargetKeys();
    GetAppend(EncodeMessageBody(n).fields, OutputTarget(n.target), k);
  }

  /** The target's string sits under the key that names its kind. */
  lemma MessageTargetPresent(n: MessageInternal)
    ensures Get(EncodeMessage(n).fields, OutputTarget(n.target)[0].0) == Some(JString(n.target.value))
  {
    GetAppend(EncodeMessageBody(n).fields, OutputTarget(n.target), OutputTarget(n.target)[0].0);
  }

  /** Every set field sits under its own name in the message, and the target's
      string sits under the key that names its kind. */
  lemma MessageFieldsPresent(n: MessageInternal)
    ensures Get(EncodeMessage(n).fields, "data") == Lift(n.data, Verbatim)
    ensures Get(EncodeMessage(n).fields, "notification") == Lift(n.notification, Notifications.EncodeNotification)
    ensures Get(EncodeMessage(n).fields, "android") == Lift(n.android, AndroidConfigs.EncodeAndroidConfig)
    ensures Get(EncodeMessage(n).fields, "webpush") == Lift(n.webpush, Webpush.EncodeWebpushConfig)
    ensures Get(EncodeMessage(n).fields, "apns") == Lift(n.apns, Apns.EncodeApnsConfig)
    ensures Get(EncodeMessage(n).fields, "fcm_options") == Lift(n.fcm_options, EncodeFcmOptions)
    ensures Get(EncodeMessage(n).fields, OutputTarget(n.target)[0].0) == Some(JString(n.target.value))
  {
    MessageFieldsWritten(n);
    LookupBeforeTarget(n, "data");
    LookupBeforeTarget(n, "notification");
    LookupBeforeTarget(n, "android");
    LookupBeforeTarget(n, "webpush");
    LookupBeforeTarget(n, "apns");
    LookupBeforeTarget(n, "fcm_options");
    MessageTargetPresent(n);
  }

  /** Any object holding each field's encoding under its name and exactly one
      target key decodes to the message. */
  lemma MessageDecodeFrom(j: Json, n: MessageInternal)
    requires j.JObject?
    requires Get(j.fields, "data") == Lift(n.data, Verbatim)
    requires Get(j.fields, "notification") == Lift(n.notification, Notifications.EncodeNotification)
    requires Get(j.fields, "android") == Lift(n.android, AndroidConfigs.EncodeAndroidConfig)
    requires Get(j.fields, "webpush") == Lift(n.webpush, Webpush.EncodeWebpushConfig)
    requires Get(j.fields, "apns") == Lift(n.apns, Apns.EncodeApnsConfig)
    requires Get(j.fields, "fcm_options") == Lift(n.fcm_options, EncodeFcmOptions)
    requires ReadTarget(j.fields) == Some(n.target)
    ensures DecodeMessage(j) == Some(n)
  {
    MessageReadsBack(n);
  }

  /** Round trip: the wire form reads back as the same message, target included. */
  lemma MessageRoundTrip(n: MessageInternal)
    ensures DecodeMessage(EncodeMessage(n)) == Some(n)
  {
    MessageFieldsPresent(n);
    MessageKeys(n);
    MessageFieldsAreNotTargetKeys();
    var body := EncodeMessageBody(n).fields;
    ReadTargetAmong(n.target, body, []);
    assert body + OutputTarget(n.target) + [] == EncodeMessage(n).fields;
    MessageDecodeFrom(EncodeMessage(n), n);
  }

  /** A message with nothing but a target is the target's single entry, e.g.
      `{"token": "token"}`. */
  lemma TargetOnlyMessage(t: Target)
    ensures EncodeMessage(MessageInternal(None, None, None, None, None, None, t)) == JObject(OutputTarget(t))
  {
    MessageKeyCount(MessageInternal(None, None, None, None, None, None, t));
  }

  /** A message carrying only custom data writes `data` first, then the target. */
  lemma DataOnlyMessage(data: Json, t: Target)
    ensures EncodeMessage(MessageInternal(Some(data), None, None, None, None, None, t))
         == JObject([("data", data)] + OutputTarget(t))
  {
    var n := MessageInternal(Some(data), None, None, None, None, None, t);
    MessageKeyCount(n);
    MessageData(n);
    var body := EncodeMessageBody(n).fields;
    assert ("data", data) in body;
    assert body == [("data", data)];
  }

  /** A message carrying a default notification writes `"notification": {}`,
      then the target. */
  lemma DefaultNotificationMessage(t: Target)
    ensures EncodeMessage(MessageInternal(None, Some(Notifications.DefaultNotification), None, None, None, None, t))
         == JObject([("notification", JObject([]))] + OutputTarget(t))
  {
    var n := MessageInternal(None, Some(Notifications.DefaultNotification), None, None, None, None, t);
    MessageKeyCount(n);
    MessageNotification(n);
    Notifications.DefaultNotificationEncoding();
    var body := EncodeMessageBody(n).fields;
    assert ("notification", JObject([])) in body;
    assert body == [("notification", JObject([]))];
  }

  /** `finalize` keeps the target, and keeps every optional part set exactly
      when it was set; the Android configuration is finalized, every other
      part passes through unchanged. */
  lemma FinalizeMessageKeeps(m: Message)
    ensures FinalizeMessage(m).target == m.target
    ensures FinalizeMessage(m).data == m.data
    ensures FinalizeMessage(m).notification == m.notification
    ensures FinalizeMessage(m).android.Some? <==> m.android.Some?
    ensures m.android.Some? ==> FinalizeMessage(m).android == Some(AndroidConfigs.FinalizeAndroidConfig(m.android.value))
    ensures FinalizeMessage(m).webpush == m.webpush
    ensures FinalizeMessage(m).apns == m.apns
    ensures FinalizeMessage(m).fcm_options == m.fcm_options
    ensures SetFields(FinalizeMessage(m)) == Present(m.data) + Present(m.notification) + Present(m.android)
                                          + Present(m.webpush) + Present(m.apns) + Present(m.fcm_options)
  {
  }

  /** Finalizing and sending loses nothing: the wire form of a finalized message
      reads back as that finalized message, with the builder's target. */
  lemma FinalizedMessageRoundTrip(m: Message)
    ensures DecodeMessage(EncodeMessage(FinalizeMessage(m))) == Some(FinalizeMessage(m))
    ensures DecodeMessage(EncodeMessage(FinalizeMessage(m))).value.target == m.target
  {
    MessageRoundTrip(FinalizeMessage(m));
  }

  // ---- the request body ----

  /** `MessageWrapper`: the message under the single key `"message"`. */
  function EncodeWrapper(n: MessageInternal): (j: Json)
    ensures j.JObject? && Keys(j.fields) == ["message"]
  {
    JObject([("message", EncodeMessage(n))])
  }

  function DecodeWrapper(j: Json): Option<MessageInternal> {
    if !j.JObject? then None
    else
      var message :- ReadRequired(Get(j.fields, "message"), ReadAny);
      DecodeMessage(message)
  }

  /** Round trip through the request body. */
  lemma WrapperRoundTrip(n: MessageInternal)
    ensures DecodeWrapper(EncodeWrapper(n)) == Some(n)
  {
    MessageRoundTrip(n);
    assert Get(EncodeWrapper(n).fields, "message") == Some(EncodeMessage(n));
  }
}

=== FILE: notification.dfy ===
/** The platform-independent notification block (src/notification/mod.rs).
    src/notification/mod.rs serializes `Notification` itself and declares no
    `finalize`; the one `Message::finalize` calls on it (src/message/mod.rs:95)
    is not part of this model and is taken to be the identity. */
module Notifications {
  import opened Wrappers
  import opened Json
  import opened Serde

  datatype Notification = Notification(
    title: Option<string>,
    body: Option<string>,
    image: Option<string>)

  /** `#[derive(Default)]`: every field `None`. */
  const DefaultNotification: Notification := Notification(None, None, None)

  const NotificationFields: seq<string> := ["title", "body", "image"]

  /** The struct as the serializer sees it; every field is skippable. */
  function NotificationSlots(n: Notification): (slots: seq<Slot>)
    ensures Names(slots) == NotificationFields
  {
    [ Skippable("title", n.title, Str),
      Skippable("body", n.body, Str),
      Skippable("image", n.image, Str) ]
  }

  /** The number of fields that are set. */
  function SetFields(n: Notification): nat {
    (if n.title.Some? then 1 else 0) + (if n.body.Some? then 1 else 0) + (if n.image.Some? then 1 else 0)
  }

  /** The wire form: one key per set field, nothing for an unset one. */
  function EncodeNotification(n: Notification): (j: Json)
    ensures j.JObject?
    ensures |j.fields| == SetFields(n)
    ensures Distinct(Keys(j.fields))
    ensures forall k :: k in Keys(j.fields) ==> k in NotificationFields
  {
    var slots := NotificationSlots(n);
    SkipNoneDistinct(slots);
    assert Written(slots) == SetFields(n) by {
      SkipNoneStep(slots, 0);
      SkipNoneStep(slots, 1);
      SkipNoneStep(slots, 2);
      assert slots[0..] == slots;
    }
    JObject(SkipNone(slots))
  }

  /** Reads a notification block back. */
  function DecodeNotification(j: Json): Option<Notification> {
    if !j.JObject? then None
    else
      var title :- ReadOptional(Get(j.fields, "title"), ReadString);
      var body :- ReadOptional(Get(j.fields, "body"), ReadString);
      var image :- ReadOptional(Get(j.fields, "image"), ReadString);
      Some(Notification(title, body, image))
  }

  /** Each field appears under its own name exactly when it is set, holding its
      string unchanged. */
  lemma NotificationFieldsPresent(n: Notification)
    ensures Get(EncodeNotification(n).fields, "title") == if n.title.Some? then Some(JString(n.title.value)) else None
    ensures Get(EncodeNotification(n).fields, "body") == if n.body.Some? then Some(JString(n.body.value)) else None
    ensures Get(EncodeNotification(n).fields, "image") == if n.image.Some? then Some(JString(n.image.value)) else None
  {
    var slots := NotificationSlots(n);
    LookupSlot(slots, 0);
    LookupSlot(slots, 1);
    LookupSlot(slots, 2);
  }

  /** Round trip: the encoded block reads back as the same notification. */
  lemma NotificationRoundTrip(n: Notification)
    ensures DecodeNotification(EncodeNotification(n)) == Some(n)
  {
    NotificationFieldsPresent(n);
  }

  /** The default notification is written as `{}`. */
  lemma DefaultNotificationEncoding()
    ensures EncodeNotification(DefaultNotification) == JObject([])
  {
  }

  /** With every field set, the block is exactly `title`, `body`, `image`, in
      that order, each holding its string verbatim. */
  lemma FullNotificationEncoding(title: string, body: string, image: string)
    ensures EncodeNotification(Notification(Some(title), Some(body), Some(image)))
         == JObject([("title", JString(title)), ("body", JString(body)), ("image", JString(image))])
  {
    var slots := NotificationSlots(Notification(Some(title), Some(body), Some(image)));
    SkipNoneStep(slots, 0);
    SkipNoneStep(slots, 1);
    SkipNoneStep(slots, 2);
    assert slots[0..] == slots;
  }
}

=== FILE: oauth_gauth.dfy ===
/** The gauth back end of the OAuth client (src/client/oauth_gauth.rs), used by
    the generic client revision. The project id is read from the key file once,
    at construction; every token is obtained afresh from the key file, and the
    `Bearer` prefix gauth puts in front of it is cut off by splitting on
    whitespace. File reading, JSON parsing and the token exchange are
    parameters. */
module OauthGauth {
  import opened Wrappers
  import opened Json
  import opened Paths
  import OauthYup

  datatype IoError = IoError(reason: string)

  /** `serde_json::Error`, opaque. */
  datatype JsonError = JsonError(reason: string)

  datatype FcmOauthError =
    | Oauth(message: string)
    | ServiceAccountKeyPathIsNotUtf8
    | ServiceAccountKeyReadingFailed(io: IoError)
    | ServiceAccountKeyDeserializationFailed(json: JsonError)
    | ProjectIdIsMissing

  datatype OauthClientImpl = OauthClientImpl(project_id: string, service_account_key_path: string)

  // ---- the project id ----

  /** `value["project_id"].as_str()`: indexing anything but an object, or an
      object without the key, gives `null`; only a string is accepted. When the
      key repeats, the parsed map holds the last value. */
  function ProjectIdOf(key: Json): (r: Result<string, FcmOauthError>)
    ensures r.Err? ==> r.error == ProjectIdIsMissing
    ensures r.Ok? <==> key.JObject? && Get(key.fields, "project_id").Some? && Get(key.fields, "project_id").value.JString?
    ensures r.Ok? ==> ("project_id", JString(r.value)) in key.fields
  {
    var field := if key.JObject? then Get(key.fields, "project_id") else None;
    if field.Some? && field.value.JString? then Ok(field.value.s) else Err(ProjectIdIsMissing)
  }

  /** In a key file without repeated keys, the project id is the string stored
      under `project_id`, and any other value there counts as missing. */
  lemma ProjectIdOfKeyFile(fields: seq<Field>, i: nat)
    requires Distinct(Keys(fields)) && i < |fields| && fields[i].0 == "project_id"
    ensures fields[i].1.JString? ==> ProjectIdOf(JObject(fields)) == Ok(fields[i].1.s)
    ensures !fields[i].1.JString? ==> ProjectIdOf(JObject(fields)) == Err(ProjectIdIsMissing)
  {
    GetDistinct(fields, i);
  }

  /** `read_service_key_file_json`: read the file, then parse it; each failure
      has its own error. */
  function ReadServiceKeyFileJson(
    path: PathBuf,
    readFile: PathBuf -> Result<string, IoError>,
    parseJson: string -> Result<Json, JsonError>): (r: Result<Json, FcmOauthError>)
    ensures readFile(path).Err? ==> r == Err(ServiceAccountKeyReadingFailed(readFile(path).error))
    ensures readFile(path).Ok? ==> r == MapErr(parseJson(readFile(path).value), e => ServiceAccountKeyDeserializationFailed(e))
  {
    var text :- MapErr(readFile(path), e => ServiceAccountKeyReadingFailed(e));
    MapErr(parseJson(text), e => ServiceAccountKeyDeserializationFailed(e))
  }

  /** `get_project_id`, the free function. */
  function ReadProjectId(
    path: PathBuf,
    readFile: PathBuf -> Result<string, IoError>,
    parseJson: string -> Result<Json, JsonError>): (r: Result<string, FcmOauthError>)
  {
    var key :- ReadServiceKeyFileJson(path, readFile, parseJson);
    ProjectIdOf(key)
  }

  /** A readable key file that parses yields its project id, if it has one;
      the errors come in the order read, parse, project id. */
  lemma ReadProjectIdSteps(
    path: PathBuf,
    readFile: PathBuf -> Result<string, IoError>,
    parseJson: string -> Result<Json, JsonError>)
    ensures readFile(path).Err? ==> ReadProjectId(path, readFile, parseJson) == Err(ServiceAccountKeyReadingFailed(readFile(path).error))
    ensures readFile(path).Ok? && parseJson(readFile(path).value).Err? ==>
      ReadProjectId(path, readFile, parseJson) == Err(ServiceAccountKeyDeserializationFailed(parseJson(readFile(path).value).error))
    ensures readFile(path).Ok? && parseJson(readFile(path).value).Ok? ==>
      ReadProjectId(path, readFile, parseJson) == ProjectIdOf(parseJson(readFile(path).value).value)
  {
  }

  /** `create_with_key_file`. The project id is read before the path is checked
      to be UTF-8, so a non-UTF-8 path whose file cannot be read reports the
      reading failure. The token cache path is accepted and ignored. */
  function CreateWithKeyFile(
    path: PathBuf,
    tokenCache: Option<PathBuf>,
    readFile: PathBuf -> Result<string, IoError>,
    parseJson: string -> Result<Json, JsonError>): (r: Result<OauthClientImpl, FcmOauthError>)
    ensures r.Ok? ==> Ok(r.value.project_id) == ReadProjectId(path, readFile, parseJson)
    ensures r.Ok? ==> path == Utf8Path(r.value.service_account_key_path)
    ensures ReadProjectId(path, readFile, parseJson).Err? ==> r == Err(ReadProjectId(path, readFile, parseJson).error)
    ensures ReadProjectId(path, readFile, parseJson).Ok? && path.NonUtf8Path? ==> r == Err(ServiceAccountKeyPathIsNotUtf8)
  {
    var projectId :- ReadProjectId(path, readFile, parseJson);
    var text :- if ToStr(path).Some? then Ok(ToStr(path).value) else Err(ServiceAccountKeyPathIsNotUtf8);
    Ok(OauthClientImpl(projectId, text))
  }

  /** The token cache path makes no difference. */
  lemma TokenCacheIgnored(
    path: PathBuf,
    a: Option<PathBuf>,
    b: Option<PathBuf>,
    readFile: PathBuf -> Result<string, IoError>,
    parseJson: string -> Result<Json, JsonError>)
    ensures CreateWithKeyFile(path, a, readFile, parseJson) == CreateWithKeyFile(path, b, readFile, parseJson)
  {
  }

  /** `get_project_id`, the trait method. */
  function GetProjectId(client: OauthClientImpl): string {
    client.project_id
  }

  /** A client built from a key file reports the project id read from it. */
  lemma ProjectIdAsRead(
    path: PathBuf,
    tokenCache: Option<PathBuf>,
    readFile: PathBuf -> Result<string, IoError>,
    parseJson: string -> Result<Json, JsonError>)
    requires CreateWithKeyFile(path, tokenCache, readFile, parseJson).Ok?
    ensures readFile(path).Ok? && parseJson(readFile(path).value).Ok?
    ensures Ok(GetProjectId(CreateWithKeyFile(path, tokenCache, readFile, parseJson).value))
         == ProjectIdOf(parseJson(readFile(path).value).value)
  {
  }

  // ---- splitting on whitespace ----

  /** `char::is_whitespace`: the characters with Unicode's White_Space
      property. */
  predicate IsWhitespace(c: char) {
    ('\t' <= c <= '\r') || c == ' ' || c == '\U{0085}' || c == '\U{00A0}' || c == '\U{1680}'
    || ('\U{2000}' <= c <= '\U{200A}') || c == '\U{2028}' || c == '\U{2029}'
    || c == '\U{202F}' || c == '\U{205F}' || c == '\U{3000}'
  }

  predicate NoWhitespace(s: string) {
    forall i :: 0 <= i < |s| ==> !IsWhitespace(s[i])
  }

  /** The whitespace characters of `s`, in order. */
  function Separators(s: string): (seps: string)
    ensures forall i :: 0 <= i < |seps| ==> IsWhitespace(seps[i])
  {
    if |s| == 0 then []
    else if IsWhitespace(s[0]) then [s[0]] + Separators(s[1..])
    else Separators(s[1..])
  }

  /** `str::split(char::is_whitespace)`: every whitespace character ends a
      piece, so adjacent separators leave an empty piece between them and the
      pieces are one more than the separators. */
  function Split(s: string): (pieces: seq<string>)
    ensures |pieces| == |Separators(s)| + 1
    ensures forall i :: 0 <= i < |pieces| ==> NoWhitespace(pieces[i])
  {
    if |s| == 0 then [""]
    else
      var rest := Split(s[1..]);
      if IsWhitespace(s[0]) then [""] + rest
      else
        assert NoWhitespace([s[0]] + rest[0]) by {
          assert forall i :: 1 <= i < |[s[0]] + rest[0]| ==> ([s[0]] + rest[0])[i] == rest[0][i - 1];
        }
        [[s[0]] + rest[0]] + rest[1..]
  }

  /** The pieces with the separators put back between them. */
  function Interleave(pieces: seq<string>, seps: string): (s: string)
    requires |pieces| == |seps| + 1
  {
    if |seps| == 0 then pieces[0] else pieces[0] + [seps[0]] + Interleave(pieces[1..], seps[1..])
  }

  /** Splitting loses nothing: putting the separators back gives the text. */
  lemma {:induction false} SplitInterleave(s: string)
    ensures Interleave(Split(s), Separators(s)) == s
  {
    if |s| > 0 {
      var rest := Split(s[1..]);
      var seps := Separators(s[1..]);
      SplitInterleave(s[1..]);
      if IsWhitespace(s[0]) {
        assert Split(s)[1..] == rest;
        assert Separators(s)[1..] == seps;
        assert s == [s[0]] + s[1..];
      } else if |seps| == 0 {
        assert s == [s[0]] + s[1..];
      } else {
        var p := Split(s);
        assert p[1..] == rest[1..];
        assert Interleave(p, seps) == p[0] + [seps[0]] + Interleave(rest[1..], seps[1..]);
        assert s == [s[0]] + s[1..];
      }
    }
  }

  /** A whitespace-free prefix is glued to the first piece of what follows. */
  lemma {:induction false} SplitPrefix(p: string, rest: string)
    requires NoWhitespace(p)
    ensures Split(p + rest) == [p + Split(rest)[0]] + Split(rest)[1..]
  {
    if |p| > 0 {
      assert (p + rest)[0] == p[0];
      assert (p + rest)[1..] == p[1..] + rest;
      assert NoWhitespace(p[1..]) by {
        assert forall i :: 0 <= i < |p[1..]| ==> p[1..][i] == p[i + 1];
      }
      SplitPrefix(p[1..], rest);
      var tail := Split(p[1..] + rest);
      assert Split(p + rest) == [[p[0]] + tail[0]] + tail[1..];
      assert [p[0]] + (p[1..] + Split(rest)[0]) == p + Split(rest)[0];
    } else {
      assert p + rest == rest;
      assert p + Split(rest)[0] == Split(rest)[0];
      assert [Split(rest)[0]] + Split(rest)[1..] == Split(rest);
    }
  }

  /** Text without whitespace is one piece. */
  lemma SplitNoWhitespace(s: string)
    requires NoWhitespace(s)
    ensures Split(s) == [s]
  {
    SplitPrefix(s, "");
    assert s + "" == s;
    assert Split("") == [""];
  }

  /** What follows the first whitespace character after a whitespace-free
      word: the second piece is the first piece of the rest. */
  lemma SecondPiece(word: string, sep: char, rest: string)
    requires NoWhitespace(word) && IsWhitespace(sep)
    ensures Split(word + [sep] + rest) == [word] + Split(rest)
  {
    SplitPrefix(word, [sep] + rest);
    assert ([sep] + rest)[1..] == rest;
    assert word + [sep] + rest == word + ([sep] + rest);
    assert word + "" == word;
  }

  /** One call of `get_access_token`: the key file and scopes gauth is given,
      and the outcome. */
  datatype TokenRequest = TokenRequest(keyPath: string, scopes: seq<string>, result: Result<string, FcmOauthError>)

  /** `get_access_token`. `issue` is gauth's token exchange, which answers with
      `Bearer <token>` or a failure whose text becomes an `Oauth` error. The
      second piece of the answer split on whitespace is returned; an answer
      without whitespace would index past the pieces and panic, which the
      precondition excludes. */
  function GetAccessToken(client: OauthClientImpl, issue: (string, seq<string>) -> Result<string, string>): (r: TokenRequest)
    requires issue(client.service_account_key_path, [OauthYup.FIREBASE_OAUTH_SCOPE]).Ok? ==>
      |Separators(issue(client.service_account_key_path, [OauthYup.FIREBASE_OAUTH_SCOPE]).value)| >= 1
    ensures r.keyPath == client.service_account_key_path && r.scopes == [OauthYup.FIREBASE_OAUTH_SCOPE]
    ensures issue(r.keyPath, r.scopes).Err? ==> r.result == Err(Oauth(issue(r.keyPath, r.scopes).error))
    ensures r.result.Ok? <==> issue(r.keyPath, r.scopes).Ok?
    ensures issue(r.keyPath, r.scopes).Ok? ==> r.result == Ok(Split(issue(r.keyPath, r.scopes).value)[1])
    ensures r.result.Ok? ==> NoWhitespace(r.result.value)
  {
    var scopes := [OauthYup.FIREBASE_OAUTH_SCOPE];
    var answer := issue(client.service_account_key_path, scopes);
    var result := if answer.Err? then Err(Oauth(answer.error)) else Ok(Split(answer.value)[1]);
    TokenRequest(client.service_account_key_path, scopes, result)
  }

  /** `Bearer <token>` with one space gives the token back. */
  lemma BearerTokenStripped(client: OauthClientImpl, issue: (string, seq<string>) -> Result<string, string>, token: string)
    requires NoWhitespace(token)
    requires issue(client.service_account_key_path, [OauthYup.FIREBASE_OAUTH_SCOPE]) == Ok("Bearer " + token)
    ensures |Separators("Bearer " + token)| >= 1 && GetAccessToken(client, issue).result == Ok(token)
  {
    BearerSplit(token);
    SplitNoWhitespace(token);
  }

  /** `Bearer` is a word, and what follows `Bearer ` is split on its own. */
  lemma BearerSplit(rest: string)
    ensures Split("Bearer " + rest) == ["Bearer"] + Split(rest)
  {
    BearerIsAWord();
    SecondPiece("Bearer", ' ', rest);
    assert "Bearer " + rest == "Bearer" + [' '] + rest;
  }

  lemma BearerIsAWord()
    ensures NoWhitespace("Bearer") && IsWhitespace(' ')
  {
  }

  /** Two spaces after `Bearer` leave an empty piece in second place, so the
      token returned is empty. */
  lemma DoubleSpaceGivesEmptyToken(client: OauthClientImpl, issue: (string, seq<string>) -> Result<string, string>, token: string)
    requires issue(client.service_account_key_path, [OauthYup.FIREBASE_OAUTH_SCOPE]) == Ok("Bearer  " + token)
    ensures |Separators("Bearer  " + token)| >= 1 && GetAccessToken(client, issue).result == Ok("")
  {
    BearerSplit(" " + token);
    SecondPiece("", ' ', token);
    assert "Bearer  " + token == "Bearer " + (" " + token);
    assert "" + [' '] + token == " " + token;
  }
}

=== FILE: oauth_yup.dfy ===
/** The yup_oauth2 back end of the OAuth client (src/client/oauth_yup_oauth2.rs).
    Reading files, parsing the service-account key, building the HTTP client
    and the authenticator, and fetching a token are done by libraries; their
    outcomes are parameters here. What the model keeps is the order of the
    steps, which error each failure becomes, and what is kept of the results. */
module OauthYup {
  import opened Wrappers
  import opened Paths

  /** The one scope every token is requested for. */
  const FIREBASE_OAUTH_SCOPE: string := "https://www.googleapis.com/auth/firebase.messaging"

  /** `std::io::Error`, opaque. */
  datatype IoError = IoError(reason: string)

  /** The variants of `yup_oauth2::Error` the predicate below looks at; every
      other variant is `OtherYupError`. */
  datatype YupError = MissingAccessToken | AuthError(reason: string) | OtherYupError(reason: string)

  datatype OauthError =
    | ServiceAccountKeyReadingFailed(io: IoError)
    | Oauth(inner: YupError)
    | AccessTokenIsMissing
    | AuthenticatorCreatingFailed(io: IoError)
    | ProjectIdIsMissing

  /** `is_access_token_missing_even_if_server_requests_completed`: the errors
      that mean the server was reached but gave no token, which most likely
      means the service-account key is invalid. */
  predicate IsAccessTokenMissing(e: OauthError) {
    match e
    case AccessTokenIsMissing => true
    case Oauth(MissingAccessToken) => true
    case Oauth(AuthError(_)) => true
    case _ => false
  }

  /** The predicate holds for exactly three kinds of error, and for no error
      that arises before the server is asked. */
  lemma AccessTokenMissingCases(e: OauthError)
    ensures IsAccessTokenMissing(e) <==> e == AccessTokenIsMissing || e == Oauth(MissingAccessToken) || (e.Oauth? && e.inner.AuthError?)
    ensures e.ServiceAccountKeyReadingFailed? || e.AuthenticatorCreatingFailed? || e.ProjectIdIsMissing? ==> !IsAccessTokenMissing(e)
    ensures e.Oauth? && e.inner.OtherYupError? ==> !IsAccessTokenMissing(e)
  {
  }

  /** The parts of a parsed service-account key the client uses. */
  datatype ServiceAccountKey = ServiceAccountKey(project_id: Option<string>, client_email: string)

  /** The authenticator built from a key, persisting tokens to the cache file
      when one is given. */
  datatype Authenticator = Authenticator(key: ServiceAccountKey, token_cache: Option<PathBuf>)

  datatype OauthClient = OauthClient(authenticator: Authenticator, project_id: string)

  /** `create_with_string_key`. The steps run in order, the first failure
      ending the construction: parse the key (`parseKey`), build the HTTP
      client (`hyperClient`), build the authenticator (`buildAuthenticator`),
      and only then require the key's project id. */
  function CreateWithStringKey(
    keyJson: string,
    tokenCache: Option<PathBuf>,
    parseKey: string -> Result<ServiceAccountKey, IoError>,
    hyperClient: Result<(), YupError>,
    buildAuthenticator: Authenticator -> Result<(), IoError>): (r: Result<OauthClient, OauthError>)
    ensures parseKey(keyJson).Err? ==> r == Err(ServiceAccountKeyReadingFailed(parseKey(keyJson).error))
    ensures r.Ok? ==> parseKey(keyJson).Ok? && parseKey(keyJson).value.project_id == Some(r.value.project_id)
    ensures parseKey(keyJson).Ok? && hyperClient.Err? ==> r == Err(Oauth(hyperClient.error))
    ensures parseKey(keyJson).Ok? && hyperClient.Ok? && buildAuthenticator(Authenticator(parseKey(keyJson).value, tokenCache)).Err? ==>
      r == Err(AuthenticatorCreatingFailed(buildAuthenticator(Authenticator(parseKey(keyJson).value, tokenCache)).error))
    ensures parseKey(keyJson).Ok? && hyperClient.Ok? && buildAuthenticator(Authenticator(parseKey(keyJson).value, tokenCache)).Ok? ==>
      (r.Ok? <==> parseKey(keyJson).value.project_id.Some?)
    ensures r.Ok? ==> r.value.authenticator == Authenticator(parseKey(keyJson).value, tokenCache)
  {
    var key :- MapErr(parseKey(keyJson), e => ServiceAccountKeyReadingFailed(e));
    var _ :- MapErr(hyperClient, e => Oauth(e));
    var authenticator := Authenticator(key, tokenCache);
    var _ :- MapErr(buildAuthenticator(authenticator), e => AuthenticatorCreatingFailed(e));
    if key.project_id.None? then Err(ProjectIdIsMissing)
    else Ok(OauthClient(authenticator, key.project_id.value))
  }

  /** A key without a project id fails with `ProjectIdIsMissing`, but only once
      every earlier step has succeeded; an earlier failure wins. */
  lemma MissingProjectIdComesLast(
    keyJson: string,
    tokenCache: Option<PathBuf>,
    parseKey: string -> Result<ServiceAccountKey, IoError>,
    hyperClient: Result<(), YupError>,
    buildAuthenticator: Authenticator -> Result<(), IoError>)
    requires parseKey(keyJson).Ok? && parseKey(keyJson).value.project_id.None?
    ensures CreateWithStringKey(keyJson, tokenCache, parseKey, hyperClient, buildAuthenticator)
         == if hyperClient.Err? then Err(Oauth(hyperClient.error))
            else if buildAuthenticator(Authenticator(parseKey(keyJson).value, tokenCache)).Err? then
              Err(AuthenticatorCreatingFailed(buildAuthenticator(Authenticator(parseKey(keyJson).value, tokenCache)).error))
            else Err(ProjectIdIsMissing)
  {
  }

  /** `create_with_key_file`: reads the file and hands its contents to
      `create_with_string_key`; an unreadable file is
      `ServiceAccountKeyReadingFailed`. */
  function CreateWithKeyFile(
    path: PathBuf,
    tokenCache: Option<PathBuf>,
    readFile: PathBuf -> Result<string, IoError>,
    parseKey: string -> Result<ServiceAccountKey, IoError>,
    hyperClient: Result<(), YupError>,
    buildAuthenticator: Authenticator -> Result<(), IoError>): (r: Result<OauthClient, OauthError>)
  {
    var contents :- MapErr(readFile(path), e => ServiceAccountKeyReadingFailed(e));
    CreateWithStringKey(contents, tokenCache, parseKey, hyperClient, buildAuthenticator)
  }

  /** Reading the key from a file is reading it from the file's contents. */
  lemma KeyFileIsKeyString(
    path: PathBuf,
    tokenCache: Option<PathBuf>,
    readFile: PathBuf -> Result<string, IoError>,
    parseKey: string -> Result<ServiceAccountKey, IoError>,
    hyperClient: Result<(), YupError>,
    buildAuthenticator: Authenticator -> Result<(), IoError>)
    ensures readFile(path).Err? ==>
      CreateWithKeyFile(path, tokenCache, readFile, parseKey, hyperClient, buildAuthenticator)
        == Err(ServiceAccountKeyReadingFailed(readFile(path).error))
    ensures readFile(path).Ok? ==>
      CreateWithKeyFile(path, tokenCache, readFile, parseKey, hyperClient, buildAuthenticator)
        == CreateWithStringKey(readFile(path).value, tokenCache, parseKey, hyperClient, buildAuthenticator)
  {
  }

  /** What the authenticator hands back: a token record whose string may be
      missing. */
  datatype AccessToken = AccessToken(token: Option<string>)

  /** One call of `get_access_token`: the scopes asked for, and the outcome. */
  datatype TokenRequest = TokenRequest(scopes: seq<string>, result: Result<string, OauthError>)

  /** `get_access_token`. `fetch` is the authenticator's `token` call. */
  function GetAccessToken(fetch: seq<string> -> Result<AccessToken, YupError>): (r: TokenRequest)
    ensures r.scopes == [FIREBASE_OAUTH_SCOPE]
    ensures fetch(r.scopes).Err? ==> r.result == Err(Oauth(fetch(r.scopes).error))
    ensures fetch(r.scopes).Ok? && fetch(r.scopes).value.token.None? ==> r.result == Err(AccessTokenIsMissing)
    ensures r.result.Ok? ==> fetch(r.scopes) == Ok(AccessToken(Some(r.result.value)))
  {
    var scopes := [FIREBASE_OAUTH_SCOPE];
    var outcome := fetch(scopes);
    var result :=
      if outcome.Err? then Err(Oauth(outcome.error))
      else if outcome.value.token.None? then Err(AccessTokenIsMissing)
      else Ok(outcome.value.token.value);
    TokenRequest(scopes, result)
  }

  /** A missing token string is reported as an error the predicate recognises. */
  lemma MissingTokenIsRecognised(fetch: seq<string> -> Result<AccessToken, YupError>)
    requires fetch([FIREBASE_OAUTH_SCOPE]) == Ok(AccessToken(None))
    ensures GetAccessToken(fetch).result.Err?
    ensures IsAccessTokenMissing(GetAccessToken(fetch).result.error)
  {
  }

  /** `get_project_id`: the id the client was built with. */
  function GetProjectId(client: OauthClient): string {
    client.project_id
  }

  /** A built client reports the project id of the key it was built from. */
  lemma ProjectIdFromKey(
    keyJson: string,
    tokenCache: Option<PathBuf>,
    parseKey: string -> Result<ServiceAccountKey, IoError>,
    hyperClient: Result<(), YupError>,
    buildAuthenticator: Authenticator -> Result<(), IoError>)
    requires CreateWithStringKey(keyJson, tokenCache, parseKey, hyperClient, buildAuthenticator).Ok?
    ensures Some(GetProjectId(CreateWithStringKey(keyJson, tokenCache, parseKey, hyperClient, buildAuthenticator).value))
         == parseKey(keyJson).value.project_id
  {
  }
}

=== FILE: paths.dfy ===
/** File-system paths (`PathBuf`). On Unix a path is any byte string, so it
    need not be UTF-8; only whether it is, and its text when it is, matter to
    the client. */
module Paths {
  import opened Wrappers

  datatype PathBuf = Utf8Path(text: string) | NonUtf8Path(raw: seq<bv8>)

  /** `Path::to_str`: the path's text, when it is valid UTF-8. */
  function ToStr(p: PathBuf): (r: Option<string>)
    ensures r.Some? <==> p.Utf8Path?
    ensures r.Some? ==> p == Utf8Path(r.value)
  {
    if p.Utf8Path? then Some(p.text) else None
  }
}

=== FILE: response.dfy ===
/** What the FCM server answers (src/client/response.rs): the table of error
    names, and the `Response` and `MessageResult` records the body is read
    into. These records are only ever deserialized; the writers below are the
    reference form a server body takes, against which the readers are stated. */
module Responses {
  import opened Wrappers
  import opened Json
  import opened Serde

  /** What went wrong with one push notification. */
  datatype ErrorReason =
    MissingRegistration
    | InvalidRegistration
    | NotRegistered
    | InvalidPackageName
    | MismatchSenderId
    | InvalidParameters
    | MessageTooBig
    | InvalidDataKey
    | InvalidTtl
    | Unavailable
    | InternalServerError
    | DeviceMessageRateExceeded
    | TopicsMessageRateExceeded
    | InvalidApnsCredential

  /** The name an error has on the wire: the variant name, since the enum
      carries no rename attribute. */
  function ErrorReasonName(e: ErrorReason): string {
    match e
    case MissingRegistration => "MissingRegistration"
    case InvalidRegistration => "InvalidRegistration"
    case NotRegistered => "NotRegistered"
    case InvalidPackageName => "InvalidPackageName"
    case MismatchSenderId => "MismatchSenderId"
    case InvalidParameters => "InvalidParameters"
    case MessageTooBig => "MessageTooBig"
    case InvalidDataKey => "InvalidDataKey"
    case InvalidTtl => "InvalidTtl"
    case Unavailable => "Unavailable"
    case InternalServerError => "InternalServerError"
    case DeviceMessageRateExceeded => "DeviceMessageRateExceeded"
    case TopicsMessageRateExceeded => "TopicsMessageRateExceeded"
    case InvalidApnsCredential => "InvalidApnsCredential"
  }

  /** Reads an error name; only the fourteen variant names are accepted. */
  function ParseErrorReason(s: string): (r: Option<ErrorReason>)
    ensures r.Some? ==> ErrorReasonName(r.value) == s
  {
    if s == "MissingRegistration" then Some(MissingRegistration)
    else if s == "InvalidRegistration" then Some(InvalidRegistration)
    else if s == "NotRegistered" then Some(NotRegistered)
    else if s == "InvalidPackageName" then Some(InvalidPackageName)
    else if s == "MismatchSenderId" then Some(MismatchSenderId)
    else if s == "InvalidParameters" then Some(InvalidParameters)
    else if s == "MessageTooBig" then Some(MessageTooBig)
    else if s == "InvalidDataKey" then Some(InvalidDataKey)
    else if s == "InvalidTtl" then Some(InvalidTtl)
    else if s == "Unavailable" then Some(Unavailable)
    else if s == "InternalServerError" then Some(InternalServerError)
    else if s == "DeviceMessageRateExceeded" then Some(DeviceMessageRateExceeded)
    else if s == "TopicsMessageRateExceeded" then Some(TopicsMessageRateExceeded)
    else if s == "InvalidApnsCredential" then Some(InvalidApnsCredential)
    else None
  }

  /** Every variant's name reads back as that variant. */
  lemma ErrorReasonRoundTrip(e: ErrorReason)
    ensures ParseErrorReason(ErrorReasonName(e)) == Some(e)
  {
    if e.MissingRegistration? || e.InvalidRegistration? || e.NotRegistered? || e.InvalidPackageName? || e.MismatchSenderId? {
      FirstNamesRoundTrip(e);
    } else if e.InvalidParameters? || e.MessageTooBig? || e.InvalidDataKey? || e.InvalidTtl? || e.Unavailable? {
      MiddleNamesRoundTrip(e);
    } else {
      LastNamesRoundTrip(e);
    }
  }

  /** The round trip, for the names tried first. */
  lemma FirstNamesRoundTrip(e: ErrorReason)
    requires e.MissingRegistration? || e.InvalidRegistration? || e.NotRegistered? || e.InvalidPackageName? || e.MismatchSenderId?
    ensures ParseErrorReason(ErrorReasonName(e)) == Some(e)
  {
  }

  /** The round trip, for the names tried in the middle. */
  lemma MiddleNamesRoundTrip(e: ErrorReason)
    requires e.InvalidParameters? || e.MessageTooBig? || e.InvalidDataKey? || e.InvalidTtl? || e.Unavailable?
    ensures ParseErrorReason(ErrorReasonName(e)) == Some(e)
  {
  }

  /** The round trip, for the names tried last. */
  lemma LastNamesRoundTrip(e: ErrorReason)
    requires e.InternalServerError? || e.DeviceMessageRateExceeded? || e.TopicsMessageRateExceeded? || e.InvalidApnsCredential?
    ensures ParseErrorReason(ErrorReasonName(e)) == Some(e)
  {
  }

  /** The names are exactly the accepted strings: a string is read as an error
      reason if and only if it is some variant's name. */
  lemma ErrorReasonNames(s: string)
    ensures ParseErrorReason(s).Some? <==> exists e :: ErrorReasonName(e) == s
  {
    if e :| ErrorReasonName(e) == s {
      ErrorReasonRoundTrip(e);
    }
  }

  /** Different variants have different names. */
  lemma ErrorReasonNameInjective(a: ErrorReason, b: ErrorReason)
    ensures ErrorReasonName(a) == ErrorReasonName(b) <==> a == b
  {
    if ErrorReasonName(a) == ErrorReasonName(b) {
      ErrorReasonRoundTrip(a);
      ErrorReasonRoundTrip(b);
    }
  }

  function ErrorReasonJson(e: ErrorReason): Json {
    JString(ErrorReasonName(e))
  }

  /** serde reads a unit variant either from its name as a string or from a
      one-entry object mapping the name to `null`. */
  function ReadErrorReason(j: Json): Option<ErrorReason> {
    if j.JString? then ParseErrorReason(j.s)
    else if j.JObject? && |j.fields| == 1 && j.fields[0].1 == JNull then ParseErrorReason(j.fields[0].0)
    else None
  }

  /** An error reason is read exactly from its name or from the one-entry
      object `{name: null}`, and from nothing else. */
  lemma ErrorReasonForms(j: Json, e: ErrorReason)
    ensures ReadErrorReason(j) == Some(e) <==> j == JString(ErrorReasonName(e)) || j == JObject([(ErrorReasonName(e), JNull)])
  {
    ErrorReasonRoundTrip(e);
    if ReadErrorReason(j) == Some(e) && j.JObject? {
      assert j.fields == [(ErrorReasonName(e), JNull)];
    }
  }

  function U64(n: u64): Json {
    JNumber(n)
  }

  function I64(n: i64): Json {
    JNumber(n)
  }

  function ReadU64(j: Json): Option<u64> {
    if j.JNumber? && 0 <= j.n <= U64_MAX then Some(j.n) else None
  }

  function ReadI64(j: Json): Option<i64> {
    if j.JNumber? && I64_MIN <= j.n <= I64_MAX then Some(j.n) else None
  }

  /** No key among `names` occurs twice. */
  predicate AtMostOnce(fields: seq<Field>, names: seq<string>) {
    forall k :: k in names ==> Occurs(fields, k) <= 1
  }

  lemma DistinctAtMostOnce(fields: seq<Field>, names: seq<string>)
    requires Distinct(Keys(fields))
    ensures AtMostOnce(fields, names)
  {
    forall k | k in names
      ensures Occurs(fields, k) <= 1
    {
      DistinctOccursOnce(fields, k);
    }
  }

  // ---- one result per message ----

  datatype MessageResult = MessageResult(
    message_id: Option<string>,
    registration_id: Option<string>,
    error: Option<ErrorReason>)

  const MessageResultFields: seq<string> := ["message_id", "registration_id", "error"]

  function MessageResultSlots(n: MessageResult): seq<Slot> {
    [ Skippable("message_id", n.message_id, Str),
      Skippable("registration_id", n.registration_id, Str),
      Skippable("error", n.error, ErrorReasonJson) ]
  }

  lemma MessageResultFieldsDistinct()
    ensures Distinct(MessageResultFields)
  {
  }

  lemma MessageResultSlotNames(n: MessageResult)
    ensures Names(MessageResultSlots(n)) == MessageResultFields
  {
  }

  /** The number of fields that are set. */
  function MessageResultSetFields(n: MessageResult): nat {
    Present(n.message_id) + Present(n.registration_id) + Present(n.error)
  }

  /** The reference body: the set fields only. */
  function WriteMessageResult(n: MessageResult): (j: Json)
    ensures j.JObject?
  {
    JObject(SkipNone(MessageResultSlots(n)))
  }

  /** `#[derive(Deserialize)]`: every field is an `Option`, so a missing key
      and `null` both read as `None`; unknown keys are ignored; a known key given
      twice is an error. */
  function DecodeMessageResult(j: Json): Option<MessageResult> {
    if !j.JObject? || !AtMostOnce(j.fields, MessageResultFields) then None
    else
      var message_id :- ReadOptionField(Get(j.fields, "message_id"), ReadString);
      var registration_id :- ReadOptionField(Get(j.fields, "registration_id"), ReadString);
      var error :- ReadOptionField(Get(j.fields, "error"), ReadErrorReason);
      Some(MessageResult(message_id, registration_id, error))
  }

  // ---- MessageResult: one lemma per field ----

  /** Position `i` of the slot list is found under its own name. */
  lemma MessageResultSlotAt(n: MessageResult, i: nat)
    requires i < 3
    ensures Get(WriteMessageResult(n).fields, MessageResultSlots(n)[i].name) == MessageResultSlots(n)[i].value
  {
    MessageResultFieldsDistinct();
    MessageResultSlotNames(n);
    LookupSlot(MessageResultSlots(n), i);
  }

  lemma MessageResultMessageId(n: MessageResult)
    ensures Get(WriteMessageResult(n).fields, "message_id") == Lift(n.message_id, Str)
  {
    var s := MessageResultSlots(n);
    assert s[0] == Skippable("message_id", n.message_id, Str);
    MessageResultSlotAt(n, 0);
  }

  lemma CountMessageResultMessageId(n: MessageResult)
    ensures Written(MessageResultSlots(n)) == Present(n.message_id) + Written(MessageResultSlots(n)[1..])
  {
    var s := MessageResultSlots(n);
    assert s[0] == Skippable("message_id", n.message_id, Str);
    SkipNoneStep(s, 0);
    assert s[0..] == s;
  }

  lemma MessageResultRegistrationId(n: MessageResult)
    ensures Get(WriteMessageResult(n).fields, "registration_id") == Lift(n.registration_id, Str)
  {
    var s := MessageResultSlots(n);
    assert s[1] == Skippable("registration_id", n.registration_id, Str);
    MessageResultSlotAt(n, 1);
  }

  lemma CountMessageResultRegistrationId(n: MessageResult)
    ensures Written(MessageResultSlots(n)[1..]) == Present(n.registration_id) + Written(MessageResultSlots(n)[2..])
  {
    var s := MessageResultSlots(n);
    assert s[1] == Skippable("registration_id", n.registration_id, Str);
    SkipNoneStep(s, 1);
  }

  lemma MessageResultError(n: MessageResult)
    ensures Get(WriteMessageResult(n).fields, "error") == Lift(n.error, ErrorReasonJson)
  {
    var s := MessageResultSlots(n);
    assert s[2] == Skippable("error", n.error, ErrorReasonJson);
    MessageResultSlotAt(n, 2);
  }

  lemma CountMessageResultError(n: MessageResult)
    ensures Written(MessageResultSlots(n)[2..]) == Present(n.error)
  {
    var s := MessageResultSlots(n);
    assert s[2] == Skippable("error", n.error, ErrorReasonJson);
    SkipNoneStep(s, 2);
    assert s[3..] == [];
  }


  /** Each set field is written under its own name. */
  lemma MessageResultFieldsWritten(n: MessageResult)
    ensures Get(WriteMessageResult(n).fields, "message_id") == Lift(n.message_id, Str)
    ensures Get(WriteMessageResult(n).fields, "registration_id") == Lift(n.registration_id, Str)
    ensures Get(WriteMessageResult(n).fields, "error") == Lift(n.error, ErrorReasonJson)
  {
    MessageResultMessageId(n);
    MessageResultRegistrationId(n);
    MessageResultError(n);
  }

  /** The object has no key twice and no key outside the field names. */
  lemma MessageResultKeys(n: MessageResult)
    ensures Distinct(Keys(WriteMessageResult(n).fields))
    ensures forall k :: k in Keys(WriteMessageResult(n).fields) ==> k in MessageResultFields
  {
    MessageResultFieldsDistinct();
    MessageResultSlotNames(n);
    SkipNoneDistinct(MessageResultSlots(n));
  }

  /** The serializer writes one entry per set field. */
  lemma MessageResultWritten(n: MessageResult)
    ensures Written(MessageResultSlots(n)) == MessageResultSetFields(n)
  {
    CountMessageResultMessageId(n);
    CountMessageResultRegistrationId(n);
    CountMessageResultError(n);
  }

  /** One key per set field, so a result with nothing set is `{}`. */
  lemma MessageResultKeyCount(n: MessageResult)
    ensures |WriteMessageResult(n).fields| == MessageResultSetFields(n)
    ensures MessageResultSetFields(n) == 0 ==> WriteMessageResult(n) == JObject([])
  {
    MessageResultWritten(n);
  }

  /** Each field's reader inverts its encoder. */
  lemma MessageResultReadsBack(n: MessageResult)
    ensures ReadOptionField(Lift(n.message_id, Str), ReadString) == Some(n.message_id)
    ensures ReadOptionField(Lift(n.registration_id, Str), ReadString) == Some(n.registration_id)
    ensures ReadOptionField(Lift(n.error, ErrorReasonJson), ReadErrorReason) == Some(n.error)
  {
    forall x ensures ReadString(Str(x)) == Some(x) && Str(x) != JNull {
    }
    forall x ensures ReadErrorReason(ErrorReasonJson(x)) == Some(x) && ErrorReasonJson(x) != JNull {
      ErrorReasonRoundTrip(x);
    }
    ReadOptionFieldLift(n.message_id, Str, ReadString);
    ReadOptionFieldLift(n.registration_id, Str, ReadString);
    ReadOptionFieldLift(n.error, ErrorReasonJson, ReadErrorReason);
  }

  /** Any object holding each field's encoding under its name decodes to the record. */
  lemma MessageResultDecodeFrom(j: Json, n: MessageResult)
    requires j.JObject?
    requires AtMostOnce(j.fields, MessageResultFields)
    requires Get(j.fields, "message_id") == Lift(n.message_id, Str)
    requires Get(j.fields, "registration_id") == Lift(n.registration_id, Str)
    requires Get(j.fields, "error") == Lift(n.error, ErrorReasonJson)
    ensures DecodeMessageResult(j) == Some(n)
  {
    MessageResultReadsBack(n);
  }

  /** Round trip: the wire form reads back as the same result. */
  lemma MessageResultRoundTrip(n: MessageResult)
    ensures DecodeMessageResult(WriteMessageResult(n)) == Some(n)
  {
    MessageResultFieldsWritten(n);
    MessageResultKeys(n);
    DistinctAtMostOnce(WriteMessageResult(n).fields, MessageResultFields);
    MessageResultDecodeFrom(WriteMessageResult(n), n);
  }

  // ---- the list of results ----

  function EncodeResults(rs: seq<MessageResult>): (j: Json)
    ensures j.JArray? && |j.items| == |rs|
    ensures forall i :: 0 <= i < |rs| ==> j.items[i] == WriteMessageResult(rs[i])
  {
    JArray(seq(|rs|, i requires 0 <= i < |rs| => WriteMessageResult(rs[i])))
  }

  /** A `Vec<MessageResult>`: an array whose every item reads as a result. */
  function ReadResults(j: Json): Option<seq<MessageResult>> {
    if j.JArray? then ReadResultItems(j.items) else None
  }

  function ReadResultItems(items: seq<Json>): (r: Option<seq<MessageResult>>)
    ensures r.Some? ==> |r.value| == |items|
    ensures r.Some? ==> forall i :: 0 <= i < |items| ==> DecodeMessageResult(items[i]) == Some(r.value[i])
    ensures r.None? ==> exists i :: 0 <= i < |items| && DecodeMessageResult(items[i]).None?
  {
    if |items| == 0 then Some([])
    else
      var first := DecodeMessageResult(items[0]);
      var rest := ReadResultItems(items[1..]);
      if first.None? then None
      else if rest.None? then
        var i :| 0 <= i < |items[1..]| && DecodeMessageResult(items[1..][i]).None?;
        assert DecodeMessageResult(items[i + 1]).None?;
        None
      else
        var r := [first.value] + rest.value;
        assert forall i :: 1 <= i < |items| ==> items[i] == items[1..][i - 1];
        Some(r)
  }

  /** An array of written results reads back as the same list. */
  lemma ResultsRoundTrip(rs: seq<MessageResult>)
    ensures ReadResults(EncodeResults(rs)) == Some(rs)
  {
    var items := EncodeResults(rs).items;
    var r := ReadResultItems(items);
    forall i | 0 <= i < |rs|
      ensures DecodeMessageResult(items[i]) == Some(rs[i])
    {
      MessageResultRoundTrip(rs[i]);
    }
    assert forall i :: 0 <= i < |rs| ==> r.value[i] == rs[i];
    assert r.value == rs;
  }

  // ---- the response ----

  datatype Response = Response(
    message_id: Option<u64>,
    error: Option<ErrorReason>,
    multicast_id: Option<i64>,
    success: Option<u64>,
    failure: Option<u64>,
    canonical_ids: Option<u64>,
    results: Option<seq<MessageResult>>)

  const ResponseFields: seq<string> := ["message_id", "error", "multicast_id", "success", "failure", "canonical_ids", "results"]

  function ResponseSlots(n: Response): seq<Slot> {
    [ Skippable("message_id", n.message_id, U64),
      Skippable("error", n.error, ErrorReasonJson),
      Skippable("multicast_id", n.multicast_id, I64),
      Skippable("success", n.success, U64),
      Skippable("failure", n.failure, U64),
      Skippable("canonical_ids", n.canonical_ids, U64),
      Skippable("results", n.results, EncodeResults) ]
  }

  lemma ResponseFieldsDistinct()
    ensures Distinct(ResponseFields)
  {
  }

  lemma ResponseSlotNames(n: Response)
    ensures Names(ResponseSlots(n)) == ResponseFields
  {
  }

  /** The number of fields that are set. */
  function ResponseSetFields(n: Response): nat {
    Present(n.message_id)
    + Present(n.error)
    + Present(n.multicast_id)
    + Present(n.success)
    + Present(n.failure)
    + Present(n.canonical_ids)
    + Present(n.results)
  }

  /** The reference body: the set fields only. */
  function WriteResponse(n: Response): (j: Json)
    ensures j.JObject?
  {
    JObject(SkipNone(ResponseSlots(n)))
  }

  /** `#[derive(Deserialize)]`: every field is an `Option`, so a missing key
      and `null` both read as `None`; unknown keys are ignored; a known key given
      twice is an error. */
  function DecodeResponse(j: Json): Option<Response> {
    if !j.JObject? || !AtMostOnce(j.fields, ResponseFields) then None
    else
      var message_id :- ReadOptionField(Get(j.fields, "message_id"), ReadU64);
      var error :- ReadOptionField(Get(j.fields, "error"), ReadErrorReason);
      var multicast_id :- ReadOptionField(Get(j.fields, "multicast_id"), ReadI64);
      var success :- ReadOptionField(Get(j.fields, "success"), ReadU64);
      var failure :- ReadOptionField(Get(j.fields, "failure"), ReadU64);
      var canonical_ids :- ReadOptionField(Get(j.fields, "canonical_ids"), ReadU64);
      var results :- ReadOptionField(Get(j.fields, "results"), ReadResults);
      Some(Response(message_id, error, multicast_id, success, failure, canonical_ids, results))
  }

  // ---- Response: one lemma per field ----

  /** Position `i` of the slot list is found under its own name. */
  lemma ResponseSlotAt(n: Response, i: nat)
    requires i < 7
    ensures Get(WriteResponse(n).fields, ResponseSlots(n)[i].name) == ResponseSlots(n)[i].value
  {
    ResponseFieldsDistinct();
    ResponseSlotNames(n);
    LookupSlot(ResponseSlots(n), i);
  }

  lemma ResponseMessageId(n: Response)
    ensures Get(WriteResponse(n).fields, "message_id") == Lift(n.message_id, U64)
  {
    var s := ResponseSlots(n);
    assert s[0] == Skippable("message_id", n.message_id, U64);
    ResponseSlotAt(n, 0);
  }

  lemma CountResponseMessageId(n: Response)
    ensures Written(ResponseSlots(n)) == Present(n.message_id) + Written(ResponseSlots(n)[1..])
  {
    var s := ResponseSlots(n);
    assert s[0] == Skippable("message_id", n.message_id, U64);
    SkipNoneStep(s, 0);
    assert s[0..] == s;
  }

  lemma ResponseError(n: Response)
    ensures Get(WriteResponse(n).fields, "error") == Lift(n.error, ErrorReasonJson)
  {
    var s := ResponseSlots(n);
    assert s[1] == Skippable("error", n.error, ErrorReasonJson);
    ResponseSlotAt(n, 1);
  }

  lemma CountResponseError(n: Response)
    ensures Written(ResponseSlots(n)[1..]) == Present(n.error) + Written(ResponseSlots(n)[2..])
  {
    var s := ResponseSlots(n);
    assert s[1] == Skippable("error", n.error, ErrorReasonJson);
    SkipNoneStep(s, 1);
  }

  lemma ResponseMulticastId(n: Response)
    ensures Get(WriteResponse(n).fields, "multicast_id") == Lift(n.multicast_id, I64)
  {
    var s := ResponseSlots(n);
    assert s[2] == Skippable("multicast_id", n.multicast_id, I64);
    ResponseSlotAt(n, 2);
  }

  lemma CountResponseMulticastId(n: Response)
    ensures Written(ResponseSlots(n)[2..]) == Present(n.multicast_id) + Written(ResponseSlots(n)[3..])
  {
    var s := ResponseSlots(n);
    assert s[2] == Skippable("multicast_id", n.multicast_id, I64);
    SkipNoneStep(s, 2);
  }

  lemma ResponseSuccess(n: Response)
    ensures Get(WriteResponse(n).fields, "success") == Lift(n.success, U64)
  {
    var s := ResponseSlots(n);
    assert s[3] == Skippable("success", n.success, U64);
    ResponseSlotAt(n, 3);
  }

  lemma CountResponseSuccess(n: Response)
    ensures Written(ResponseSlots(n)[3..]) == Present(n.success) + Written(ResponseSlots(n)[4..])
  {
    var s := ResponseSlots(n);
    assert s[3] == Skippable("success", n.success, U64);
    SkipNoneStep(s, 3);
  }

  lemma ResponseFailure(n: Response)
    ensures Get(WriteResponse(n).fields, "failure") == Lift(n.failure, U64)
  {
    var s := ResponseSlots(n);
    assert s[4] == Skippable("failure", n.failure, U64);
    ResponseSlotAt(n, 4);
  }

  lemma CountResponseFailure(n: Response)
    ensures Written(ResponseSlots(n)[4..]) == Present(n.failure) + Written(ResponseSlots(n)[5..])
  {
    var s := ResponseSlots(n);
    assert s[4] == Skippable("failure", n.failure, U64);
    SkipNoneStep(s, 4);
  }

  lemma ResponseCanonicalIds(n: Response)
    ensures Get(WriteResponse(n).fields, "canonical_ids") == Lift(n.canonical_ids, U64)
  {
    var s := ResponseSlots(n);
    assert s[5] == Skippable("canonical_ids", n.canonical_ids, U64);
    ResponseSlotAt(n, 5);
  }

  lemma CountResponseCanonicalIds(n: Response)
    ensures Written(ResponseSlots(n)[5..]) == Present(n.canonical_ids) + Written(ResponseSlots(n)[6..])
  {
    var s := ResponseSlots(n);
    assert s[5] == Skippable("canonical_ids", n.canonical_ids, U64);
    SkipNoneStep(s, 5);
  }

  lemma ResponseResults(n: Response)
    ensures Get(WriteResponse(n).fields, "results") == Lift(n.results, EncodeResults)
  {
    var s := ResponseSlots(n);
    assert s[6] == Skippable("results", n.results, EncodeResults);
    ResponseSlotAt(n, 6);
  }

  lemma CountResponseResults(n: Response)
    ensures Written(ResponseSlots(n)[6..]) == Present(n.results)
  {
    var s := ResponseSlots(n);
    assert s[6] == Skippable("results", n.results, EncodeResults);
    SkipNoneStep(s, 6);
    assert s[7..] == [];
  }


  /** Each set field is written under its own name. */
  lemma ResponseFieldsWritten(n: Response)
    ensures Get(WriteResponse(n).fields, "message_id") == Lift(n.message_id, U64)
    ensures Get(WriteResponse(n).fields, "error") == Lift(n.error, ErrorReasonJson)
    ensures Get(WriteResponse(n).fields, "multicast_id") == Lift(n.multicast_id, I64)
    ensures Get(WriteResponse(n).fields, "success") == Lift(n.success, U64)
    ensures Get(WriteResponse(n).fields, "failure") == Lift(n.failure, U64)
    ensures Get(WriteResponse(n).fields, "canonical_ids") == Lift(n.canonical_ids, U64)
    ensures Get(WriteResponse(n).fields, "results") == Lift(n.results, EncodeResults)
  {
    ResponseMessageId(n);
    ResponseError(n);
    ResponseMulticastId(n);
    ResponseSuccess(n);
    ResponseFailure(n);
    ResponseCanonicalIds(n);
    ResponseResults(n);
  }

  /** The object has no key twice and no key outside the field names. */
  lemma ResponseKeys(n: Response)
    ensures Distinct(Keys(WriteResponse(n).fields))
    ensures forall k :: k in Keys(WriteResponse(n).fields) ==> k in ResponseFields
  {
    ResponseFieldsDistinct();
    ResponseSlotNames(n);
    SkipNoneDistinct(ResponseSlots(n));
  }

  /** The serializer writes one entry per set field. */
  lemma ResponseWritten(n: Response)
    ensures Written(ResponseSlots(n)) == ResponseSetFields(n)
  {
    CountResponseMessageId(n);
    CountResponseError(n);
    CountResponseMulticastId(n);
    CountResponseSuccess(n);
    CountResponseFailure(n);
    CountResponseCanonicalIds(n);
    CountResponseResults(n);
  }

  /** One key per set field, so a response with nothing set is `{}`. */
  lemma ResponseKeyCount(n: Response)
    ensures |WriteResponse(n).fields| == ResponseSetFields(n)
    ensures ResponseSetFields(n) == 0 ==> WriteResponse(n) == JObject([])
  {
    ResponseWritten(n);
  }

  /** Each field's reader inverts its encoder. */
  lemma ResponseReadsBack(n: Response)
    ensures ReadOptionField(Lift(n.message_id, U64), ReadU64) == Some(n.message_id)
    ensures ReadOptionField(Lift(n.error, ErrorReasonJson), ReadErrorReason) == Some(n.error)
    ensures ReadOptionField(Lift(n.multicast_id, I64), ReadI64) == Some(n.multicast_id)
    ensures ReadOptionField(Lift(n.success, U64), ReadU64) == Some(n.success)
    ensures ReadOptionField(Lift(n.failure, U64), ReadU64) == Some(n.failure)
    ensures ReadOptionField(Lift(n.canonical_ids, U64), ReadU64) == Some(n.canonical_ids)
    ensures ReadOptionField(Lift(n.results, EncodeResults), ReadResults) == Some(n.results)
  {
    forall x: u64 ensures ReadU64(U64(x)) == Some(x) && U64(x) != JNull {
    }
    forall x: i64 ensures ReadI64(I64(x)) == Some(x) && I64(x) != JNull {
    }
    forall x ensures ReadErrorReason(ErrorReasonJson(x)) == Some(x) && ErrorReasonJson(x) != JNull {
      ErrorReasonRoundTrip(x);
    }
    forall x ensures ReadResults(EncodeResults(x)) == Some(x) && EncodeResults(x) != JNull {
      ResultsRoundTrip(x);
    }
    ReadOptionFieldLift(n.message_id, U64, ReadU64);
    ReadOptionFieldLift(n.error, ErrorReasonJson, ReadErrorReason);
    ReadOptionFieldLift(n.multicast_id, I64, ReadI64);
    ReadOptionFieldLift(n.success, U64, ReadU64);
    ReadOptionFieldLift(n.failure, U64, ReadU64);
    ReadOptionFieldLift(n.canonical_ids, U64, ReadU64);
    ReadOptionFieldLift(n.results, EncodeResults, ReadResults);
  }

  /** Any object holding each field's encoding under its name decodes to the record. */
  lemma ResponseDecodeFrom(j: Json, n: Response)
    requires j.JObject?
    requires AtMostOnce(j.fields, ResponseFields)
    requires Get(j.fields, "message_id") == Lift(n.message_id, U64)
    requires Get(j.fields, "error") == Lift(n.error, ErrorReasonJson)
    requires Get(j.fields, "multicast_id") == Lift(n.multicast_id, I64)
    requires Get(j.fields, "success") == Lift(n.success, U64)
    requires Get(j.fields, "failure") == Lift(n.failure, U64)
    requires Get(j.fields, "canonical_ids") == Lift(n.canonical_ids, U64)
    requires Get(j.fields, "results") == Lift(n.results, EncodeResults)
    ensures DecodeResponse(j) == Some(n)
  {
    ResponseReadsBack(n);
  }

  /** Round trip: the wire form reads back as the same response. */
  lemma ResponseRoundTrip(n: Response)
    ensures DecodeResponse(WriteResponse(n)) == Some(n)
  {
    ResponseFieldsWritten(n);
    ResponseKeys(n);
    DistinctAtMostOnce(WriteResponse(n).fields, ResponseFields);
    ResponseDecodeFrom(WriteResponse(n), n);
  }

  /** Every field is optional: the empty object is a response with nothing set. */
  lemma EmptyResponse()
    ensures DecodeResponse(JObject([])) == Some(Response(None, None, None, None, None, None, None))
  {
  }

  /** The same error name at the top level and inside the first result reads as
      the same reason in both places. */
  lemma ErrorNameInBothPlaces(e: ErrorReason)
    ensures DecodeResponse(JObject([
              ("error", JString(ErrorReasonName(e))),
              ("results", JArray([JObject([("error", JString(ErrorReasonName(e)))])]))]))
         == Some(Response(None, Some(e), None, None, None, None, Some([MessageResult(None, None, Some(e))])))
  {
    var result := MessageResult(None, None, Some(e));
    var inner := JObject([("error", JString(ErrorReasonName(e)))]);
    var outer := [("error", JString(ErrorReasonName(e))), ("results", JArray([inner]))];
    ErrorReasonRoundTrip(e);
    ErrorOnlyResults(e);
    assert Keys(outer) == ["error", "results"];
    DistinctAtMostOnce(outer, ResponseFields);
    assert Get(outer, "error") == Some(JString(ErrorReasonName(e)));
    assert Get(outer, "results") == Some(JArray([inner]));
    assert ReadOptionField(Get(outer, "error"), ReadErrorReason) == Some(Some(e));
    assert ReadOptionField(Get(outer, "results"), ReadResults) == Some(Some([result]));
  }

  /** A result list holding one result with only an error name reads as that
      one result. */
  lemma ErrorOnlyResults(e: ErrorReason)
    ensures ReadResultItems([JObject([("error", JString(ErrorReasonName(e)))])]) == Some([MessageResult(None, None, Some(e))])
  {
    ErrorReasonRoundTrip(e);
    var inner := JObject([("error", JString(ErrorReasonName(e)))]);
    DistinctAtMostOnce(inner.fields, MessageResultFields);
    assert Keys(inner.fields) == ["error"];
    assert Get(inner.fields, "message_id").None? && Get(inner.fields, "registration_id").None?;
    assert Get(inner.fields, "error") == Some(JString(ErrorReasonName(e)));
    assert ReadOptionField(Get(inner.fields, "error"), ReadErrorReason) == Some(Some(e));
    assert DecodeMessageResult(inner) == Some(MessageResult(None, None, Some(e)));
    assert [inner][1..] == [];
    assert ReadResultItems([inner][1..]) == Some([]);
    var items := ReadResultItems([inner]);
    assert items.Some?;
    assert |items.value| == 1;
    assert items.value[0] == MessageResult(None, None, Some(e));
    assert items.value == [items.value[0]];
  }

}

=== FILE: retry_after.dfy ===
/** The `Retry-After` header value (src/client/response.rs): a delay in seconds
    or a moment, read by `RetryAfter::from_str`. Section 7.1.3 of RFC 7231
    allows either a number of seconds or an HTTP date. */
module RetryAfters {
  import opened Wrappers
  import opened Json
  import opened Decimal
  import Rfc2822

  /** How long to wait: a number of seconds (chrono's `Duration`, kept as its
      whole seconds) or a moment. */
  datatype RetryAfter = Delay(seconds: int) | DateTime(moment: Rfc2822.FixedOffsetDateTime)

  datatype RetryAfterParseError = IntParse | DateParse

  /** chrono's parse error; its kind is not modelled. */
  datatype ChronoParseError = ChronoParseError

  /** The largest number of seconds chrono's `Duration::seconds` accepts without
      panicking: the duration must fit in an `i64` count of milliseconds. */
  const MAX_DELAY_SECONDS: int := I64_MAX / 1000

  /** The numbers of seconds `Duration::seconds` turns into a duration; on any
      other it panics. */
  predicate InDurationRange(n: int) {
    -MAX_DELAY_SECONDS <= n <= MAX_DELAY_SECONDS
  }

  // ---- `str::parse::<i64>` ----

  /** A magnitude with its sign. */
  function Signed(negative: bool, magnitude: nat): int {
    if negative then -(magnitude as int) else magnitude as int
  }

  /** What Rust's `i64::from_str` accepts: an optional `+` or `-`, then one or
      more ASCII digits and nothing else, with a value that fits in an `i64`. */
  function I64Text(s: string): (r: Option<int>)
    ensures r.Some? ==> I64_MIN <= r.value <= I64_MAX
    ensures r.Some? ==> |s| > 0 && (IsDigit(s[0]) || s[0] == '+' || s[0] == '-')
  {
    var signed := |s| > 0 && (s[0] == '-' || s[0] == '+');
    var digits := if signed then s[1..] else s;
    if |digits| == 0 || !AllDigits(digits) then None
    else
      var v := Signed(signed && s[0] == '-', DigitsValue(digits));
      if I64_MIN <= v <= I64_MAX then Some(v) else None
  }

  /** The integer reading as core's `from_str_radix` performs it: the digits are
      accumulated left to right with checked multiplication and addition (or
      subtraction, for a negative number), and the first overflow ends the
      parse. */
  method ParseI64(s: string) returns (r: Option<int>)
    ensures r == I64Text(s)
  {
    if |s| == 0 {
      return None;
    }
    var negative := s[0] == '-';
    var start := if s[0] == '-' || s[0] == '+' then 1 else 0;
    if start == |s| {
      return None;
    }
    var acc := 0;
    var i := start;
    while i < |s|
      invariant start <= i <= |s|
      invariant AllDigits(s[start..i])
      invariant acc == Signed(negative, DigitsValue(s[start..i]))
      invariant I64_MIN <= acc <= I64_MAX
    {
      var c := s[i];
      if !IsDigit(c) {
        assert s[start..][i - start] == c;
        return None;
      }
      DigitsValueSnoc(s[start..i], c);
      assert s[start..i + 1] == s[start..i] + [c];
      var next := if negative then acc * 10 - DigitValue(c) else acc * 10 + DigitValue(c);
      if next < I64_MIN || next > I64_MAX {
        OverflowIsFinal(s, start, i + 1);
        return None;
      }
      acc := next;
      i := i + 1;
    }
    assert s[start..i] == s[start..];
    return Some(acc);
  }

  /** Once the digits read so far are out of range, the whole string is not an
      `i64`: more digits only make the magnitude larger. */
  lemma OverflowIsFinal(s: string, start: nat, i: nat)
    requires start <= i <= |s| && start < |s|
    requires start == (if s[0] == '-' || s[0] == '+' then 1 else 0)
    requires AllDigits(s[start..i])
    requires !(I64_MIN <= Signed(s[0] == '-', DigitsValue(s[start..i])) <= I64_MAX)
    ensures I64Text(s).None?
  {
    var digits := s[start..];
    if AllDigits(digits) {
      DigitsValuePrefix(digits, i - start);
      assert digits[..i - start] == s[start..i];
    }
  }

  // ---- `RetryAfter::from_str` ----

  /** `RetryAfter::from_str` as written: the integer reading's error becomes
      `IntParse`, a number goes through `Duration::seconds` into a `Delay`;
      `or_else` then discards any error and tries the RFC 2822 reading, whose
      error becomes `DateParse`. chrono's parser is the parameter `rfc2822`.
      `None` stands for the panic of `Duration::seconds` on a number outside
      its range, which a server reaches with one `Retry-After` header. */
  function FromStrAsWritten(s: string, rfc2822: string -> Option<Rfc2822.FixedOffsetDateTime>): (r: Option<Result<RetryAfter, RetryAfterParseError>>)
    ensures r.None? <==> I64Text(s).Some? && !InDurationRange(I64Text(s).value)
    ensures r.Some? ==> r.value == FromStr(s, rfc2822)
  {
    var integer: Result<int, RetryAfterParseError> := if I64Text(s).Some? then Ok(I64Text(s).value) else Err(IntParse);
    if integer.Ok? && !InDurationRange(integer.value) then None
    else
      var delay: Result<RetryAfter, RetryAfterParseError> := if integer.Ok? then Ok(Delay(integer.value)) else Err(integer.error);
      var either: Result<RetryAfter, ChronoParseError> :=
        if delay.Ok? then Ok(delay.value)
        else if rfc2822(s).Some? then Ok(DateTime(rfc2822(s).value))
        else Err(ChronoParseError);
      Some(if either.Ok? then Ok(either.value) else Err(DateParse))
  }

  /** `RetryAfter::from_str` as evidently intended, total on every text: a
      number `Duration` cannot hold is refused like a non-number (as
      `Duration::try_seconds` would report it), so `or_else` hands it to the
      date parser. The rest of the model reads headers with this function. */
  function FromStr(s: string, rfc2822: string -> Option<Rfc2822.FixedOffsetDateTime>): (r: Result<RetryAfter, RetryAfterParseError>)
    ensures r.Err? ==> r.error == DateParse
    ensures r.Ok? && r.value.Delay? <==> I64Text(s).Some? && InDurationRange(I64Text(s).value)
    ensures r.Ok? && r.value.Delay? ==> r.value.seconds == I64Text(s).value
    ensures !(I64Text(s).Some? && InDurationRange(I64Text(s).value)) ==> (r.Ok? <==> rfc2822(s).Some?)
    ensures r.Ok? && r.value.DateTime? ==> rfc2822(s) == Some(r.value.moment)
  {
    var integer: Result<int, RetryAfterParseError> := if I64Text(s).Some? then Ok(I64Text(s).value) else Err(IntParse);
    var delay: Result<RetryAfter, RetryAfterParseError> :=
      if integer.Ok? && InDurationRange(integer.value) then Ok(Delay(integer.value)) else Err(IntParse);
    var either: Result<RetryAfter, ChronoParseError> :=
      if delay.Ok? then Ok(delay.value)
      else if rfc2822(s).Some? then Ok(DateTime(rfc2822(s).value))
      else Err(ChronoParseError);
    if either.Ok? then Ok(either.value) else Err(DateParse)
  }

  /** The quirk of `or_else`: `IntParse` is never returned, whatever the text
      and whatever the date parser does. */
  lemma IntParseNeverReturned(s: string, rfc2822: string -> Option<Rfc2822.FixedOffsetDateTime>)
    ensures FromStr(s, rfc2822) != Err(IntParse)
  {
  }

  /** The integer reading comes first: for a number the date parser is never
      consulted, so any two date parsers give the same result. */
  lemma IntegerFirst(s: string, p: string -> Option<Rfc2822.FixedOffsetDateTime>, q: string -> Option<Rfc2822.FixedOffsetDateTime>)
    requires I64Text(s).Some? && InDurationRange(I64Text(s).value)
    ensures FromStr(s, p) == FromStr(s, q) == Ok(Delay(I64Text(s).value))
  {
  }

  // ---- the decimal form of a delay reads back ----

  /** An integer in decimal, `-` first when negative, as a server writes it. */
  function ShowInt(n: int): (s: string)
    ensures |s| > 0
  {
    if n < 0 then "-" + ShowNat(-n) else ShowNat(n)
  }

  lemma ShowIntReadsBack(n: int)
    requires I64_MIN <= n <= I64_MAX
    ensures I64Text(ShowInt(n)) == Some(n)
  {
    var s := ShowInt(n);
    if n < 0 {
      assert s[1..] == ShowNat(-n);
    } else {
      assert IsDigit(s[0]);
    }
  }

  /** Round trip: a delay written in decimal is read as that many seconds,
      whichever date parser is given. */
  lemma DelayRoundTrip(n: int, rfc2822: string -> Option<Rfc2822.FixedOffsetDateTime>)
    requires InDurationRange(n)
    ensures FromStr(ShowInt(n), rfc2822) == Ok(Delay(n))
  {
    ShowIntReadsBack(n);
  }

  /** The header value `420` is a delay of 420 seconds. */
  lemma SecondsExample(rfc2822: string -> Option<Rfc2822.FixedOffsetDateTime>)
    ensures I64Text("420") == Some(420) && FromStr("420", rfc2822) == Ok(Delay(420))
  {
    DelayRoundTrip(420, rfc2822);
    assert ShowNat(42) == "42" && ShowNat(420) == "420";
  }

  /** Whitespace is not part of an integer: ` 420` is handed to the date
      parser, and with a date parser that refuses it the result is
      `DateParse`. */
  lemma PaddedSecondsRefused()
    ensures I64Text(" 420").None? && FromStr(" 420", Rfc2822.Parse) == Err(DateParse)
  {
    assert !IsDigit(" 420"[0]);
  }

  /** A date written by the subset reads back as that moment. */
  lemma DateRoundTrip(d: Rfc2822.FixedOffsetDateTime)
    requires Rfc2822.Valid(d)
    ensures I64Text(Rfc2822.Format(d)).None? && FromStr(Rfc2822.Format(d), Rfc2822.Parse) == Ok(DateTime(d))
  {
    var p := Rfc2822.Render(d);
    Rfc2822.JoinHead(p);
    assert Rfc2822.Format(d)[0] == p.dayName[0];
    Rfc2822.FormatRoundTrip(d);
  }

  /** The HTTP specification's example date is read as a moment, not a delay. */
  lemma DateExample()
    ensures I64Text(Rfc2822.ExampleText).None? && FromStr(Rfc2822.ExampleText, Rfc2822.Parse) == Ok(DateTime(Rfc2822.FixedOffsetDateTime(1994, 11, 6, 8, 49, 37, 0)))
  {
    assert Rfc2822.ExampleText[0] == 'S';
    Rfc2822.ExampleDate();
  }

  // ---- a delay `Duration` cannot hold ----

  /** One second past what `Duration::seconds` accepts: `i64::MAX / 1000 + 1`. */
  const OversizedDelayText: string := "9223372036854776"

  /** The digits of `OversizedDelayText` are worth `i64::MAX / 1000 + 1`. */
  lemma OversizedDelayValue()
    ensures AllDigits(OversizedDelayText) && DigitsValue(OversizedDelayText) == MAX_DELAY_SECONDS + 1
  {
    var t := OversizedDelayText;
    assert t[..0] == [];
    DigitsValueStep(t, 0); DigitsValueStep(t, 1); DigitsValueStep(t, 2); DigitsValueStep(t, 3);
    DigitsValueStep(t, 4); DigitsValueStep(t, 5); DigitsValueStep(t, 6); DigitsValueStep(t, 7);
    DigitsValueStep(t, 8); DigitsValueStep(t, 9); DigitsValueStep(t, 10); DigitsValueStep(t, 11);
    DigitsValueStep(t, 12); DigitsValueStep(t, 13); DigitsValueStep(t, 14); DigitsValueStep(t, 15);
    assert t[..16] == t;
  }

  /** `OversizedDelayText` is the decimal form of `i64::MAX / 1000 + 1`, so
      the panic below is one instance of `OversizedDelayRefused`'s family. */
  lemma OversizedDelayShown()
    ensures ShowInt(MAX_DELAY_SECONDS + 1) == OversizedDelayText
  {
    OversizedDelayValue();
    assert OversizedDelayText[0] == '9';
    ShowNatUnique(OversizedDelayText);
  }

  /** As written, a server that answers `Retry-After: 9223372036854776` makes
      `from_str` panic: the text is a valid `i64`, one second beyond the range
      of `Duration::seconds`. */
  lemma OversizedDelayPanics(rfc2822: string -> Option<Rfc2822.FixedOffsetDateTime>)
    ensures I64Text(OversizedDelayText) == Some(MAX_DELAY_SECONDS + 1)
    ensures FromStrAsWritten(OversizedDelayText, rfc2822).None?
  {
    OversizedDelayValue();
    assert OversizedDelayText[0] == '9';
  }

  /** The evidently intended reading never panics and never yields a delay
      `Duration` cannot hold: every `i64` beyond its range is refused as a
      number, and is `DateParse` unless the date parser accepts the text. */
  lemma OversizedDelayRefused(n: int, rfc2822: string -> Option<Rfc2822.FixedOffsetDateTime>)
    requires I64_MIN <= n <= I64_MAX && !InDurationRange(n)
    ensures I64Text(ShowInt(n)) == Some(n) && FromStrAsWritten(ShowInt(n), rfc2822).None?
    ensures !(FromStr(ShowInt(n), rfc2822).Ok? && FromStr(ShowInt(n), rfc2822).value.Delay?)
    ensures rfc2822(ShowInt(n)).None? ==> FromStr(ShowInt(n), rfc2822) == Err(DateParse)
  {
    ShowIntReadsBack(n);
  }
}

=== FILE: rfc2822.dfy ===
/** A subset of the date-time format of section 3.3 of RFC 2822, the form an
    HTTP `Retry-After` header takes when it names a moment (section 7.1.3 of
    RFC 7231): `Sun, 06 Nov 1994 08:49:37 GMT`. The real parser is chrono's
    `DateTime::parse_from_rfc2822`; this subset reads the fixed-width form
    with a three-letter day and month, a four-digit year, seconds, and a zone
    that is `GMT` or a numeric `+hhmm`/`-hhmm` offset. */
module Rfc2822 {
  import opened Wrappers
  import opened Decimal

  /** A moment as chrono's `DateTime<FixedOffset>` holds it: the local
      calendar date and time, and the offset east of UTC in seconds. */
  datatype FixedOffsetDateTime = FixedOffsetDateTime(
    year: int, month: int, day: int,
    hour: int, minute: int, second: int,
    offset: int)

  const DayNames: seq<string> := ["Sun", "Mon", "Tue", "Wed", "Thu", "Fri", "Sat"]
  const MonthNames: seq<string> := ["Jan", "Feb", "Mar", "Apr", "May", "Jun", "Jul", "Aug", "Sep", "Oct", "Nov", "Dec"]

  predicate IsLeapYear(y: int) {
    y % 4 == 0 && (y % 100 != 0 || y % 400 == 0)
  }

  function DaysInMonth(y: int, m: int): int
    requires 1 <= m <= 12
  {
    if m == 2 then (if IsLeapYear(y) then 29 else 28)
    else if m == 4 || m == 6 || m == 9 || m == 11 then 30
    else 31
  }

  /** The day of the week in the proleptic Gregorian calendar, 0 for Sunday. */
  function Weekday(y: int, m: int, d: int): (w: nat)
    requires 1 <= m <= 12
    ensures w < 7
  {
    var shift := [0, 3, 2, 5, 0, 3, 5, 1, 4, 6, 2, 4];
    var y' := if m < 3 then y - 1 else y;
    (y' + y' / 4 - y' / 100 + y' / 400 + shift[m - 1] + d) % 7
  }

  /** A date-time this subset can write: a real calendar day in years 0 to
      9999, a time without leap second, and a whole-minute offset of less
      than a day. */
  predicate Valid(d: FixedOffsetDateTime) {
    && 0 <= d.year <= 9999
    && 1 <= d.month <= 12
    && 1 <= d.day <= DaysInMonth(d.year, d.month)
    && 0 <= d.hour < 24 && 0 <= d.minute < 60 && 0 <= d.second < 60
    && d.offset % 60 == 0 && -86400 < d.offset < 86400
  }

  /** The position of `s` among `names`, if it is one of them. */
  function IndexOfName(names: seq<string>, s: string, from: nat := 0): (r: Option<nat>)
    requires from <= |names|
    ensures r.Some? ==> from <= r.value < |names| && names[r.value] == s
    ensures r.None? ==> forall i :: from <= i < |names| ==> names[i] != s
    decreases |names| - from
  {
    if from == |names| then None
    else if names[from] == s then Some(from)
    else IndexOfName(names, s, from + 1)
  }

  /** A name that occurs once is found at its own position. */
  lemma IndexOfUniqueName(names: seq<string>, i: nat)
    requires i < |names|
    requires forall j :: 0 <= j < |names| && j != i ==> names[j] != names[i]
    ensures IndexOfName(names, names[i]) == Some(i)
  {
  }

  function Number(s: string): (r: Option<nat>)
    ensures r.Some? ==> AllDigits(s) && r.value == DigitsValue(s)
  {
    if AllDigits(s) then Some(DigitsValue(s)) else None
  }

  /** `GMT`, or a sign and four digits `hhmm` with hours below 24 and minutes
      below 60. */
  function ParseZone(z: string): (r: Option<int>)
    ensures r.Some? ==> r.value % 60 == 0 && -86400 < r.value < 86400
  {
    if z == "GMT" then Some(0)
    else if |z| == 5 && (z[0] == '+' || z[0] == '-') && AllDigits(z[1..3]) && AllDigits(z[3..5]) then
      var hh := DigitsValue(z[1..3]);
      var mm := DigitsValue(z[3..5]);
      if hh < 24 && mm < 60 then
        var magnitude := hh * 3600 + mm * 60;
        Some(if z[0] == '-' then -magnitude else magnitude)
      else None
    else None
  }

  function FormatZone(offset: int): (z: string)
    requires offset % 60 == 0 && -86400 < offset < 86400
    ensures |z| == 5
  {
    var magnitude := if offset < 0 then -offset else offset;
    (if offset < 0 then "-" else "+") + Pad(magnitude / 3600, 2) + Pad(magnitude % 3600 / 60, 2)
  }

  lemma ZoneRoundTrip(offset: int)
    requires offset % 60 == 0 && -86400 < offset < 86400
    ensures ParseZone(FormatZone(offset)) == Some(offset)
  {
    var magnitude := if offset < 0 then -offset else offset;
    var z := FormatZone(offset);
    var hh := Pad(magnitude / 3600, 2);
    var mm := Pad(magnitude % 3600 / 60, 2);
    assert z[1..3] == hh && z[3..5] == mm;
    assert magnitude % 60 == 0;
    assert magnitude == magnitude / 3600 * 3600 + magnitude % 3600 / 60 * 60;
  }

  /** The text of each field, cut out at its fixed position. */
  datatype Pieces = Pieces(
    dayName: string, day: string, month: string, year: string,
    hour: string, minute: string, second: string, zone: string)

  predicate Widths(p: Pieces) {
    && |p.dayName| == 3 && |p.day| == 2 && |p.month| == 3 && |p.year| == 4
    && |p.hour| == 2 && |p.minute| == 2 && |p.second| == 2
  }

  /** The pieces with the separators of the format between them. */
  function Join(p: Pieces): string {
    p.dayName + ", " + p.day + " " + p.month + " " + p.year + " "
    + p.hour + ":" + p.minute + ":" + p.second + " " + p.zone
  }

  /** Cuts a string at the fixed positions, checking the separators. */
  function Split(s: string): (r: Option<Pieces>)
    ensures r.Some? ==> Widths(r.value)
  {
    if |s| < 26 || s[3..5] != ", " || s[7] != ' ' || s[11] != ' ' || s[16] != ' '
       || s[19] != ':' || s[22] != ':' || s[25] != ' ' then None
    else Some(Pieces(s[0..3], s[5..7], s[8..11], s[12..16], s[17..19], s[20..22], s[23..25], s[26..]))
  }

  /** Reads the value of each piece; the day name must be the one the date
      falls on, as chrono demands. */
  function Interpret(p: Pieces): (r: Option<FixedOffsetDateTime>)
    ensures r.Some? ==> Valid(r.value)
  {
    var weekday :- IndexOfName(DayNames, p.dayName);
    var day :- Number(p.day);
    var month :- IndexOfName(MonthNames, p.month);
    var year :- Number(p.year);
    var hour :- Number(p.hour);
    var minute :- Number(p.minute);
    var second :- Number(p.second);
    var offset :- ParseZone(p.zone);
    var d := FixedOffsetDateTime(year, month + 1, day, hour, minute, second, offset);
    if Valid(d) && Weekday(d.year, d.month, d.day) == weekday then Some(d) else None
  }

  /** Reads the subset. */
  function Parse(s: string): (r: Option<FixedOffsetDateTime>)
    ensures r.Some? ==> Valid(r.value)
  {
    var p :- Split(s);
    Interpret(p)
  }

  /** The pieces a date-time is written as, with a numeric zone. */
  function Render(d: FixedOffsetDateTime): (p: Pieces)
    requires Valid(d)
    ensures Widths(p)
  {
    Pieces(DayNames[Weekday(d.year, d.month, d.day)], Pad(d.day, 2), MonthNames[d.month - 1], Pad(d.year, 4),
           Pad(d.hour, 2), Pad(d.minute, 2), Pad(d.second, 2), FormatZone(d.offset))
  }

  /** Writes a date-time in the subset. */
  function Format(d: FixedOffsetDateTime): string
    requires Valid(d)
  {
    Join(Render(d))
  }

  // ---- cutting a joined string gives back its pieces ----

  lemma JoinHead(p: Pieces)
    requires Widths(p)
    ensures |Join(p)| >= 26
    ensures Join(p)[0..3] == p.dayName && Join(p)[3..5] == ", " && Join(p)[5..7] == p.day && Join(p)[7] == ' '
  {
  }

  lemma JoinDate(p: Pieces)
    requires Widths(p)
    ensures |Join(p)| >= 26
    ensures Join(p)[8..11] == p.month && Join(p)[11] == ' ' && Join(p)[12..16] == p.year && Join(p)[16] == ' '
  {
    var s := Join(p);
    var head := p.dayName + ", " + p.day + " ";
    assert s == head + (p.month + " " + p.year + " " + p.hour + ":" + p.minute + ":" + p.second + " " + p.zone);
  }

  lemma JoinTime(p: Pieces)
    requires Widths(p)
    ensures |Join(p)| >= 26
    ensures Join(p)[17..19] == p.hour && Join(p)[19] == ':' && Join(p)[20..22] == p.minute && Join(p)[22] == ':'
    ensures Join(p)[23..25] == p.second && Join(p)[25] == ' ' && Join(p)[26..] == p.zone
  {
    var s := Join(p);
    var head := p.dayName + ", " + p.day + " " + p.month + " " + p.year + " ";
    assert |head| == 17;
    assert s == head + (p.hour + ":" + p.minute + ":" + p.second + " " + p.zone);
  }

  lemma SplitJoin(p: Pieces)
    requires Widths(p)
    ensures Split(Join(p)) == Some(p)
  {
    JoinHead(p);
    JoinDate(p);
    JoinTime(p);
  }

  /** Reading the pieces of a date-time gives back the date-time. */
  lemma InterpretRender(d: FixedOffsetDateTime)
    requires Valid(d)
    ensures Interpret(Render(d)) == Some(d)
  {
    IndexOfUniqueName(DayNames, Weekday(d.year, d.month, d.day));
    IndexOfUniqueName(MonthNames, d.month - 1);
    ZoneRoundTrip(d.offset);
  }

  /** Round trip: every date-time the subset can write reads back unchanged. */
  lemma FormatRoundTrip(d: FixedOffsetDateTime)
    requires Valid(d)
    ensures Parse(Format(d)) == Some(d)
  {
    SplitJoin(Render(d));
    InterpretRender(d);
  }

  const ExampleText: string := "Sun, 06 Nov 1994 08:49:37 GMT"
  const ExamplePieces: Pieces := Pieces("Sun", "06", "Nov", "1994", "08", "49", "37", "GMT")

  lemma ExampleSplit()
    ensures Split(ExampleText) == Some(ExamplePieces)
  {
    ExampleJoined();
    SplitJoin(ExamplePieces);
  }

  /** The example is the example's pieces with the separators between them. */
  lemma ExampleJoined()
    ensures Join(ExamplePieces) == ExampleText
  {
    assert "Sun" + ", " + "06" + " " == "Sun, 06 ";
    assert "Sun, 06 " + "Nov" + " " + "1994" + " " == "Sun, 06 Nov 1994 ";
    assert "Sun, 06 Nov 1994 " + "08" + ":" + "49" + ":" + "37" == "Sun, 06 Nov 1994 08:49:37";
  }

  lemma ExampleNumbers()
    ensures Number("06") == Some(6) && Number("1994") == Some(1994)
    ensures Number("08") == Some(8) && Number("49") == Some(49) && Number("37") == Some(37)
  {
    assert DigitsValue("1994") == 1994 by {
      assert "1994"[..3] == "199" && "199"[..2] == "19" && "19"[..1] == "1";
    }
    TwoDigits("06");
    TwoDigits("08");
    TwoDigits("49");
    TwoDigits("37");
  }

  lemma TwoDigits(s: string)
    requires |s| == 2 && AllDigits(s)
    ensures DigitsValue(s) == DigitValue(s[0]) * 10 + DigitValue(s[1])
  {
    var first := s[..1];
    assert s[..|s| - 1] == first;
    assert first[..|first| - 1] == [] && first[0] == s[0];
    assert DigitsValue(first) == DigitValue(s[0]);
  }

  lemma ExampleValues()
    ensures Interpret(ExamplePieces) == Some(FixedOffsetDateTime(1994, 11, 6, 8, 49, 37, 0))
  {
    IndexOfUniqueName(DayNames, 0);
    IndexOfUniqueName(MonthNames, 10);
    ExampleNumbers();
    ExampleWeekday();
  }

  /** 6 November 1994 was a Sunday. */
  lemma ExampleWeekday()
    ensures Weekday(1994, 11, 6) == 0
  {
  }

  /** The example date of the HTTP specification reads as 6 November 1994,
      08:49:37 at offset zero. */
  lemma ExampleDate()
    ensures Parse(ExampleText) == Some(FixedOffsetDateTime(1994, 11, 6, 8, 49, 37, 0))
  {
    ExampleSplit();
    ExampleValues();
  }

  /** A day name that does not match the date is refused. */
  lemma WrongWeekdayRefused()
    ensures Interpret(ExamplePieces.(dayName := "Mon")).None?
  {
    IndexOfUniqueName(DayNames, 1);
    IndexOfUniqueName(MonthNames, 10);
    ExampleNumbers();
    ExampleWeekday();
  }
}

=== FILE: serde.dfy ===
/** What `#[derive(Serialize)]` does with a struct, reduced to the attributes the
    modelled records use: fields are written in declaration order, a field marked
    `skip_serializing_if = "Option::is_none"` disappears when it is `None`, and a
    field without that attribute is always written (an `Option` as `null`).
    Also the small value readers the decoders of this model are built from. */
module Serde {
  import opened Wrappers
  import opened Json

  /** One struct field as the serializer sees it: its name, and the value it is
      written as, or `None` when the skip attribute drops it. */
  datatype Slot = Slot(name: string, value: Option<Json>)

  function Names(slots: seq<Slot>): (ns: seq<string>)
    ensures |ns| == |slots|
    ensures forall i :: 0 <= i < |slots| ==> ns[i] == slots[i].name
  {
    seq(|slots|, i requires 0 <= i < |slots| => slots[i].name)
  }

  /** A field carrying `#[serde(skip_serializing_if = "Option::is_none")]`. */
  function Skippable<T>(name: string, o: Option<T>, encode: T -> Json): Slot {
    Slot(name, Lift(o, encode))
  }

  /** What a skippable field contributes: its encoding when set, nothing when not. */
  function Lift<T>(o: Option<T>, encode: T -> Json): (v: Option<Json>)
    ensures v.Some? <==> o.Some?
  {
    if o.Some? then Some(encode(o.value)) else None
  }

  /** 1 for a field that is set, 0 for one that is not. */
  function Present<T>(o: Option<T>): nat {
    if o.Some? then 1 else 0
  }

  /** A field without a skip attribute: it is always written. */
  function Always(name: string, v: Json): Slot {
    Slot(name, Some(v))
  }

  /** An `Option` written without a skip attribute: `None` becomes `null`. */
  function NullIfNone<T>(o: Option<T>, encode: T -> Json): (j: Json)
    ensures o.None? ==> j == JNull
    ensures o.Some? ==> j == encode(o.value)
  {
    if o.Some? then encode(o.value) else JNull
  }

  /** The number of slots that are written. */
  function Written(slots: seq<Slot>): nat {
    if |slots| == 0 then 0
    else (if slots[0].value.Some? then 1 else 0) + Written(slots[1..])
  }

  /** The object body serde emits: every written slot, in declaration order. */
  function SkipNone(slots: seq<Slot>): (fields: seq<Field>)
    ensures |fields| == Written(slots)
    ensures forall k :: k in Keys(fields) ==> k in Names(slots)
  {
    if |slots| == 0 then []
    else
      var rest := SkipNone(slots[1..]);
      assert Names(slots) == [slots[0].name] + Names(slots[1..]);
      assert forall f: seq<Field>, g: seq<Field> :: Keys(f + g) == Keys(f) + Keys(g);
      if slots[0].value.Some? then [(slots[0].name, slots[0].value.value)] + rest
      else rest
  }

  /** One step of `SkipNone` and `Written`, taken at position `i`. */
  lemma SkipNoneStep(slots: seq<Slot>, i: nat)
    requires i < |slots|
    ensures SkipNone(slots[i..]) == (if slots[i].value.Some? then [(slots[i].name, slots[i].value.value)] else []) + SkipNone(slots[i + 1..])
    ensures Written(slots[i..]) == (if slots[i].value.Some? then 1 else 0) + Written(slots[i + 1..])
  {
    assert slots[i..][1..] == slots[i + 1..];
  }

  /** With distinct field names, the emitted object holds each slot's value
      under its own name, and lacks the name exactly when the slot was dropped. */
  lemma {:induction false} LookupSlot(slots: seq<Slot>, i: nat)
    requires Distinct(Names(slots))
    requires i < |slots|
    ensures Get(SkipNone(slots), slots[i].name) == slots[i].value
  {
    var rest := SkipNone(slots[1..]);
    assert Names(slots[1..]) == Names(slots)[1..];
    if i == 0 {
      assert slots[0].name !in Names(slots[1..]);
      assert slots[0].name !in Keys(rest);
      if slots[0].value.Some? {
        assert SkipNone(slots)[1..] == rest;
      }
    } else {
      LookupSlot(slots[1..], i - 1);
      if slots[0].value.Some? {
        assert SkipNone(slots)[1..] == rest;
        assert slots[0].name != slots[i].name;
      }
    }
  }

  /** Distinct field names give an object with distinct keys. */
  lemma {:induction false} SkipNoneDistinct(slots: seq<Slot>)
    requires Distinct(Names(slots))
    ensures Distinct(Keys(SkipNone(slots)))
  {
    if |slots| > 0 {
      assert Names(slots[1..]) == Names(slots)[1..];
      SkipNoneDistinct(slots[1..]);
      var rest := SkipNone(slots[1..]);
      if slots[0].value.Some? {
        assert slots[0].name !in Names(slots[1..]);
        var fields := SkipNone(slots);
        assert fields == [(slots[0].name, slots[0].value.value)] + rest;
        var ks := Keys(fields);
        forall i, j | 0 <= i < j < |ks|
          ensures ks[i] != ks[j]
        {
          assert ks[j] == Keys(rest)[j - 1];
          if i == 0 {
            assert Keys(rest)[j - 1] in Keys(rest);
          } else {
            assert ks[i] == Keys(rest)[i - 1];
          }
        }
      }
    }
  }

  /** Every slot is written, so the object is exactly the slots in order. */
  lemma {:induction false} SkipNoneAllWritten(slots: seq<Slot>)
    requires forall i :: 0 <= i < |slots| ==> slots[i].value.Some?
    ensures Keys(SkipNone(slots)) == Names(slots)
  {
    if |slots| > 0 {
      SkipNoneAllWritten(slots[1..]);
      assert Names(slots) == [slots[0].name] + Names(slots[1..]);
      var fields := SkipNone(slots);
      assert fields[1..] == SkipNone(slots[1..]);
      assert Keys(fields) == [fields[0].0] + Keys(fields[1..]);
    }
  }

  // ---- readers used by the decoders that invert the encoders ----

  /** Reads back a field that may have been skipped. */
  function ReadOptional<T>(v: Option<Json>, read: Json -> Option<T>): Option<Option<T>> {
    if v.None? then Some(None)
    else
      var x :- read(v.value);
      Some(Some(x))
  }

  /** A skippable field reads back as it was, given a reader that inverts its encoder. */
  lemma ReadLift<T>(o: Option<T>, encode: T -> Json, read: Json -> Option<T>)
    requires forall x :: read(encode(x)) == Some(x)
    ensures ReadOptional(Lift(o, encode), read) == Some(o)
  {
  }

  /** An `Option` field read by `#[derive(Deserialize)]`: a missing key and an
      explicit `null` both give `None`. */
  function ReadOptionField<T>(v: Option<Json>, read: Json -> Option<T>): (r: Option<Option<T>>)
    ensures v.None? ==> r == Some(None)
  {
    if v.None? || v.value == JNull then Some(None)
    else
      var x :- read(v.value);
      Some(Some(x))
  }

  /** A skippable field reads back as it was through `ReadOptionField`, given a
      reader that inverts an encoder that never writes `null`. */
  lemma ReadOptionFieldLift<T>(o: Option<T>, encode: T -> Json, read: Json -> Option<T>)
    requires forall x :: read(encode(x)) == Some(x)
    requires forall x :: encode(x) != JNull
    ensures ReadOptionField(Lift(o, encode), read) == Some(o)
  {
  }

  /** Reads back a field that is always written. */
  function ReadRequired<T>(v: Option<Json>, read: Json -> Option<T>): Option<T> {
    if v.None? then None else read(v.value)
  }

  /** Reads back an `Option` written as its value or `null`. */
  function ReadNullable<T>(j: Json, read: Json -> Option<T>): Option<Option<T>> {
    if j == JNull then Some(None)
    else
      var x :- read(j);
      Some(Some(x))
  }

  function ReadString(j: Json): Option<string> {
    if j.JString? then Some(j.s) else None
  }

  function ReadBool(j: Json): Option<bool> {
    if j.JBool? then Some(j.b) else None
  }

  function ReadI32(j: Json): Option<i32> {
    if j.JNumber? && I32_MIN <= j.n <= I32_MAX then Some(j.n) else None
  }

  function ReadAny(j: Json): Option<Json> {
    Some(j)
  }

  /** A `Vec<String>` as serde writes it. */
  function Strings(ss: seq<string>): (j: Json)
    ensures j.JArray? && |j.items| == |ss|
    ensures forall i :: 0 <= i < |ss| ==> j.items[i] == JString(ss[i])
  {
    JArray(seq(|ss|, i requires 0 <= i < |ss| => JString(ss[i])))
  }

  function ReadStrings(j: Json): (r: Option<seq<string>>)
    ensures r.Some? ==> Strings(r.value) == j
  {
    if j.JArray? && forall i :: 0 <= i < |j.items| ==> j.items[i].JString? then
      var ss := seq(|j.items|, i requires 0 <= i < |j.items| => j.items[i].s);
      assert Strings(ss).items == j.items;
      Some(ss)
    else None
  }

  lemma StringsRoundTrip(ss: seq<string>)
    ensures ReadStrings(Strings(ss)) == Some(ss)
  {
    var r := ReadStrings(Strings(ss));
    assert r.Some?;
    assert r.value == ss;
  }

  function Str(s: string): Json {
    JString(s)
  }

  function Bool(b: bool): Json {
    JBool(b)
  }

  function Int(n: int): Json {
    JNumber(n)
  }

  function I32(n: i32): Json {
    JNumber(n)
  }

  function Verbatim(j: Json): Json {
    j
  }

  // ---- `#[serde(rename_all = "...")]` on enums ----

  /** The two case rules the modelled enums use. serde applies them to the Rust
      variant name character by character, ASCII only. */
  datatype RenameRule = Lowercase | Uppercase

  function RenameChar(rule: RenameRule, c: char): char {
    match rule
    case Lowercase => if 'A' <= c <= 'Z' then (c as int + 32) as char else c
    case Uppercase => if 'a' <= c <= 'z' then (c as int - 32) as char else c
  }

  /** The tag serde derives for a variant called `name` under `rule`. */
  function RenameAll(rule: RenameRule, name: string): (tag: string)
    ensures |tag| == |name|
    ensures forall i :: 0 <= i < |name| ==> tag[i] == RenameChar(rule, name[i])
  {
    seq(|name|, i requires 0 <= i < |name| => RenameChar(rule, name[i]))
  }
}

=== FILE: target.dfy ===
/** The delivery target of a message and the way `output_target` flattens it
    into the message object (src/message/target.rs, src/message/mod.rs). */
module Targets {
  import opened Wrappers
  import opened Json
  import opened Serde

  /** Exactly one of a device registration token, a topic name or a condition
      over topics, each carrying one string. */
  datatype Target = Token(value: string) | Topic(value: string) | Condition(value: string)

  /** The Rust variant name. */
  function VariantName(t: Target): string {
    match t
    case Token(_) => "Token"
    case Topic(_) => "Topic"
    case Condition(_) => "Condition"
  }

  /** The tag the derived `Serialize` would use, under `rename_all = "lowercase"`. */
  function TagName(t: Target): string {
    RenameAll(Lowercase, VariantName(t))
  }

  /** The three keys a target can be written under. */
  const TargetKeys: seq<string> := ["token", "topic", "condition"]

  /** `output_target`: one map entry whose key names the variant and whose value
      is the carried string, unchanged. The key is the derived lowercase tag. */
  function OutputTarget(t: Target): (entries: seq<Field>)
    ensures |entries| == 1
    ensures entries[0].0 in TargetKeys
    ensures entries[0].1 == JString(t.value)
  {
    match t
    case Token(token) => [("token", JString(token))]
    case Topic(topic) => [("topic", JString(topic))]
    case Condition(condition) => [("condition", JString(condition))]
  }

  /** Reads the target back out of a message object: exactly one of the three
      target keys must be present, holding a string. */
  function ReadTarget(fields: seq<Field>): Option<Target> {
    var token := Get(fields, "token");
    var topic := Get(fields, "topic");
    var condition := Get(fields, "condition");
    if token.Some? && topic.None? && condition.None? then
      var s :- ReadString(token.value); Some(Token(s))
    else if token.None? && topic.Some? && condition.None? then
      var s :- ReadString(topic.value); Some(Topic(s))
    else if token.None? && topic.None? && condition.Some? then
      var s :- ReadString(condition.value); Some(Condition(s))
    else None
  }

  /** Reading the target back from any object that holds the target entry and
      no other target key recovers the target. */
  lemma ReadTargetAmong(t: Target, before: seq<Field>, after: seq<Field>)
    requires forall k :: k in Keys(before) ==> k !in TargetKeys
    requires forall k :: k in Keys(after) ==> k !in TargetKeys
    ensures ReadTarget(before + OutputTarget(t) + after) == Some(t)
  {
    var entry := OutputTarget(t)[0];
    assert before + OutputTarget(t) + after == before + [entry] + after;
    assert entry.0 !in Keys(before) && entry.0 !in Keys(after);
    GetAround(before, entry, after);
    match t
    case Token(_) =>
      AbsentAround(before, entry, after, "topic");
      AbsentAround(before, entry, after, "condition");
    case Topic(_) =>
      AbsentAround(before, entry, after, "token");
      AbsentAround(before, entry, after, "condition");
    case Condition(_) =>
      AbsentAround(before, entry, after, "token");
      AbsentAround(before, entry, after, "topic");
  }

  /** A key found in none of the three parts is absent from the whole. */
  lemma AbsentAround(before: seq<Field>, entry: Field, after: seq<Field>, k: string)
    requires k !in Keys(before) && k != entry.0 && k !in Keys(after)
    ensures Get(before + [entry] + after, k).None?
  {
    GetAppend(before + [entry], after, k);
    GetAppend(before, [entry], k);
  }

  /** The value under the single key that occurs once between two key-disjoint parts. */
  lemma GetAround(before: seq<Field>, entry: Field, after: seq<Field>)
    requires entry.0 !in Keys(before) && entry.0 !in Keys(after)
    ensures Get(before + [entry] + after, entry.0) == Some(entry.1)
  {
    var fields := before + [entry] + after;
    var i := |before|;
    assert fields[i] == entry;
    GetFrom(fields, i);
  }

  lemma {:induction false} GetFrom(fields: seq<Field>, i: nat)
    requires i < |fields|
    requires forall j :: 0 <= j < |fields| && j != i ==> fields[j].0 != fields[i].0
    ensures Get(fields, fields[i].0) == Some(fields[i].1)
  {
    assert Keys(fields[1..]) == Keys(fields)[1..];
    if i == 0 {
      assert fields[0].0 !in Keys(fields[1..]);
    } else {
      GetFrom(fields[1..], i - 1);
    }
  }

  /** Round trip: what `output_target` writes reads back as the same target. */
  lemma OutputTargetRoundTrip(t: Target)
    ensures ReadTarget(OutputTarget(t)) == Some(t)
  {
    ReadTargetAmong(t, [], []);
    assert [] + OutputTarget(t) + [] == OutputTarget(t);
  }

  /** Different variants or different strings give different entries. */
  lemma OutputTargetInjective(a: Target, b: Target)
    ensures OutputTarget(a) == OutputTarget(b) <==> a == b
  {
    if OutputTarget(a) == OutputTarget(b) {
      OutputTargetRoundTrip(a);
      OutputTargetRoundTrip(b);
    }
  }

  /** The derived equality: two targets are equal exactly when they have the
      same variant tag and carry the same string. */
  lemma TargetEquality(a: Target, b: Target)
    ensures a == b <==> (TagName(a) == TagName(b) && a.value == b.value)
  {
    if TagName(a) == TagName(b) && a.value == b.value {
      TagIsOutputKey(a);
      TagIsOutputKey(b);
      assert OutputTarget(a) == OutputTarget(b);
      OutputTargetInjective(a, b);
    }
  }

  /** The three variants' tags are the lowercase keys `output_target` writes. */
  lemma TagIsOutputKey(t: Target)
    ensures TagName(t) == OutputTarget(t)[0].0
  {
    var tag := TagName(t);
    match t
    case Token(_) =>
      assert tag[0] == 't' && tag[1] == 'o' && tag[2] == 'k' && tag[3] == 'e' && tag[4] == 'n';
    case Topic(_) =>
      assert tag[0] == 't' && tag[1] == 'o' && tag[2] == 'p' && tag[3] == 'i' && tag[4] == 'c';
    case Condition(_) =>
      assert tag[0] == 'c' && tag[1] == 'o' && tag[2] == 'n' && tag[3] == 'd' && tag[4] == 'i';
      assert tag[5] == 't' && tag[6] == 'i' && tag[7] == 'o' && tag[8] == 'n';
  }
}

=== FILE: webpush.dfy ===
/** Web push options: `WebpushConfig` and `WebpushFcmOptions`
    (src/web/webpush_config.rs, src/web/webpush_fcm_options.rs). The older
    revision in src/web/mod.rs declares the same fields with the same
    attributes in the same order, so its wire form is the one modelled here.
    The wire-side `WebpushConfigInternal` that `Message::finalize` produces is
    imported at src/message/mod.rs:19 but declared outside
    src/web/webpush_config.rs, and is not part of this model; the conversion
    is taken to be the identity. */
module Webpush {
  import opened Wrappers
  import opened Json
  import opened Serde

  /** Options for features of the FCM SDK for Web. Both fields are plain
      strings with no skip attribute, so both keys are always written. */
  datatype WebpushFcmOptions = WebpushFcmOptions(link: string, analytics_label: string)

  /** `#[derive(Default)]`: two empty strings. */
  const DefaultWebpushFcmOptions: WebpushFcmOptions := WebpushFcmOptions("", "")

  function EncodeWebpushFcmOptions(o: WebpushFcmOptions): Json {
    JObject(SkipNone([Always("link", Str(o.link)), Always("analytics_label", Str(o.analytics_label))]))
  }

  /** Both keys, `link` first, whatever the strings hold (even the default,
      empty ones). */
  lemma WebpushFcmOptionsEncoding(o: WebpushFcmOptions)
    ensures EncodeWebpushFcmOptions(o) == JObject([("link", JString(o.link)), ("analytics_label", JString(o.analytics_label))])
  {
    var slots := [Always("link", Str(o.link)), Always("analytics_label", Str(o.analytics_label))];
    SkipNoneStep(slots, 0);
    SkipNoneStep(slots, 1);
    assert slots[0..] == slots;
    assert slots[2..] == [];
  }

  /** Reads the options back; both keys are required. */
  function ReadWebpushFcmOptions(j: Json): Option<WebpushFcmOptions> {
    if !j.JObject? then None
    else
      var link :- ReadRequired(Get(j.fields, "link"), ReadString);
      var analyticsLabel :- ReadRequired(Get(j.fields, "analytics_label"), ReadString);
      Some(WebpushFcmOptions(link, analyticsLabel))
  }

  lemma WebpushFcmOptionsRoundTrip(o: WebpushFcmOptions)
    ensures ReadWebpushFcmOptions(EncodeWebpushFcmOptions(o)) == Some(o)
  {
    WebpushFcmOptionsEncoding(o);
    var fields := EncodeWebpushFcmOptions(o).fields;
    assert "link" != "analytics_label";
    assert Get(fields, "link") == Some(JString(o.link));
    assert Get(fields, "analytics_label") == Some(JString(o.analytics_label));
  }

  datatype WebpushConfig = WebpushConfig(
    headers: Option<Json>,
    data: Option<Json>,
    notification: Option<Json>,
    fcm_options: Option<WebpushFcmOptions>)

  /** `#[derive(Default)]`: nothing set. */
  const DefaultWebpushConfig: WebpushConfig := WebpushConfig(None, None, None, None)

  const WebpushConfigFields: seq<string> := ["headers", "data", "notification", "fcm_options"]

  /** The struct as the serializer sees it: every field is skippable; the
      headers, the data and the notification are JSON values written as they
      are. */
  function WebpushConfigSlots(n: WebpushConfig): seq<Slot> {
    [ Skippable("headers", n.headers, Verbatim),
      Skippable("data", n.data, Verbatim),
      Skippable("notification", n.notification, Verbatim),
      Skippable("fcm_options", n.fcm_options, EncodeWebpushFcmOptions) ]
  }

  lemma WebpushConfigFieldsDistinct()
    ensures Distinct(WebpushConfigFields)
  {
  }

  lemma WebpushConfigSlotNames(n: WebpushConfig)
    ensures Names(WebpushConfigSlots(n)) == WebpushConfigFields
  {
  }

  /** The number of fields that are set. */
  function SetFields(n: WebpushConfig): nat {
    Present(n.headers)
    + Present(n.data)
    + Present(n.notification)
    + Present(n.fcm_options)
  }

  /** The wire form. */
  function EncodeWebpushConfig(n: WebpushConfig): (j: Json)
    ensures j.JObject?
  {
    JObject(SkipNone(WebpushConfigSlots(n)))
  }

  /** Reads the wire form back. */
  function DecodeWebpushConfig(j: Json): Option<WebpushConfig> {
    if !j.JObject? then None
    else
      var headers :- ReadOptional(Get(j.fields, "headers"), ReadAny);
      var data :- ReadOptional(Get(j.fields, "data"), ReadAny);
      var notification :- ReadOptional(Get(j.fields, "notification"), ReadAny);
      var fcm_options :- ReadOptional(Get(j.fields, "fcm_options"), ReadWebpushFcmOptions);
      Some(WebpushConfig(headers, data, notification, fcm_options))
  }

  // ---- one lemma per field: where it lands and whether it counts ----

  /** Position `i` of the slot list is found under its own name. */
  lemma WebpushConfigSlotAt(n: WebpushConfig, i: nat)
    requires i < 4
    ensures Get(EncodeWebpushConfig(n).fields, WebpushConfigSlots(n)[i].name) == WebpushConfigSlots(n)[i].value
  {
    WebpushConfigFieldsDistinct();
    WebpushConfigSlotNames(n);
    LookupSlot(WebpushConfigSlots(n), i);
  }

  lemma WebpushConfigHeaders(n: WebpushConfig)
    ensures Get(EncodeWebpushConfig(n).fields, "headers") == Lift(n.headers, Verbatim)
  {
    var s := WebpushConfigSlots(n);
    assert s[0] == Skippable("headers", n.headers, Verbatim);
    WebpushConfigSlotAt(n, 0);
  }

  lemma CountWebpushConfigHeaders(n: WebpushConfig)
    ensures Written(WebpushConfigSlots(n)) == Present(n.headers) + Written(WebpushConfigSlots(n)[1..])
  {
    var s := WebpushConfigSlots(n);
    assert s[0] == Skippable("headers", n.headers, Verbatim);
    SkipNoneStep(s, 0);
    assert s[0..] == s;
  }

  lemma WebpushConfigData(n: WebpushConfig)
    ensures Get(EncodeWebpushConfig(n).fields, "data") == Lift(n.data, Verbatim)
  {
    var s := WebpushConfigSlots(n);
    assert s[1] == Skippable("data", n.data, Verbatim);
    WebpushConfigSlotAt(n, 1);
  }

  lemma CountWebpushConfigData(n: WebpushConfig)
    ensures Written(WebpushConfigSlots(n)[1..]) == Present(n.data) + Written(WebpushConfigSlots(n)[2..])
  {
    var s := WebpushConfigSlots(n);
    assert s[1] == Skippable("data", n.data, Verbatim);
    SkipNoneStep(s, 1);
  }

  lemma WebpushConfigNotification(n: WebpushConfig)
    ensures Get(EncodeWebpushConfig(n).fields, "notification") == Lift(n.notification, Verbatim)
  {
    var s := WebpushConfigSlots(n);
    assert s[2] == Skippable("notification", n.notification, Verbatim);
    WebpushConfigSlotAt(n, 2);
  }

  lemma CountWebpushConfigNotification(n: WebpushConfig)
    ensures Written(WebpushConfigSlots(n)[2..]) == Present(n.notification) + Written(WebpushConfigSlots(n)[3..])
  {
    var s := WebpushConfigSlots(n);
    assert s[2] == Skippable("notification", n.notification, Verbatim);
    SkipNoneStep(s, 2);
  }

  lemma WebpushConfigFcmOptions(n: WebpushConfig)
    ensures Get(EncodeWebpushConfig(n).fields, "fcm_options") == Lift(n.fcm_options, EncodeWebpushFcmOptions)
  {
    var s := WebpushConfigSlots(n);
    assert s[3] == Skippable("fcm_options", n.fcm_options, EncodeWebpushFcmOptions);
    WebpushConfigSlotAt(n, 3);
  }

  lemma CountWebpushConfigFcmOptions(n: WebpushConfig)
    ensures Written(WebpushConfigSlots(n)[3..]) == Present(n.fcm_options)
  {
    var s := WebpushConfigSlots(n);
    assert s[3] == Skippable("fcm_options", n.fcm_options, EncodeWebpushFcmOptions);
    SkipNoneStep(s, 3);
    assert s[4..] == [];
  }


  /** Each field is written under its own name exactly when it is set, the JSON-valued ones as the values they hold. */
  lemma WebpushConfigFieldsWritten(n: WebpushConfig)
    ensures Get(EncodeWebpushConfig(n).fields, "headers") == Lift(n.headers, Verbatim)
    ensures Get(EncodeWebpushConfig(n).fields, "data") == Lift(n.data, Verbatim)
    ensures Get(EncodeWebpushConfig(n).fields, "notification") == Lift(n.notification, Verbatim)
    ensures Get(EncodeWebpushConfig(n).fields, "fcm_options") == Lift(n.fcm_options, EncodeWebpushFcmOptions)
  {
    WebpushConfigHeaders(n);
    WebpushConfigData(n);
    WebpushConfigNotification(n);
    WebpushConfigFcmOptions(n);
  }

  /** The object has no key twice and no key outside the field names. */
  lemma WebpushConfigKeys(n: WebpushConfig)
    ensures Distinct(Keys(EncodeWebpushConfig(n).fields))
    ensures forall k :: k in Keys(EncodeWebpushConfig(n).fields) ==> k in WebpushConfigFields
  {
    WebpushConfigFieldsDistinct();
    WebpushConfigSlotNames(n);
    SkipNoneDistinct(WebpushConfigSlots(n));
  }

  /** The serializer writes one entry per set field. */
  lemma WebpushConfigWritten(n: WebpushConfig)
    ensures Written(WebpushConfigSlots(n)) == SetFields(n)
  {
    CountWebpushConfigHeaders(n);
    CountWebpushConfigData(n);
    CountWebpushConfigNotification(n);
    CountWebpushConfigFcmOptions(n);
  }

  /** One key per set field, so a configuration with nothing set is `{}`. */
  lemma WebpushConfigKeyCount(n: WebpushConfig)
    ensures |EncodeWebpushConfig(n).fields| == SetFields(n)
    ensures SetFields(n) == 0 ==> EncodeWebpushConfig(n) == JObject([])
  {
    WebpushConfigWritten(n);
  }

  /** Each field's reader inverts its encoder. */
  lemma WebpushConfigReadsBack(n: WebpushConfig)
    ensures ReadOptional(Lift(n.headers, Verbatim), ReadAny) == Some(n.headers)
    ensures ReadOptional(Lift(n.data, Verbatim), ReadAny) == Some(n.data)
    ensures ReadOptional(Lift(n.notification, Verbatim), ReadAny) == Some(n.notification)
    ensures ReadOptional(Lift(n.fcm_options, EncodeWebpushFcmOptions), ReadWebpushFcmOptions) == Some(n.fcm_options)
  {
    assert forall x :: ReadAny(Verbatim(x)) == Some(x);
    forall x ensures ReadWebpushFcmOptions(EncodeWebpushFcmOptions(x)) == Some(x) {
      WebpushFcmOptionsRoundTrip(x);
    }
    ReadLift(n.headers, Verbatim, ReadAny);
    ReadLift(n.data, Verbatim, ReadAny);
    ReadLift(n.notification, Verbatim, ReadAny);
    ReadLift(n.fcm_options, EncodeWebpushFcmOptions, ReadWebpushFcmOptions);
  }

  /** Any object holding each field's encoding under its name decodes to the record. */
  lemma WebpushConfigDecodeFrom(j: Json, n: WebpushConfig)
    requires j.JObject?
    requires Get(j.fields, "headers") == Lift(n.headers, Verbatim)
    requires Get(j.fields, "data") == Lift(n.data, Verbatim)
    requires Get(j.fields, "notification") == Lift(n.notification, Verbatim)
    requires Get(j.fields, "fcm_options") == Lift(n.fcm_options, EncodeWebpushFcmOptions)
    ensures DecodeWebpushConfig(j) == Some(n)
  {
    WebpushConfigReadsBack(n);
  }

  /** Round trip: the wire form reads back as the same configuration. */
  lemma WebpushConfigRoundTrip(n: WebpushConfig)
    ensures DecodeWebpushConfig(EncodeWebpushConfig(n)) == Some(n)
  {
    WebpushConfigFieldsWritten(n);
    WebpushConfigDecodeFrom(EncodeWebpushConfig(n), n);
  }

  /** The default configuration is written as `{}`. */
  lemma DefaultWebpushConfigEncoding()
    ensures EncodeWebpushConfig(DefaultWebpushConfig) == JObject([])
  {
    WebpushConfigKeyCount(DefaultWebpushConfig);
  }
}

=== FILE: wrappers.dfy ===
/** Failure-compatible Option and Result, the Dafny counterparts of Rust's
    `Option<T>` and `Result<T, E>`. Both work with `:-`. */
module Wrappers {

  datatype Option<+T> = None | Some(value: T) {

    predicate IsFailure() {
      None?
    }

    function PropagateFailure<U>(): Option<U>
      requires None?
    {
      None
    }

    function Extract(): T
      requires Some?
    {
      value
    }
  }

  datatype Result<+T, +E> = Ok(value: T) | Err(error: E) {

    predicate IsFailure() {
      Err?
    }

    function PropagateFailure<U>(): Result<U, E>
      requires Err?
    {
      Err(error)
    }

    function Extract(): T
      requires Ok?
    {
      value
    }
  }

  /** `Result::map_err`. */
  function MapErr<T, E, F>(r: Result<T, E>, f: E -> F): (m: Result<T, F>)
    ensures r.Ok? <==> m.Ok?
    ensures r.Ok? ==> m.value == r.value
    ensures r.Err? ==> m.error == f(r.error)
  {
    if r.Ok? then Ok(r.value) else Err(f(r.error))
  }
}
